=== FILE: README.md ===
# woolf-intertextuality, modelled in Dafny

This project models the local logic of the woolf-intertextuality pipeline. The pipeline looks for intertextual echoes of Homer's *Odyssey* in Virginia Woolf's *Mrs Dalloway*. The model covers three layers:

- **Preparing the texts.** This covers whitespace cleaning, footnote removal and em-dash replacement. It covers paragraph and sentence chunking. It covers the "current chapter" tracking of the Mrs Dalloway preprocessors and the per-book loop of the Odyssey preprocessors, with their exact context headers. It also covers the metadata numbering of the two `TextPreprocessor` classes.
- **The chunk store.** This is a JSON Lines file of chunks: saving, loading with skip-and-continue, merging, and the round trip between save and load.
- **Retrieval and control.** This covers the split in `embed_documents`, the similar/dissimilar selection of the search step and the indexing step's output. It covers the orchestrator's key dispatch, the facade's cache of analysed pairs, and the `TokenCounter` ledger.

Every library the code calls becomes a function-typed parameter:

- NLTK's `sent_tokenize`;
- Haystack's cleaner and splitter chain;
- `json.dumps` / `json.loads`;
- the OpenAI embedders;
- the Qdrant queries;
- the language-model analysis step;
- tiktoken's `count_tokens`;
- the `show` rendering of a non-string metadata value.

Python exceptions are modelled as `Result` values: `KeyError`, `TypeError`, `ValueError` and `AttributeError`. A `KeyError` carries the missing key and an `AttributeError` the missing attribute's name; Python's message (`'Document' object has no attribute 'analysis'`) is not spelled out. `ValueError` and `TypeError` carry a message. Several `TypeError` messages are the model's own abbreviations, not Python's text; "## Left out" lists them. Strings are `seq<char>`, prices and costs are exact `real`s, and integers are unbounded.

Modules follow the source files:

| module | source |
|---|---|
| `Wrappers` | `Option`, `Result`, `Error` |
| `Seqs`, `Strings`, `Json` | helpers: Python's `str.strip`, `str.join`, `str.isspace`, decimal rendering, JSON values |
| `TextProcessing` | `src/utils/text_processing.py` |
| `Footnotes` | the footnote regex and the em-dash replacement shared by the Odyssey cleaners |
| `Chapters` | the chapter-heading test and the label in force at a position |
| `DallowayChunks` | `src/data_preparation/preprocess_dalloway.py` |
| `DallowayScript` | `scripts/01_data_preperation/preprocess_dalloway.py` |
| `Books` | the `BOOK <roman>.` split read as (title, body) pairs, and the per-book loop |
| `OdysseyChunks` | `src/data_preparation/preprocess_odyssey.py` |
| `OdysseyScript`, `ScriptHeaders` | `scripts/01_data_preperation/preprocess_odyssey.py` |
| `TextPreprocessor` | `src/utils/text_preprocessor.py` |
| `Preprocessing` | `src/data_preparation/preprocessing.py` |
| `ChunkStore` | `src/data_preparation/preprocessed_data_store.py` |
| `Documents`, `Embedder` | Haystack's `Document`, `src/embeddings/openai_embedder.py` |
| `DocumentIndexing`, `SimilaritySearch` | `src/pipeline/steps/` |
| `Orchestrator`, `Facade` | `src/pipeline/orchestrator.py`, `src/pipeline/pipeline_facade.py` |
| `TokenCounter` | `src/utils/token_counter.py` |

`embed_documents` does not keep input order. Its output is the documents that already have an embedding, then the embedder's output for the others. The model follows the code (`Embedder.OrderNotPreserved`).

## Model

| member | source | states |
|---|---|---|
| Strings.Strip | src/utils/text_processing.py:7 | `strip()` gives a trimmed slice of the text, cutting only whitespace from either end |
| TextProcessing.RunLength | src/utils/text_processing.py:5-6 | a `+` run is the longest prefix of class characters: all of them are in the class, and the next one is not |
| TextProcessing.CollapseRuns | src/utils/text_processing.py:5-6 | `re.sub(P+, ' ', t)` never lengthens the text and is empty only for empty input; afterwards every class character is a space, a leading run becomes a space, and any other first character is kept |
| TextProcessing.CollapseRunsSeparated | src/utils/text_processing.py:6 | after `\s+` is collapsed, no two whitespace characters are adjacent |
| TextProcessing.CollapseRunsFixed | src/utils/text_processing.py:5-6 | a text whose class characters are already lone spaces is unchanged by the substitution |
| TextProcessing.CollapseRunsNonSpace | src/utils/text_processing.py:5-6 | collapsing whitespace runs changes only whitespace: the sequence of non-space characters is unchanged |
| TextProcessing.CollapseRunsPrefix | src/utils/text_processing.py:5-6 | a prefix the substitution would leave alone, and that does not end inside a run, survives whatever follows it |
| TextProcessing.CollapseRunsSplit | src/utils/text_processing.py:5-6 | the substitution works run by run: at a cut that no run straddles, the text collapses as its two sides collapse separately |
| TextProcessing.CollapseRunsRun | src/utils/text_processing.py:5-6 | every maximal run of class characters becomes exactly one `' '`, and the text on either side is collapsed on its own |
| TextProcessing.CollapseNested | src/utils/text_processing.py:5-6 | collapsing `\n+` first and then `\s+` gives what `\s+` alone gives |
| TextProcessing.Words | src/utils/text_processing.py:4-7 | `t.split()`: the words are non-empty and contain no whitespace |
| TextProcessing.StripCollapseWords | src/utils/text_processing.py:6-7 | stripping the `\s+`-collapsed text gives the words joined by single spaces |
| TextProcessing.CleanTextWords | src/utils/text_processing.py:4-7 | `clean_text(t)` is `' '.join(t.split())`: the words of the text, in order, separated by exactly one space |
| TextProcessing.CleanText | src/utils/text_processing.py:4-7 | `clean_text` output has no leading or trailing whitespace, no newline, and no two adjacent whitespace characters; every whitespace character in it is `' '`; it keeps the input's non-space characters in order |
| TextProcessing.StripCollapsed | src/utils/text_processing.py:6-7 | stripping a collapsed text keeps it collapsed, newline-free, and with the same non-space characters |
| TextProcessing.CleanTextIdempotent | src/utils/text_processing.py:4-7 | `clean_text(clean_text(t)) == clean_text(t)` |
| TextProcessing.CleanTextPrefix | src/utils/text_processing.py:4-7 | a clean, trimmed prefix is the start of the cleaned whole text |
| TextProcessing.FirstBlank | src/utils/text_processing.py:11 | the leftmost `\n\n` at or after a position; none lies before it |
| TextProcessing.SplitParagraphs | src/utils/text_processing.py:11 | `re.split(r'\n\n+', t)` gives at least one piece, and no piece contains a blank line |
| TextProcessing.Separators | src/utils/text_processing.py:11 | the separators `re.split` cuts at: one fewer than the pieces, each a run of two or more newlines |
| TextProcessing.SplitParagraphsHead | src/utils/text_processing.py:11 | the first piece is the text up to its first blank line |
| TextProcessing.SplitParagraphsRejoin | src/utils/text_processing.py:11 | the pieces interleaved with the separators give back the text, and no piece ends or starts with a newline at a cut, so every separator is a maximal newline run |
| TextProcessing.SplitParagraphsSingle | src/utils/text_processing.py:11 | a text without a blank line splits into itself alone |
| TextProcessing.SplitParagraphsJoin | src/utils/text_processing.py:11 | when every separator is exactly two newlines, `"\n\n".join` of the pieces gives the text back |
| TextProcessing.SplitParagraphsPair | src/utils/text_processing.py:11 | two blank-line-free paragraphs separated by one blank line split into exactly those two |
| TextProcessing.CleanTextOneParagraph | src/utils/text_processing.py:4-11 | paragraph mode applied to `clean_text` output returns exactly one chunk, the cleaned text |
| TextProcessing.Groups | src/utils/text_processing.py:14 | every sentence group holds between 1 and k sentences |
| TextProcessing.GroupsPartition | src/utils/text_processing.py:14 | the groups, concatenated in order, are exactly the sentence list |
| TextProcessing.GroupsCount | src/utils/text_processing.py:14 | there are ceil(n/k) groups, and none exactly when there are no sentences |
| TextProcessing.GroupAt | src/utils/text_processing.py:14 | group j is `sentences[j*k : min(j*k+k, n)]` |
| TextProcessing.GroupSentences | src/utils/text_processing.py:14 | `range(0, n, 0)` raises `ValueError` exactly when k = 0; a negative k gives no chunks |
| TextProcessing.SentenceChunks | src/utils/text_processing.py:13-14 | for k > 0 there are ceil(n/k) chunks, and chunk j is the `' '`-join of sentences j*k up to min((j+1)*k, n) |
| TextProcessing.SplitIntoChunks | src/utils/text_processing.py:9-14 | `split_into_chunks` fails exactly in sentence mode with k = 0; paragraph mode is the blank-line split |
| Footnotes.DigitsEnd | scripts/01_data_preperation/preprocess_odyssey.py:27 | the `\d+` scan ends at the first non-digit |
| Footnotes.MarkerStartIff | scripts/01_data_preperation/preprocess_odyssey.py:27 | the regex engine's test at a position succeeds exactly when a `[digits]` marker opens there |
| Footnotes.RemoveFrom | scripts/01_data_preperation/preprocess_odyssey.py:27 | the text surviving from a position is never longer than what remains |
| Footnotes.Resume | scripts/01_data_preperation/preprocess_odyssey.py:27 | the lazy `.*?` before the `\n\n`-or-end lookahead stops at the first `\n\n` after the marker's closing bracket, or at the end; no blank line starts before it |
| Footnotes.RemoveFootnotes | scripts/01_data_preperation/preprocess_odyssey.py:27 | after the substitution, no `[digits]` marker is left anywhere, and the text is no longer |
| Footnotes.RemoveFootnotesSpan | scripts/01_data_preperation/preprocess_odyssey.py:27 | a text without a marker is unchanged; otherwise the first footnote is deleted from its `[` up to, not including, the first blank line after it, and the text before it is kept |
| Footnotes.FirstMarker | scripts/01_data_preperation/preprocess_odyssey.py:27 | the leftmost marker at or after a position |
| Footnotes.RemoveFromPrefix | scripts/01_data_preperation/preprocess_odyssey.py:27 | the text before the first marker is kept verbatim, and what follows is the removal resumed at the first blank line after the marker's digits, or at the end |
| Footnotes.RemoveFromClean | scripts/01_data_preperation/preprocess_odyssey.py:27 | no output position starts a marker, including markers the deletions could have created |
| Footnotes.RemoveFootnotesIdentity | scripts/01_data_preperation/preprocess_odyssey.py:27 | a text without markers is left unchanged |
| Footnotes.RemoveFootnotesIdempotent | scripts/01_data_preperation/preprocess_odyssey.py:27 | removing footnotes twice removes nothing more |
| Footnotes.FootnoteExample | scripts/01_data_preperation/preprocess_odyssey.py:27 | with `re.DOTALL` a marker deletes through single newlines and stops before the blank line: `"a[1] b\nc\n\nd"` becomes `"a\n\nd"` |
| Footnotes.ReplaceEmDash | scripts/01_data_preperation/preprocess_odyssey.py:33 | `replace('—', '-')` keeps the length and every other character, leaves no em dash, and keeps whitespace positions |
| Footnotes.ReplaceEmDashNoMarker | scripts/01_data_preperation/preprocess_odyssey.py:27-33 | the dash replacement cannot create a footnote marker |
| Footnotes.SliceNoMarker | src/utils/text_preprocessor.py:28-32 | a slice of a marker-free text is marker-free, so `strip()` after footnote removal leaves none |
| Chapters.LabelIsLastHeading | src/data_preparation/preprocess_dalloway.py:27-29 | the label in force is the stripped text of the last heading seen |
| Chapters.LabelWithoutHeading | src/data_preparation/preprocess_dalloway.py:23 | before any heading the label is `Chapter 1` |
| Chapters.Headings | src/data_preparation/preprocess_dalloway.py:27 | the number of headings among the first n chunks is at most n |
| DallowayChunks.LabelChunks | src/data_preparation/preprocess_dalloway.py:22-36 | the loop, with its invariant, produces for each position either nothing (a heading) or the chunk under the current label and the number i+1 |
| DallowayChunks.Visit | src/data_preparation/preprocess_dalloway.py:25-36 | one iteration: a heading replaces the label and emits nothing; any other chunk is emitted under the current label |
| DallowayChunks.HeadingStep | src/data_preparation/preprocess_dalloway.py:27-29 | a heading chunk becomes the label, stripped, and adds no output |
| DallowayChunks.TextStep | src/data_preparation/preprocess_dalloway.py:32-36 | a text chunk keeps the label and appends `Context: Mrs Dalloway by Virginia Woolf, {label}. Chunk {i+1}, Themes may include post-war society, memory, and time.\n\n` + chunk |
| DallowayChunks.EmittedCount | src/data_preparation/preprocess_dalloway.py:25-36 | the output count is the input count minus the headings |
| DallowayChunks.EmittedAt | src/data_preparation/preprocess_dalloway.py:25-36 | the non-heading chunk at position i lands at output position i − (headings before i), under the label in force at i, numbered i+1, so numbers skip over headings |
| DallowayChunks.HeadingsMono | src/data_preparation/preprocess_dalloway.py:25-36 | output positions are monotone in input positions, so non-heading order is preserved |
| DallowayChunks.SwallowedHeading | src/data_preparation/preprocess_dalloway.py:27-28 | a chunk that merely begins with `Chapter N` is taken whole as the label and emits nothing |
| DallowayChunks.SwallowedExample | src/data_preparation/preprocess_dalloway.py:27 | a two-sentence chunk starting `Chapter 2` matches the heading test |
| DallowayChunks.PreprocessDalloway | src/data_preparation/preprocess_dalloway.py:12-41 | the written content is the `"\n\n"`-join of the loop's outputs over the chunks of the cleaned text, and it fails exactly in sentence mode with k = 0 |
| DallowayScript.ParagraphChunks | scripts/01_data_preperation/preprocess_dalloway.py:42-46 | a paragraph is its own chunk in paragraph mode; its sentence groups otherwise, failing only for k = 0 |
| DallowayScript.EmitBlocks | scripts/01_data_preperation/preprocess_dalloway.py:33-54 | the paragraph loop yields, in order, each non-heading paragraph's headed chunks under the label in force |
| DallowayScript.EmitStep | scripts/01_data_preperation/preprocess_dalloway.py:36-54 | one paragraph contributes its block in front of the rest |
| DallowayScript.BlocksCons | scripts/01_data_preperation/preprocess_dalloway.py:36 | the blocks from paragraph i on are block i followed by the blocks from i+1 |
| DallowayScript.EmitParagraph | scripts/01_data_preperation/preprocess_dalloway.py:42-54 | a text paragraph's headers read `Paragraph {i+1}, ` or `Sentences {j*k+1}-{(j+1)*k}, ` under the current chapter |
| DallowayScript.EmitFails | scripts/01_data_preperation/preprocess_dalloway.py:44-46 | with k = 0 the script fails exactly when some paragraph is not a heading |
| DallowayScript.EmitErr | scripts/01_data_preperation/preprocess_dalloway.py:36-54 | from the first paragraph the loop fails exactly in sentence mode with k = 0 when some paragraph is not a heading |
| DallowayScript.PreprocessAsWritten | scripts/01_data_preperation/preprocess_dalloway.py:22-58 | as written, the script fails exactly in sentence mode with k = 0 when the cleaned text does not open with a chapter heading |
| DallowayScript.AsWrittenOneParagraph | scripts/01_data_preperation/preprocess_dalloway.py:28-54 | cleaning leaves one paragraph: a heading writes nothing; otherwise the whole text is written under `Chapter 1`, `Paragraph 1` |
| DallowayScript.HeadingSurvivesCleaning | scripts/01_data_preperation/preprocess_dalloway.py:10-20 | `clean_text` keeps a leading `Chapter N` |
| DallowayScript.AsWrittenDropsChapterText | scripts/01_data_preperation/preprocess_dalloway.py:28-40 | a text opening with a chapter heading produces an empty file |
| DallowayScript.CleanEach | scripts/01_data_preperation/preprocess_dalloway.py:10-20 | the corrected order cleans every paragraph on its own, position by position |
| DallowayScript.PreprocessCorrected | scripts/01_data_preperation/preprocess_dalloway.py:22-58 | corrected, the script fails exactly in sentence mode with k = 0 when some separately cleaned paragraph is not a heading |
| DallowayScript.CorrectedOf | scripts/01_data_preperation/preprocess_dalloway.py:31-58 | the corrected result is the joined loop output over the cleaned paragraphs |
| DallowayScript.HeadingThenText | scripts/01_data_preperation/preprocess_dalloway.py:36-54 | a heading paragraph then a text paragraph give one chunk, under the heading, as `Paragraph 2` |
| DallowayScript.CorrectedKeepsChapterText | scripts/01_data_preperation/preprocess_dalloway.py:28-58 | with the correction, a heading paragraph followed by text writes that text under the heading's chapter |
| DallowayScript.CorrectedBlocks | scripts/01_data_preperation/preprocess_dalloway.py:31-58 | with the correction, the content is the joined blocks of the separately cleaned paragraphs |
| Books.BookPairs | src/data_preparation/preprocess_odyssey.py:19-24 | the pieces after the first are read as (stripped title, body) pairs; there are (pieces−1)/2 books, with trimmed titles |
| Books.BookAt | src/data_preparation/preprocess_odyssey.py:22-24 | book b is made of pieces 2b+1 and 2b+2 |
| Books.PreambleDiscarded | src/data_preparation/preprocess_odyssey.py:19 | the text before the first `BOOK` heading plays no part |
| Books.Outputs | src/data_preparation/preprocess_odyssey.py:22-37 | when every book succeeds, entry b is book b's output |
| Books.ForEachBookOk | src/data_preparation/preprocess_odyssey.py:22-37 | the book loop succeeds exactly when every book does |
| Books.ForEachBookResult | src/data_preparation/preprocess_odyssey.py:22-37 | the loop's output is the books' outputs concatenated in book order |
| Books.OutputAt | src/data_preparation/preprocess_odyssey.py:31-37 | output j of book b lands at the book's offset plus j |
| Books.ForEachSingletons | src/data_preparation/preprocess_odyssey.py:22-37 | books with one output each give those outputs in book order |
| Books.OutputCount | src/data_preparation/preprocess_odyssey.py:22-37 | the output count is the sum of the per-book counts |
| Books.PieceCount | src/data_preparation/preprocess_odyssey.py:22-37 | when each book yields as many outputs as a given list, the loop yields their total |
| Books.PieceOutputAt | src/data_preparation/preprocess_odyssey.py:22-37 | the same position fact, stated on the split pieces |
| Books.PieceValueAt | src/data_preparation/preprocess_odyssey.py:22-37 | the position fact for an output already known by value |
| OdysseyChunks.Headed | src/data_preparation/preprocess_odyssey.py:31-37 | chunk j of a book is headed `Context: The Odyssey by Homer, {title}. Chunk {j+1}, Themes may include heroism, homecoming, and divine intervention.\n\n` |
| OdysseyChunks.ProcessorAt | src/data_preparation/preprocess_odyssey.py:23-37 | a book fails only with k = 0 in sentence mode; otherwise its cleaned body's chunk j comes out as `Chunk j+1` |
| OdysseyChunks.ProcessorFails | src/data_preparation/preprocess_odyssey.py:29 | the one failure of a book |
| OdysseyChunks.OdysseyFails | src/data_preparation/preprocess_odyssey.py:19-37 | the run fails exactly when a book exists and sentence mode has k = 0 |
| OdysseyChunks.PreprocessOdyssey | src/data_preparation/preprocess_odyssey.py:13-43 | the written content fails exactly when a book exists and sentence mode has k = 0; in paragraph mode it is every book's cleaned body under `Chunk 1`, joined by blank lines |
| OdysseyChunks.OdysseyChunkAt | src/data_preparation/preprocess_odyssey.py:22-37 | chunk j of book b appears at the book's offset plus j, under the trimmed title and `Chunk j+1`: numbering restarts per book |
| OdysseyChunks.ProcessorChunk | src/data_preparation/preprocess_odyssey.py:31-37 | the same, for one book |
| OdysseyChunks.AllBooksOk | src/data_preparation/preprocess_odyssey.py:22-29 | with a usable count every book succeeds |
| OdysseyChunks.OdysseyParagraphMode | src/data_preparation/preprocess_odyssey.py:22-37 | in paragraph mode each book yields exactly its cleaned body under `Chunk 1` |
| OdysseyChunks.ParagraphBook | src/data_preparation/preprocess_odyssey.py:28-37 | the same, for one book |
| OdysseyScript.CleanBody | scripts/01_data_preperation/preprocess_odyssey.py:27-33 | the cleaned body has no newline, no leading or trailing whitespace, no adjacent whitespace and no em dash |
| OdysseyScript.Headed | scripts/01_data_preperation/preprocess_odyssey.py:42-48 | chunk j is headed with the title and the position `Paragraph {j+1}, ` or `Sentences {j*k+1}-{(j+1)*k}, ` |
| OdysseyScript.ProcessorAt | scripts/01_data_preperation/preprocess_odyssey.py:21-48 | a book fails only with k = 0 in sentence mode; otherwise chunk j of its cleaned body comes out under its header |
| OdysseyScript.ProcessorFails | scripts/01_data_preperation/preprocess_odyssey.py:36-40 | the one failure of a book |
| OdysseyScript.AllBooksOk | scripts/01_data_preperation/preprocess_odyssey.py:20-40 | with a usable count every book succeeds |
| OdysseyScript.ScriptFails | scripts/01_data_preperation/preprocess_odyssey.py:17-48 | the run fails exactly when a book exists and sentence mode has k = 0 |
| OdysseyScript.PreprocessScript | scripts/01_data_preperation/preprocess_odyssey.py:11-53 | the written content fails exactly when a book exists and sentence mode has k = 0; in paragraph mode it is every book's cleaned body as `Paragraph 1`, joined by blank lines |
| OdysseyScript.CleanBodyOneParagraph | scripts/01_data_preperation/preprocess_odyssey.py:28-37 | cleaning runs before the paragraph split, so paragraph mode yields one chunk per book |
| OdysseyScript.ParagraphBook | scripts/01_data_preperation/preprocess_odyssey.py:36-48 | one book in paragraph mode gives its cleaned body as `Paragraph 1` |
| OdysseyScript.ScriptParagraphMode | scripts/01_data_preperation/preprocess_odyssey.py:20-48 | paragraph mode: book b contributes exactly its cleaned body as `Paragraph 1`, in book order |
| OdysseyScript.ScriptSentenceAt | scripts/01_data_preperation/preprocess_odyssey.py:20-48 | sentence mode: chunk j of book b, at the book's offset plus j, is that book's sentence group j under the range `j*k+1`-`(j+1)*k`, restarting per book |
| OdysseyScript.SentenceChunk | scripts/01_data_preperation/preprocess_odyssey.py:39-48 | the same, for one book |
| ScriptHeaders.FirstParagraph | scripts/01_data_preperation/preprocess_odyssey.py:45 | the first paragraph's position reads `Paragraph 1, ` |
| ScriptHeaders.ShortLastGroup | scripts/01_data_preperation/preprocess_odyssey.py:40-45 | for a short last group the header's range ends past the last sentence |
| TextPreprocessor.CleanRaw | src/utils/text_preprocessor.py:26-32 | `_clean_text` output is trimmed, contains no em dash and no footnote marker, and is no longer than its input |
| TextPreprocessor.StripKeepsClean | src/utils/text_preprocessor.py:32 | `strip()` keeps a text free of em dashes and markers |
| TextPreprocessor.DallowayQueries | src/utils/text_preprocessor.py:34-56 | one query per chunk, with `metadata.source = "Mrs Dalloway"` and `chunk_number` i+1 in splitter order |
| TextPreprocessor.QueriesContents | src/utils/text_preprocessor.py:48-50 | the queries' contents are the chunks, in order |
| TextPreprocessor.ProcessorAt | src/utils/text_preprocessor.py:67-91 | a book never fails; its chunk j becomes the record for (b, j) |
| TextPreprocessor.AllBooksOk | src/utils/text_preprocessor.py:67-91 | no book fails |
| TextPreprocessor.OdysseyRecordAt | src/utils/text_preprocessor.py:67-93 | chunk j of book b sits at the book's offset plus j, with `chapter` the stripped title, `book_number` b+1 and `chunk_number` j+1; its content carries `Context: The Odyssey, {title}. Chunk {j+1}\n\n` exactly when the header flag is set |
| TextPreprocessor.RecordAt | src/utils/text_preprocessor.py:84-91 | the record at that position, as a whole |
| TextPreprocessor.RecordFields | src/utils/text_preprocessor.py:79-91 | the fields of one record |
| TextPreprocessor.ProcessOdyssey | src/utils/text_preprocessor.py:58-93 | one record per chunk of every book's cleaned body, whatever the header flag; none for a text without a `BOOK` heading |
| TextPreprocessor.RecordCount | src/utils/text_preprocessor.py:67-93 | the book loop succeeds and yields as many records as the books have chunks |
| Preprocessing.DallowayQueries | src/data_preparation/preprocessing.py:46-69 | one document per split document; the meta is exactly `{source: "Mrs Dalloway", chunk_number: i+1}`; everything but the meta is kept |
| Preprocessing.QueriesForgetMeta | src/data_preparation/preprocessing.py:63-67 | splitter metadata is replaced entirely |
| Preprocessing.ProcessorAt | src/data_preparation/preprocessing.py:80-104 | a book never fails; its document j gets the meta `{chapter, book_number, chunk_number}` |
| Preprocessing.AllBooksOk | src/data_preparation/preprocessing.py:80-104 | no book fails |
| Preprocessing.Chunks | src/data_preparation/preprocessing.py:71-104 | one document per splitter document of every book, in book order |
| Preprocessing.ProcessOdyssey | src/data_preparation/preprocessing.py:71-104 | as written: one document per splitter document of every book |
| Preprocessing.ProcessOdysseyHeaded | src/data_preparation/preprocessing.py:71-104 | corrected: one document per splitter document of every book, with or without the header |
| Preprocessing.ChunkAt | src/data_preparation/preprocessing.py:80-104 | document j of book b sits at the book's offset plus j; only its content and meta change, the meta being `chapter` = trimmed title, `book_number` b+1, `chunk_number` j+1 |
| Preprocessing.HeaderIgnored | src/data_preparation/preprocessing.py:96-97 | as written, `include_context_header` changes nothing |
| Preprocessing.AsWrittenContent | src/data_preparation/preprocessing.py:95-104 | as written, every content is the splitter's content unchanged |
| Preprocessing.HeadedContent | src/data_preparation/preprocessing.py:96-97 | corrected: with the flag set, each content starts with `Context: The Odyssey, {title}. Chunk {j+1}\n\n` |
| Preprocessing.UnheadedAsWritten | src/data_preparation/preprocessing.py:95-104 | the corrected code without the flag is the code as written |
| ChunkStore.RecordOf | src/data_preparation/preprocessed_data_store.py:26-45 | a document is written as `content` and `meta`, plus `embedding` exactly when it has one; a dictionary is written unchanged; an embedding value without a length raises `TypeError` when its size is logged |
| ChunkStore.CarriedCount | src/data_preparation/preprocessed_data_store.py:22-45 | the number of items that carry an embedding, never more than the items |
| ChunkStore.Save | src/data_preparation/preprocessed_data_store.py:15-52 | saving succeeds exactly when every item's record can be written, and the reported count is the number of items carrying an embedding, documents and dictionaries alike |
| ChunkStore.SaveLines | src/data_preparation/preprocessed_data_store.py:24-48 | exactly one line per item, in item order, each the encoded record plus `\n` |
| ChunkStore.SaveCount | src/data_preparation/preprocessed_data_store.py:22-45 | the reported count is the number of documents with an embedding |
| ChunkStore.NextNewline | src/data_preparation/preprocessed_data_store.py:62 | the next line ends at the first newline |
| ChunkStore.Lines | src/data_preparation/preprocessed_data_store.py:62 | iterating a file yields lines that concatenate back to the file |
| ChunkStore.LinesShape | src/data_preparation/preprocessed_data_store.py:62 | every line is non-empty, has no newline before its end, and all but the last end with one |
| ChunkStore.LinesCons | src/data_preparation/preprocessed_data_store.py:62 | a newline-terminated first line is the first line read |
| ChunkStore.LinesAppend | src/data_preparation/preprocessed_data_store.py:99-102 | the lines of a file ending in a newline, followed by another file, are the two files' lines |
| ChunkStore.LoadLine | src/data_preparation/preprocessed_data_store.py:63-79 | a line loads exactly when it decodes to an object whose `content` (else `text`) is a string and whose `meta` is an object; the content is `content`, else `text`, else `""`; the meta is `meta`, else `{}`; the document has an embedding exactly when the record has one |
| ChunkStore.LoadAll | src/data_preparation/preprocessed_data_store.py:61-79 | failing lines are skipped, so no more documents than lines |
| ChunkStore.Load | src/data_preparation/preprocessed_data_store.py:54-92 | `load_chunks` gives at most one document per line of the file, each without score, id or analysis |
| ChunkStore.LoadAllAppend | src/data_preparation/preprocessed_data_store.py:62-79 | loading is line by line: the documents of two line lists are concatenated |
| ChunkStore.EmbeddedCount | src/data_preparation/preprocessed_data_store.py:70-72 | the load counter is at most the number of documents |
| ChunkStore.MergeLoad | src/data_preparation/preprocessed_data_store.py:94-102 | when every input ends with a newline, the merged file's lines and documents are those of the inputs in path order |
| ChunkStore.Merge | src/data_preparation/preprocessed_data_store.py:94-102 | `merge_files` writes the input files' contents, concatenated in path order |
| ChunkStore.MergeKeepsFiles | src/data_preparation/preprocessed_data_store.py:99-102 | copying each file line by line writes exactly that file |
| ChunkStore.MergeFusesLines | src/data_preparation/preprocessed_data_store.py:99-102 | without a trailing newline, the last line of one file and the first of the next fuse |
| ChunkStore.DocItems | src/data_preparation/preprocessed_data_store.py:24-26 | a list of documents, item by item |
| ChunkStore.ReloadedAll | src/data_preparation/preprocessed_data_store.py:75-77 | one reloaded document per saved one |
| ChunkStore.ReloadLine | src/data_preparation/preprocessed_data_store.py:27-77 | the line written for a document reads back as that document with content, meta and embedding |
| ChunkStore.LoadAllCons | src/data_preparation/preprocessed_data_store.py:62-79 | the first line loads, or is skipped, ahead of the rest |
| ChunkStore.SaveCons | src/data_preparation/preprocessed_data_store.py:24-48 | the first item's line is written before the rest |
| ChunkStore.RoundTrip | src/data_preparation/preprocessed_data_store.py:27-77 | with a codec whose decoder inverts its encoder, loading saved documents gives them back in order, with content, meta and embedding intact |
| ChunkStore.ReloadedCount | src/data_preparation/preprocessed_data_store.py:69-77 | reloading keeps the number of embeddings |
| ChunkStore.RoundTripCount | src/data_preparation/preprocessed_data_store.py:22-82 | after a round trip the load counter equals the save counter |
| ChunkStore.MetadataKeyLost | src/data_preparation/preprocessed_data_store.py:42-66 | a dictionary saved with its metadata under `metadata` reloads with empty `meta` |
| Documents.Plain | src/data_preparation/preprocessed_data_store.py:76 | a document with only content and meta set |
| Documents.Get | src/pipeline/steps/document_indexing.py:19 | `record[key]` raises `KeyError` exactly when the key is missing |
| Embedder.Embedded | src/embeddings/openai_embedder.py:33-35 | the group already embedded, in input order |
| Embedder.ToEmbed | src/embeddings/openai_embedder.py:33-37 | the group sent to the embedder is exactly the documents with `embedding is None` |
| Embedder.Partition | src/embeddings/openai_embedder.py:33-37 | the two groups split the input, with nothing lost or duplicated |
| Embedder.EmbeddedAll | src/embeddings/openai_embedder.py:33-37 | with every document embedded, nothing is sent |
| Embedder.EmbedDocuments | src/embeddings/openai_embedder.py:28-48 | the output is the already embedded documents, unchanged and in input order, followed by the embedder's output for the rest; with nothing to embed it is the input's embedded documents alone |
| Embedder.AllEmbeddedUnchanged | src/embeddings/openai_embedder.py:39-48 | when no document lacks an embedding, the output is the input and the embedder plays no part |
| Embedder.EmbedCount | src/embeddings/openai_embedder.py:41-42 | an embedder returning one document per input keeps the count |
| Embedder.OnlyMissingSent | src/embeddings/openai_embedder.py:36-41 | only the unembedded documents reach the embedder |
| Embedder.OrderNotPreserved | src/embeddings/openai_embedder.py:33-48 | an unembedded document followed by an embedded one come out reversed |
| DocumentIndexing.Execute | src/pipeline/steps/document_indexing.py:18-26 | missing `documents` raises `KeyError`; the result has the single key `embedded_documents`, holding exactly the list written to the store, which is the embedder's output |
| SimilaritySearch.Insert | src/pipeline/steps/similarity_search.py:45 | one insertion step of the sort keeps every document |
| SimilaritySearch.InsertSorted | src/pipeline/steps/similarity_search.py:45 | insertion keeps the list ascending by score |
| SimilaritySearch.SortByScore | src/pipeline/steps/similarity_search.py:45 | `sorted(key=score)` is ascending and a permutation of its input |
| SimilaritySearch.SortStable | src/pipeline/steps/similarity_search.py:45 | the sort is stable: the documents sharing a score keep store order |
| SimilaritySearch.SliceTo | src/pipeline/steps/similarity_search.py:45 | Python's `[:k]` takes min(k, n) items, and for negative k drops −k from the end |
| SimilaritySearch.Sorted | src/pipeline/steps/similarity_search.py:45 | sorting raises `TypeError` exactly when two or more documents are present and one has no score |
| SimilaritySearch.Tag | src/pipeline/steps/similarity_search.py:47-57 | each document gains `similarity_type`; its other meta keys and fields are unchanged |
| SimilaritySearch.Select | src/pipeline/steps/similarity_search.py:45-59 | similar then dissimilar; the similar part is tagged `similar`; for k ≥ 0 the length is the number of similar documents + min(k, n) |
| SimilaritySearch.Execute | src/pipeline/steps/similarity_search.py:23-60 | missing `query_text` raises `KeyError`; otherwise the query is embedded once, and `similar_documents` becomes the `Select` of the `top_k` search and the full search (similar then dissimilar), or the step raises that selection's error; every other key is kept |
| SimilaritySearch.Dissimilar | src/pipeline/steps/similarity_search.py:37-59 | the dissimilar part is the first min(k, n) of all results sorted ascending, tagged `dissimilar` |
| SimilaritySearch.Lowest | src/pipeline/steps/similarity_search.py:45 | no document left out scores lower than one taken, and all taken were returned by the store |
| SimilaritySearch.Bounded | src/pipeline/steps/similarity_search.py:29-59 | when the store honours `top_k`, at most 2·`top_k` documents are returned |
| SimilaritySearch.EmptyStore | src/pipeline/steps/similarity_search.py:45-60 | an empty store gives an empty list without error |
| SimilaritySearch.TopKFieldIgnored | src/pipeline/steps/similarity_search.py:12-45 | a `top_k` key in the record changes nothing |
| Orchestrator.Execute | src/pipeline/orchestrator.py:44-69 | with neither `documents` nor `query_text` a `ValueError` is raised; with `documents` indexing runs; the search branch only adds `similar_documents` |
| Orchestrator.IndexingWins | src/pipeline/orchestrator.py:49-50 | with `documents` present the result is exactly `{embedded_documents}`, whatever else the record held |
| Orchestrator.AnalysisMerges | src/pipeline/orchestrator.py:52-56 | with both `query_text` and `document` present, the analysis result is merged into the copy: its keys win, and every other key is kept |
| Orchestrator.AnalysisErrorPropagates | src/pipeline/orchestrator.py:52-69 | a failing step is re-raised unchanged |
| Orchestrator.SearchBranch | src/pipeline/orchestrator.py:58-59 | `query_text` without `document` adds `similar_documents`, at most twice the search step's default `top_k` of them when the store honours the limit |
| Facade.EnsureId | src/pipeline/pipeline_facade.py:33-34 | a document without an id gets `{chapter}_{identity}`, with the chapter rendered as the f-string does, or `unknown_{identity}` without a chapter; one with an id is untouched; nothing but the id changes |
| Facade.Analyze | src/pipeline/pipeline_facade.py:30-53 | a known pair answers from `doc.analysis` without a call; a new pair answers with the orchestrator's `analysis` entry for the request `{query_text, <key>: doc}`, its `KeyError` when absent, or the orchestrator's error; an answer is recorded and stored on the document, and a failure changes neither the pairs nor `doc.analysis` |
| Facade.AnalyzeSimilarity | src/pipeline/pipeline_facade.py:30-53 | as written, the pair set never changes: a new pair always fails and leaves the document's `analysis` alone; a known pair answers from `doc.analysis` |
| Facade.SearchHasNoAnalysis | src/pipeline/orchestrator.py:58-59 | the search branch never adds `analysis` |
| Facade.StaleAnswer | src/pipeline/pipeline_facade.py:37-51 | with the key corrected and a step answering under `analysis`, asking A, then B, then A again about one document answers B's question the third time |
| Facade.ProjectionFails | src/pipeline/pipeline_facade.py:44-47 | with the key corrected, a step returning the parsed `Analysis` fields still fails the `["analysis"]` lookup with `KeyError` (or re-raises the step's own error), and no pair is recorded |
| Facade.Project | src/models/schemas.py:106-157 | corrected: the answer is the record's `Analysis` fields, with their values |
| Facade.AnalyzeCached | src/pipeline/pipeline_facade.py:30-53 | corrected cache: a known pair returns its own answer; answers are only added; a new answer holds only `Analysis` fields and is stored under its pair; the document's `analysis` attribute is untouched |
| Facade.CorrectedAnalyzes | src/pipeline/pipeline_facade.py:44-53 | corrected: a new pair is answered with the `Analysis` fields the step returns, which is the step's whole answer when it is a parsed `Analysis`; a failing step's error is re-raised |
| Facade.CachedAnswer | src/pipeline/pipeline_facade.py:37-53 | corrected: the A, B, A sequence answers A the third time |
| Facade.IndexDocuments | src/pipeline/pipeline_facade.py:17-21 | `index_documents` returns the embedded documents |
| Facade.FindSimilar | src/pipeline/pipeline_facade.py:23-28 | `find_similar_passages` returns the search step's selection at its default limit, whatever `top_k` is passed |
| TokenCounter.Fresh | src/utils/token_counter.py:20-29 | a new ledger has every count and cost at zero |
| TokenCounter.TokensAppend | src/utils/token_counter.py:38 | the token sum over two batches is the sum of the sums |
| TokenCounter.TrackEmbedding | src/utils/token_counter.py:36-42 | adds Σ count_tokens to embedding tokens and total/1000 × 0.00002 to embedding cost; leaves completion fields unchanged; keeps costs consistent |
| TokenCounter.InputTokens | src/utils/token_counter.py:57 | a message without `content` raises `KeyError`; otherwise the count is the `Tokens` sum over the messages' contents, the same sum the embedding ledger uses |
| TokenCounter.TrackCompletion | src/utils/token_counter.py:44-74 | the messages' token count is added exactly, to `cached_input_tokens` for cached input and to `input_tokens` otherwise; output tokens grow by `completion_tokens`; the cost grows by in/1000·(0.00125 or 0.0025) + out/1000·0.01; embedding fields unchanged; a `None` count raises `TypeError` |
| TokenCounter.FreshConsistent | src/utils/token_counter.py:20-29 | a fresh ledger satisfies the cost invariant |
| TokenCounter.EmbeddingBatches | src/utils/token_counter.py:36-42 | tracking two batches equals tracking their concatenation |
| TokenCounter.TotalCost | src/utils/token_counter.py:94 | the reported total, for a counter built by the tracking calls, is the price of the counted tokens |
| TokenCounter.CompletionsCount | src/utils/token_counter.py:73 | N uncached calls reporting t tokens give N·t output tokens |

## Left out

- File reading and writing, `console.log` and Rich output, `nltk.download`, progress bars, and the module-level script calls. Each preprocessor is modelled from the text it reads to the content it writes.
- The regex engine, NLTK's `sent_tokenize`, Haystack's `PreProcessor`, `TextCleaner`, `DocumentCleaner` and `DocumentSplitter`, tiktoken, and the JSON codec are parameters. The `BOOK <roman>.` split enters as its list of pieces, with an odd length as a precondition: a split with one capture group always yields 2m+1 pieces.
- In `src/data_preparation/preprocessing.py`, `_clean_text` runs through Haystack's `TextCleaner`. It is part of the same `split` parameter as the cleaner and the splitter.
- Universal-newline translation on reading. A file is the text Python hands the code.
- `\d` is read as ASCII digits, and Python's `str.isspace` set stands for `\s`.
- The two quote replacements in the Odyssey cleaners replace a character by the same character and are omitted.
- ChunkStore.LoadLine: a record whose `content` is not a string, or whose `meta` is not an object, is treated as skipped. Python would build a `Document` from it.
- ChunkStore.Save: an I/O error part-way through a save, or the `TypeError` that `len(doc.embedding)` raises at src/data_preparation/preprocessed_data_store.py:40 for an embedding without a length, leaves the lines already written in the file. The model returns the error with nothing written.
- ChunkStore.LoadLine: a ragged nested `embedding` list makes `np.array` raise `ValueError` in current NumPy, so Python skips that line. The model loads the embedding value as stored.
- Haystack's content-hash document ids are not modelled. An absent `id` attribute is `id: None`, and Python's `id()` is a parameter.
- `embed_query` is a parameter, `embedQuery`, since it only passes the text to the external embedder.
- The store's `top_k=None` query is the parameter `queryAll`. Scores are `real`s, and floating-point rounding of scores and costs is not modelled.
- Haystack documents always carry `meta`, so the `hasattr(doc, "meta")` branch of the search step never applies.
- The analysis step is a parameter of the orchestrator's services. It is a language-model call whose parsed answer is merged into the record, and its prompt rendering is not modelled.
- Facade.Analyze: the `PipelineFacade` constructor builds an orchestrator without the `token_counter` argument it requires. The model instead takes the orchestrator's services as a parameter.
- DocumentIndexing.Execute: a `documents` value that is not a list of documents is rejected uniformly with `TypeError("documents is not a list of documents")`, a message no Python statement raises. In Python the loop `for doc in documents` (src/embeddings/openai_embedder.py:33-34) decides instead: a non-empty string or dict raises `AttributeError` (`'str' object has no attribute 'embedding'`), an integer raises `TypeError` (`'int' object is not iterable`), and `""` or `{}` succeeds with `{"embedded_documents": []}`.
- SimilaritySearch.Execute: a non-string `query_text` is rejected with `TypeError("query_text is not a string")`, a message no Python statement raises. In Python the value goes to the external `embed_query`, and what happens then depends on that service.
- ChunkStore.RecordOf: the unsized-embedding error is `TypeError("object of this type has no len()")`. Python's `len(doc.embedding)` names the value's type, as in `object of type 'float' has no len()`.
- TokenCounter.TrackCompletion: `completion_tokens` is an arbitrary integer. The monotonicity clauses assume it is not negative, as the API reports it.
- SimilaritySearch.Sorted: the `TypeError` message always names `'NoneType' and 'float'`. Python names the operand types in the order the sort compares them, so `'float' and 'NoneType'` or `'NoneType' and 'NoneType'` can also appear.
- Facade.AnalyzeCached: the corrected facade keeps answers in its own cache and no longer stores them on the document's `analysis` attribute.
- `print_usage_report` is not modelled beyond its total, `TokenCounter.TotalCost`.
- The schemas, prompts, evaluation scripts, vector-store and network code, and `main.py` are not part of this model.

## Findings

| source | as written | input that shows it | evidently intended | confidence | as-written member | corrected member |
|---|---|---|---|---|---|---|
| src/pipeline/pipeline_facade.py:44-47 | the request sends the document under `similar_document`, but the orchestrator's analysis branch tests `document`, so the search branch runs and the `["analysis"]` lookup fails | any new (query, document) pair | send the document under `document`, so the analysis step runs | high, not executed | Facade.AnalyzeSimilarity | Facade.CorrectedAnalyzes |
| src/pipeline/pipeline_facade.py:37-51 | the cache keys (query, id) pairs but stores one answer on the document, so a known pair returns whatever was analysed last for that document | queries A, B, A about one document (with the key corrected) | answer each pair with its own analysis | medium, not executed | Facade.StaleAnswer | Facade.CachedAnswer |
| src/pipeline/pipeline_facade.py:47 | the answer is read from an `analysis` key, but the analysis step returns the parsed `Analysis` (`src/pipeline/steps/intertextual_analysis.py:62`), whose fields `src/pipeline/orchestrator.py:56` merges one by one; no `analysis` key exists, so `KeyError` is raised even with the document key corrected | any new pair whose analysis succeeds | read the answer from the merged `Analysis` fields | high, not executed | Facade.ProjectionFails | Facade.CorrectedAnalyzes |
| scripts/01_data_preperation/preprocess_dalloway.py:28-40 | the whole text is cleaned before the `\n\n+` split, so it is one paragraph; a text opening with `Chapter 1` is taken whole as a heading and nothing is written | any text starting `Chapter 1` followed by a blank line and prose | split into paragraphs first, then clean each one | high, not executed | DallowayScript.AsWrittenDropsChapterText | DallowayScript.CorrectedKeepsChapterText |
| src/data_preparation/preprocessing.py:96-97 | the context-header branch assigns the content to itself, so the flag changes nothing | `include_context_header` set to true | put `Context: The Odyssey, {title}. Chunk {n}\n\n` in front, as `src/utils/text_preprocessor.py:80` does | medium, not executed | Preprocessing.HeaderIgnored | Preprocessing.HeadedContent |

=== FILE: books.dfy ===
/** The Odyssey's book structure: `re.split(r'(BOOK [IVXLCDM]+\.)', text)[1:]`
    read as (title, body) pairs, and the per-book loop the preprocessors share. */
module Books {
  import opened Wrappers
  import opened Seqs
  import opened Strings

  datatype Book = Book(title: string, body: string)

  /** The pairs `(books[i].strip(), books[i+1])` for even `i`, where `books` is
      the split result without its first piece. A split with one capture group
      always has an odd number of pieces. */
  function BookPairs(pieces: seq<string>): (r: seq<Book>)
    requires |pieces| % 2 == 1
    ensures |r| == (|pieces| - 1) / 2
    ensures forall b :: 0 <= b < |r| ==> Trimmed(r[b].title)
  {
    seq((|pieces| - 1) / 2, b requires 0 <= b < (|pieces| - 1) / 2 =>
          Book(Strip(pieces[2 * b + 1]), pieces[2 * b + 2]))
  }

  /** Book `b` is made of pieces `2b+1` (its heading) and `2b+2` (its text). */
  lemma BookAt(pieces: seq<string>, b: nat)
    requires |pieces| % 2 == 1 && b < (|pieces| - 1) / 2
    ensures BookPairs(pieces)[b] == Book(Strip(pieces[2 * b + 1]), pieces[2 * b + 2])
  {
  }

  /** Whatever precedes the first `BOOK` heading plays no part. */
  lemma PreambleDiscarded(preamble: string, other: string, rest: seq<string>)
    requires |rest| % 2 == 0
    ensures BookPairs([preamble] + rest) == BookPairs([other] + rest)
  {
    assert forall i :: 1 <= i < |rest| + 1 ==> ([preamble] + rest)[i] == ([other] + rest)[i];
  }

  /** The loop `for i in range(0, len(books), 2)`: the outputs of each book in
      book order, stopping at the first book whose processing raises. `f` gets
      the book's 0-based position. */
  function ForEachBook<T>(books: seq<Book>, f: (nat, Book) -> Result<seq<T>>, i: nat)
    : Result<seq<T>>
    requires i <= |books|
    decreases |books| - i
  {
    if i == |books| then Ok([])
    else
      var here :- f(i, books[i]);
      var rest :- ForEachBook(books, f, i + 1);
      Ok(here + rest)
  }

  predicate AllOk<T>(books: seq<Book>, f: (nat, Book) -> Result<seq<T>>)
  {
    forall b :: 0 <= b < |books| ==> f(b, books[b]).Ok?
  }

  /** The per-book outputs from book `i` on, when every book succeeds. */
  function Outputs<T>(books: seq<Book>, f: (nat, Book) -> Result<seq<T>>, i: nat)
    : (r: seq<seq<T>>)
    requires i <= |books| && AllOk(books, f)
    ensures |r| == |books| - i
    ensures forall b :: 0 <= b < |r| ==> r[b] == f(i + b, books[i + b]).value
    decreases |books| - i
  {
    if i == |books| then [] else [f(i, books[i]).value] + Outputs(books, f, i + 1)
  }

  /** The loop succeeds exactly when every book does. */
  lemma {:induction false} ForEachBookOk<T>(books: seq<Book>, f: (nat, Book) -> Result<seq<T>>, i: nat)
    requires i <= |books|
    ensures ForEachBook(books, f, i).Ok? <==> forall b :: i <= b < |books| ==> f(b, books[b]).Ok?
    decreases |books| - i
  {
    if i < |books| {
      ForEachBookOk(books, f, i + 1);
    }
  }

  /** When every book fails exactly under the same condition, the loop fails
      exactly when that condition holds and there is a book. */
  lemma ForEachBookErr<T>(books: seq<Book>, f: (nat, Book) -> Result<seq<T>>, fails: bool)
    requires forall b :: 0 <= b < |books| ==> (f(b, books[b]).Err? <==> fails)
    ensures ForEachBook(books, f, 0).Err? <==> |books| > 0 && fails
  {
    ForEachBookOk(books, f, 0);
    if |books| > 0 && fails {
      assert f(0, books[0]).Err?;
    }
  }

  /** The loop succeeds exactly when every book does, and then yields the books'
      outputs concatenated in book order. */
  lemma {:induction false} ForEachBookResult<T>(books: seq<Book>, f: (nat, Book) -> Result<seq<T>>, i: nat)
    requires i <= |books|
    ensures ForEachBook(books, f, i).Ok? <==> forall b :: i <= b < |books| ==> f(b, books[b]).Ok?
    ensures AllOk(books, f) ==> ForEachBook(books, f, i).value == Flatten(Outputs(books, f, i))
    decreases |books| - i
  {
    if i < |books| {
      ForEachBookResult(books, f, i + 1);
    }
  }

  /** Where output `j` of book `b` lands in the concatenation. */
  lemma OutputAt<T>(books: seq<Book>, f: (nat, Book) -> Result<seq<T>>, b: nat, j: nat)
    requires AllOk(books, f) && b < |books| && j < |f(b, books[b]).value|
    ensures ForEachBook(books, f, 0).Ok?
    ensures Offset(Outputs(books, f, 0), b) + j < |ForEachBook(books, f, 0).value|
    ensures ForEachBook(books, f, 0).value[Offset(Outputs(books, f, 0), b) + j]
            == f(b, books[b]).value[j]
  {
    ForEachBookResult(books, f, 0);
    FlattenIndex(Outputs(books, f, 0), b, j);
  }

  /** When every book yields exactly one output, the loop yields those outputs in book order. */
  lemma ForEachSingletons<T>(books: seq<Book>, f: (nat, Book) -> Result<seq<T>>, expected: seq<T>)
    requires |expected| == |books|
    requires forall b :: 0 <= b < |books| ==> f(b, books[b]) == Ok([expected[b]])
    ensures ForEachBook(books, f, 0) == Ok(expected)
  {
    ForEachBookResult(books, f, 0);
    assert Outputs(books, f, 0) == seq(|books|, b requires 0 <= b < |books| => [expected[b]]);
    FlattenSingletons(expected);
  }

  /** The number of outputs is the sum of the books' output counts. */
  lemma OutputCount<T>(books: seq<Book>, f: (nat, Book) -> Result<seq<T>>)
    requires AllOk(books, f)
    ensures ForEachBook(books, f, 0).Ok?
    ensures |ForEachBook(books, f, 0).value| == TotalLength(Outputs(books, f, 0))
  {
    ForEachBookResult(books, f, 0);
    FlattenLength(Outputs(books, f, 0));
  }

  /** When the book made of pieces `2b+1` and `2b+2` yields as many outputs
      as `inputs[b]` holds, the loop yields their total. */
  lemma PieceCount<T, U>(pieces: seq<string>, f: (nat, Book) -> Result<seq<T>>, inputs: seq<seq<U>>)
    requires |pieces| % 2 == 1 && |inputs| == (|pieces| - 1) / 2
    requires forall b :: 0 <= b < |inputs| ==>
               f(b, Book(Strip(pieces[2 * b + 1]), pieces[2 * b + 2])).Ok?
               && |f(b, Book(Strip(pieces[2 * b + 1]), pieces[2 * b + 2])).value| == |inputs[b]|
    ensures ForEachBook(BookPairs(pieces), f, 0).Ok?
    ensures |ForEachBook(BookPairs(pieces), f, 0).value| == TotalLength(inputs)
  {
    var books := BookPairs(pieces);
    forall b | 0 <= b < |books| ensures f(b, books[b]).Ok? && |f(b, books[b]).value| == |inputs[b]| {
      BookAt(pieces, b);
    }
    OutputCount(books, f);
    TotalLengthSame(Outputs(books, f, 0), inputs);
  }

  /** Output `j` of the book made of pieces `2b+1` and `2b+2`, located in the
      loop's result. */
  lemma PieceOutputAt<T>(pieces: seq<string>, f: (nat, Book) -> Result<seq<T>>, b: nat, j: nat)
    requires |pieces| % 2 == 1 && b < (|pieces| - 1) / 2
    requires AllOk(BookPairs(pieces), f)
    requires f(b, Book(Strip(pieces[2 * b + 1]), pieces[2 * b + 2])).Ok?
    requires j < |f(b, Book(Strip(pieces[2 * b + 1]), pieces[2 * b + 2])).value|
    ensures ForEachBook(BookPairs(pieces), f, 0).Ok?
    ensures Offset(Outputs(BookPairs(pieces), f, 0), b) + j < |ForEachBook(BookPairs(pieces), f, 0).value|
    ensures ForEachBook(BookPairs(pieces), f, 0).value[Offset(Outputs(BookPairs(pieces), f, 0), b) + j]
            == f(b, Book(Strip(pieces[2 * b + 1]), pieces[2 * b + 2])).value[j]
  {
    BookAt(pieces, b);
    OutputAt(BookPairs(pieces), f, b, j);
  }

  /** `PieceOutputAt` for an output already known to equal `v`. */
  lemma PieceValueAt<T>(pieces: seq<string>, f: (nat, Book) -> Result<seq<T>>, b: nat, j: nat, v: T)
    requires |pieces| % 2 == 1 && b < (|pieces| - 1) / 2
    requires AllOk(BookPairs(pieces), f)
    requires f(b, Book(Strip(pieces[2 * b + 1]), pieces[2 * b + 2])).Ok?
    requires j < |f(b, Book(Strip(pieces[2 * b + 1]), pieces[2 * b + 2])).value|
    requires f(b, Book(Strip(pieces[2 * b + 1]), pieces[2 * b + 2])).value[j] == v
    ensures ForEachBook(BookPairs(pieces), f, 0).Ok?
    ensures Offset(Outputs(BookPairs(pieces), f, 0), b) + j < |ForEachBook(BookPairs(pieces), f, 0).value|
    ensures ForEachBook(BookPairs(pieces), f, 0).value[Offset(Outputs(BookPairs(pieces), f, 0), b) + j] == v
  {
    PieceOutputAt(pieces, f, b, j);
  }
}

=== FILE: chapters.dfy ===
/** The "current chapter" tracking shared by both Mrs Dalloway preprocessors. */
module Chapters {
  import opened Strings

  /** `re.match(r'^Chapter \d+', s)`: a prefix test, whatever follows the digits. */
  predicate IsChapterHeading(s: string)
  {
    |s| > 8 && s[..8] == "Chapter " && IsDigit(s[8])
  }

  /** The label assumed before any heading has been seen. */
  const InitialLabel: string := "Chapter 1"

  /** The label in force at position `i`: the stripped text of the nearest
      heading before `i`, or the initial label. */
  function LabelBefore(chunks: seq<string>, i: nat): string
    requires i <= |chunks|
  {
    if i == 0 then InitialLabel
    else if IsChapterHeading(chunks[i - 1]) then Strip(chunks[i - 1])
    else LabelBefore(chunks, i - 1)
  }

  /** The label at `i` is the initial one when no heading precedes `i`, and the
      stripped last heading otherwise. */
  lemma {:induction false} LabelIsLastHeading(chunks: seq<string>, i: nat, h: nat)
    requires i <= |chunks| && h < i
    requires IsChapterHeading(chunks[h])
    requires forall k :: h < k < i ==> !IsChapterHeading(chunks[k])
    ensures LabelBefore(chunks, i) == Strip(chunks[h])
    decreases i
  {
    if i - 1 != h {
      LabelIsLastHeading(chunks, i - 1, h);
    }
  }

  lemma {:induction false} LabelWithoutHeading(chunks: seq<string>, i: nat)
    requires i <= |chunks|
    requires forall k :: 0 <= k < i ==> !IsChapterHeading(chunks[k])
    ensures LabelBefore(chunks, i) == InitialLabel
    decreases i
  {
    if i > 0 {
      LabelWithoutHeading(chunks, i - 1);
    }
  }

  /** Number of headings among the first `n` chunks. */
  function Headings(chunks: seq<string>, n: nat): (c: nat)
    requires n <= |chunks|
    ensures c <= n
  {
    if n == 0 then 0
    else Headings(chunks, n - 1) + (if IsChapterHeading(chunks[n - 1]) then 1 else 0)
  }
}

=== FILE: chunk_store.dfy ===
/** `src/data_preparation/preprocessed_data_store.py` at record and line level:
    JSON Lines files of chunks. `json.dumps` and `json.loads` are the
    parameters `encode` and `decode`. */
module ChunkStore {
  import opened Wrappers
  import opened Seqs
  import opened Json
  import opened Documents

  /** `save_chunks` accepts documents and plain dictionaries alike. */
  datatype Item = DocItem(doc: Document) | DictItem(fields: map<string, Value>)

  /** The item carries an embedding as far as the save counter is concerned. */
  predicate Carries(item: Item)
  {
    match item
    case DocItem(d) => d.embedding.Some?
    case DictItem(m) => "embedding" in m
  }

  /** The object written for one item: a document becomes `content`, `meta`
      and, when set, `embedding`; a dictionary is written as it is. Logging the
      embedding's `len()` raises `TypeError` for an embedding without one. */
  function RecordOf(item: Item): (r: Result<map<string, Value>>)
    ensures r.Err? <==> item.DocItem? && item.doc.embedding.Some? && !HasLen(item.doc.embedding.value)
    ensures r.Ok? && item.DocItem? ==>
              r.value.Keys == {"content", "meta"} + (if item.doc.embedding.Some? then {"embedding"} else {})
              && r.value["content"] == Str(item.doc.content)
              && r.value["meta"] == Obj(item.doc.meta)
              && (item.doc.embedding.Some? ==> r.value["embedding"] == item.doc.embedding.value)
    ensures r.Ok? && item.DictItem? ==> r.value == item.fields
  {
    match item
    case DictItem(m) => Ok(m)
    case DocItem(d) =>
      var base := map["content" := Str(d.content), "meta" := Obj(d.meta)];
      if d.embedding.None? then Ok(base)
      else if !HasLen(d.embedding.value) then Err(TypeError("object of this type has no len()"))
      else Ok(base["embedding" := d.embedding.value])
  }

  /** How many of the items carry an embedding: documents with one set and
      dictionaries with an `embedding` key. */
  function CarriedCount(items: seq<Item>): (n: nat)
    ensures n <= |items|
  {
    if |items| == 0 then 0 else (if Carries(items[0]) then 1 else 0) + CarriedCount(items[1..])
  }

  /** The file content written and the count of items saved with an embedding. */
  datatype Saved = Saved(content: string, withEmbeddings: nat)

  /** `save_chunks`: one `json.dumps(record) + "\n"` per item, in order. */
  function Save(items: seq<Item>, encode: Value -> string): (r: Result<Saved>)
    ensures r.Ok? <==> forall i :: 0 <= i < |items| ==> RecordOf(items[i]).Ok?
    ensures r.Ok? ==> r.value.withEmbeddings == CarriedCount(items)
  {
    if |items| == 0 then Ok(Saved("", 0))
    else
      var rec :- RecordOf(items[0]);
      var rest :- Save(items[1..], encode);
      assert forall i :: 1 <= i < |items| ==> items[i] == items[1..][i - 1];
      Ok(Saved(encode(Obj(rec)) + "\n" + rest.content,
               (if Carries(items[0]) then 1 else 0) + rest.withEmbeddings))
  }

  // ---------------------------------------------------------------------------
  // Reading lines: `for line in f`

  /** Index of the first newline at or after `i`, or `|s|`. */
  function NextNewline(s: string, i: nat): (j: nat)
    requires i <= |s|
    ensures i <= j <= |s|
    ensures j < |s| ==> s[j] == '\n'
    ensures forall k :: i <= k < j ==> s[k] != '\n'
    decreases |s| - i
  {
    if i == |s| || s[i] == '\n' then i else NextNewline(s, i + 1)
  }

  /** The lines of a file, each with its terminating newline; the last one
      lacks it when the file does not end with a newline. */
  function Lines(s: string): (ls: seq<string>)
    ensures Flatten(ls) == s
    decreases |s|
  {
    if |s| == 0 then []
    else
      var i := NextNewline(s, 0);
      if i == |s| then
        assert Flatten([s]) == s + Flatten([s][1..]);
        [s]
      else
        var rest := Lines(s[i + 1..]);
        assert Flatten([s[..i + 1]] + rest) == s[..i + 1] + Flatten(rest) by {
          assert ([s[..i + 1]] + rest)[1..] == rest;
        }
        assert s[..i + 1] + s[i + 1..] == s;
        [s[..i + 1]] + rest
  }

  /** Every line is non-empty, holds no newline before its end, and all but
      the last end with one. */
  lemma {:induction false} LinesShape(s: string)
    ensures forall j :: 0 <= j < |Lines(s)| ==> |Lines(s)[j]| > 0
    ensures forall j :: 0 <= j < |Lines(s)| ==>
              forall k :: 0 <= k < |Lines(s)[j]| - 1 ==> Lines(s)[j][k] != '\n'
    ensures forall j :: 0 <= j < |Lines(s)| - 1 ==> Lines(s)[j][|Lines(s)[j]| - 1] == '\n'
    decreases |s|
  {
    if |s| > 0 {
      var i := NextNewline(s, 0);
      if i < |s| {
        var rest := Lines(s[i + 1..]);
        LinesShape(s[i + 1..]);
        var ls := Lines(s);
        assert ls == [s[..i + 1]] + rest;
        forall j | 0 <= j < |ls|
          ensures |ls[j]| > 0
          ensures forall k :: 0 <= k < |ls[j]| - 1 ==> ls[j][k] != '\n'
          ensures j < |ls| - 1 ==> ls[j][|ls[j]| - 1] == '\n'
        {
          if j > 0 {
            assert ls[j] == rest[j - 1];
          }
        }
      }
    }
  }

  /** A newline-terminated line at the front of a file is its first line. */
  lemma LinesCons(x: string, rest: string)
    requires '\n' !in x
    ensures Lines(x + "\n" + rest) == [x + "\n"] + Lines(rest)
  {
    var s := x + "\n" + rest;
    forall k | 0 <= k < |x| ensures s[k] != '\n' {
      assert s[k] == x[k] && x[k] in x;
    }
    assert s[|x|] == '\n';
    assert NextNewline(s, 0) == |x|;
    assert s[..|x| + 1] == x + "\n";
    assert s[|x| + 1..] == rest;
  }

  lemma NextNewlineAppend(a: string, b: string, i: nat)
    requires i <= |a| && NextNewline(a, i) < |a|
    ensures NextNewline(a + b, i) == NextNewline(a, i)
    decreases |a| - i
  {
    if a[i] != '\n' {
      NextNewlineAppend(a, b, i + 1);
    }
  }

  /** The first line of `a + b` is that of `a` when `a` holds a newline. */
  lemma LinesAppendHead(a: string, b: string, i: nat)
    requires i == NextNewline(a, 0) && i < |a|
    ensures Lines(a + b) == [a[..i + 1]] + Lines(a[i + 1..] + b)
  {
    NextNewlineAppend(a, b, 0);
    assert (a + b)[..i + 1] == a[..i + 1];
    assert (a + b)[i + 1..] == a[i + 1..] + b;
  }

  /** Lines do not straddle the end of a file that ends with a newline. */
  lemma {:induction false} LinesAppend(a: string, b: string)
    requires |a| == 0 || a[|a| - 1] == '\n'
    ensures Lines(a + b) == Lines(a) + Lines(b)
    decreases |a|
  {
    if |a| == 0 {
      assert a + b == b;
    } else {
      var i := NextNewline(a, 0);
      assert i < |a|;
      LinesAppendHead(a, b, i);
      LinesAppend(a[i + 1..], b);
    }
  }

  // ---------------------------------------------------------------------------
  // Loading

  /** One line of `load_chunks`. `None` is a skipped line: it does not parse, or
      it is not a JSON object (`chunk.get` raises `AttributeError`), or, where
      the model is stricter than Python, its content is not a string or its
      metadata not an object. */
  function LoadLine(line: string, decode: string -> Option<Value>): (r: Option<Document>)
    ensures r.Some? <==>
              && decode(line).Some? && decode(line).value.Obj?
              && var m := decode(line).value.fields;
                 && ("content" in m ==> m["content"].Str?)
                 && ("content" !in m && "text" in m ==> m["text"].Str?)
                 && ("meta" in m ==> m["meta"].Obj?)
    ensures r.Some? ==>
              var m := decode(line).value.fields;
              && ("content" in m ==> r.value.content == m["content"].s)
              && ("content" !in m && "text" in m ==> r.value.content == m["text"].s)
              && ("meta" in m ==> r.value.meta == m["meta"].fields)
    ensures r.Some? ==>
              var m := decode(line).value.fields;
              (r.value.embedding.Some? <==> "embedding" in m)
              && ("embedding" in m ==> r.value.embedding.value == m["embedding"])
              && ("meta" !in m ==> r.value.meta == map[])
              && ("content" !in m && "text" !in m ==> r.value.content == "")
              && r.value.score.None? && r.value.id.None? && r.value.analysis.None?
  {
    match decode(line)
    case None => None
    case Some(v) =>
      if !v.Obj? then None
      else
        var m := v.fields;
        var content := if "content" in m then m["content"] else if "text" in m then m["text"] else Str("");
        var meta := if "meta" in m then m["meta"] else Obj(map[]);
        var embedding := if "embedding" in m then Some(m["embedding"]) else None;
        if !content.Str? || !meta.Obj? then None
        else Some(Document(content.s, meta.fields, embedding, None, None, None))
  }

  /** The documents of the lines that load, in line order. */
  function LoadAll(lines: seq<string>, decode: string -> Option<Value>): (docs: seq<Document>)
    ensures |docs| <= |lines|
    ensures forall i :: 0 <= i < |docs| ==> docs[i].score.None? && docs[i].id.None? && docs[i].analysis.None?
  {
    if |lines| == 0 then []
    else
      (match LoadLine(lines[0], decode) case None => [] case Some(d) => [d])
      + LoadAll(lines[1..], decode)
  }

  /** `load_chunks`: every line is tried; a failing line is logged and skipped. */
  function Load(s: string, decode: string -> Option<Value>): (docs: seq<Document>)
    ensures |docs| <= |Lines(s)|
    ensures forall i :: 0 <= i < |docs| ==> docs[i].score.None? && docs[i].id.None? && docs[i].analysis.None?
  {
    LoadAll(Lines(s), decode)
  }

  /** The number of documents with an embedding. */
  function EmbeddedCount(docs: seq<Document>): (n: nat)
    ensures n <= |docs|
  {
    if |docs| == 0 then 0 else (if docs[0].embedding.Some? then 1 else 0) + EmbeddedCount(docs[1..])
  }

  lemma {:induction false} LoadAllAppend(xs: seq<string>, ys: seq<string>, decode: string -> Option<Value>)
    ensures LoadAll(xs + ys, decode) == LoadAll(xs, decode) + LoadAll(ys, decode)
  {
    if |xs| == 0 {
      assert xs + ys == ys;
    } else {
      assert (xs + ys)[1..] == xs[1..] + ys;
      LoadAllAppend(xs[1..], ys, decode);
    }
  }

  /** Each file's lines, file by file. */
  function EachLines(files: seq<string>): seq<seq<string>>
  {
    if |files| == 0 then [] else [Lines(files[0])] + EachLines(files[1..])
  }

  /** Each file's documents, file by file. */
  function EachLoad(files: seq<string>, decode: string -> Option<Value>): seq<seq<Document>>
  {
    if |files| == 0 then [] else [Load(files[0], decode)] + EachLoad(files[1..], decode)
  }

  /** The documents of `merge_files`' output are those of the merged files,
      in path order, provided every file ends with a newline. */
  lemma {:induction false} MergeLoad(files: seq<string>, decode: string -> Option<Value>)
    requires forall i :: 0 <= i < |files| ==> |files[i]| == 0 || files[i][|files[i]| - 1] == '\n'
    ensures Lines(Merge(files)) == Flatten(EachLines(files))
    ensures Load(Merge(files), decode) == Flatten(EachLoad(files, decode))
  {
    if |files| > 0 {
      MergeLoad(files[1..], decode);
      LinesAppend(files[0], Merge(files[1..]));
      LoadAllAppend(Lines(files[0]), Lines(Merge(files[1..])), decode);
      FlattenCons(Lines(files[0]), EachLines(files[1..]));
      FlattenCons(Load(files[0], decode), EachLoad(files[1..], decode));
    }
  }

  /** `merge_files`: the input files' lines, copied in path order. */
  function Merge(files: seq<string>): (r: string)
    ensures r == Flatten(files)
  {
    MergeKeepsFiles(files);
    Flatten(Flatten(EachLines(files)))
  }

  /** Copying every line of every file writes each file out whole, in order. */
  lemma {:induction false} MergeKeepsFiles(files: seq<string>)
    ensures Flatten(Flatten(EachLines(files))) == Flatten(files)
  {
    if |files| > 0 {
      MergeKeepsFiles(files[1..]);
      var ls, rest := Lines(files[0]), EachLines(files[1..]);
      assert EachLines(files) == [ls] + rest;
      FlattenCons(ls, rest);
      FlattenAppend(ls, Flatten(rest));
      FlattenCons(files[0], files[1..]);
      assert files == [files[0]] + files[1..];
    }
  }

  /** Without the trailing newline the last line of one file and the first of
      the next fuse into one line. */
  lemma MergeFusesLines()
    ensures Lines(Merge(["a", "b"])) == ["ab"]
    ensures Lines("a") + Lines("b") == ["a", "b"]
  {
    assert Merge(["a", "b"]) == "ab" by {
      assert Flatten(["a", "b"]) == "a" + Flatten(["b"]);
      assert Flatten(["b"]) == "b" + Flatten([]);
    }
    assert NextNewline("ab", 0) == 2;
  }

  // ---------------------------------------------------------------------------
  // Save and load together

  function DocItems(docs: seq<Document>): (items: seq<Item>)
    ensures |items| == |docs|
    ensures forall i :: 0 <= i < |docs| ==> items[i] == DocItem(docs[i])
  {
    seq(|docs|, i requires 0 <= i < |docs| => DocItem(docs[i]))
  }

  /** What a saved document reloads as: content, metadata and embedding kept,
      score, id and analysis gone. */
  function Reloaded(d: Document): Document
  {
    Document(d.content, d.meta, d.embedding, None, None, None)
  }

  /** `save_chunks` writes exactly one line per item, in item order, as long as
      the encoder never emits a raw newline (`json.dumps` escapes them). */
  lemma {:induction false} SaveLines(items: seq<Item>, encode: Value -> string)
    requires forall v :: '\n' !in encode(v)
    requires Save(items, encode).Ok?
    ensures Lines(Save(items, encode).value.content)
            == seq(|items|, i requires 0 <= i < |items| => encode(Obj(RecordOf(items[i]).value)) + "\n")
  {
    if |items| > 0 {
      var rest := Save(items[1..], encode).value.content;
      SaveLines(items[1..], encode);
      LinesCons(encode(Obj(RecordOf(items[0]).value)), rest);
    }
  }

  /** The reported count is the number of documents saved with an embedding. */
  lemma {:induction false} SaveCount(docs: seq<Document>, encode: Value -> string)
    requires Save(DocItems(docs), encode).Ok?
    ensures Save(DocItems(docs), encode).value.withEmbeddings == EmbeddedCount(docs)
  {
    if |docs| > 0 {
      assert DocItems(docs)[1..] == DocItems(docs[1..]);
      SaveCount(docs[1..], encode);
    }
  }

  /** Each document as it reloads, in order. */
  function ReloadedAll(docs: seq<Document>): (r: seq<Document>)
    ensures |r| == |docs|
  {
    if |docs| == 0 then [] else [Reloaded(docs[0])] + ReloadedAll(docs[1..])
  }

  /** The line written for one document reads back as that document reloaded. */
  lemma ReloadLine(d: Document, encode: Value -> string, decode: string -> Option<Value>)
    requires forall v :: decode(encode(v) + "\n") == Some(v)
    requires RecordOf(DocItem(d)).Ok?
    ensures LoadLine(encode(Obj(RecordOf(DocItem(d)).value)) + "\n", decode) == Some(Reloaded(d))
  {
  }

  lemma LoadAllCons(line: string, ls: seq<string>, decode: string -> Option<Value>)
    ensures LoadAll([line] + ls, decode)
            == (match LoadLine(line, decode) case None => [] case Some(d) => [d]) + LoadAll(ls, decode)
  {
    assert ([line] + ls)[1..] == ls;
  }

  /** Saving a non-empty list writes the first document's line, then the rest. */
  lemma SaveCons(docs: seq<Document>, encode: Value -> string)
    requires |docs| > 0 && Save(DocItems(docs), encode).Ok?
    ensures RecordOf(DocItem(docs[0])).Ok? && Save(DocItems(docs[1..]), encode).Ok?
    ensures Save(DocItems(docs), encode).value.content
            == encode(Obj(RecordOf(DocItem(docs[0])).value)) + "\n"
               + Save(DocItems(docs[1..]), encode).value.content
  {
    assert DocItems(docs)[1..] == DocItems(docs[1..]);
  }

  /** Round trip: with a codec whose decoder inverts its encoder on a written
      line, loading saved documents gives them back, in order, with content,
      metadata and embedding intact. */
  lemma {:induction false} RoundTrip(docs: seq<Document>, encode: Value -> string,
                                     decode: string -> Option<Value>)
    requires forall v :: '\n' !in encode(v)
    requires forall v :: decode(encode(v) + "\n") == Some(v)
    requires Save(DocItems(docs), encode).Ok?
    ensures Load(Save(DocItems(docs), encode).value.content, decode) == ReloadedAll(docs)
  {
    if |docs| > 0 {
      var d := docs[0];
      SaveCons(docs, encode);
      RoundTrip(docs[1..], encode, decode);
      var x := encode(Obj(RecordOf(DocItem(d)).value));
      var rest := Save(DocItems(docs[1..]), encode).value.content;
      LinesCons(x, rest);
      ReloadLine(d, encode, decode);
      LoadAllCons(x + "\n", Lines(rest), decode);
    }
  }

  lemma {:induction false} ReloadedCount(docs: seq<Document>)
    ensures EmbeddedCount(ReloadedAll(docs)) == EmbeddedCount(docs)
  {
    if |docs| > 0 {
      ReloadedCount(docs[1..]);
      assert ReloadedAll(docs)[1..] == ReloadedAll(docs[1..]);
    }
  }

  /** After a round trip the load counter agrees with the save counter. */
  lemma RoundTripCount(docs: seq<Document>, encode: Value -> string, decode: string -> Option<Value>)
    requires forall v :: '\n' !in encode(v)
    requires forall v :: decode(encode(v) + "\n") == Some(v)
    requires Save(DocItems(docs), encode).Ok?
    ensures EmbeddedCount(Load(Save(DocItems(docs), encode).value.content, decode))
            == Save(DocItems(docs), encode).value.withEmbeddings
  {
    RoundTrip(docs, encode, decode);
    ReloadedCount(docs);
    SaveCount(docs, encode);
  }

  /** A dictionary saved with its metadata under `metadata`, as the query
      chunks are, reloads with empty `meta`. */
  lemma MetadataKeyLost(c: string, md: Value, encode: Value -> string, decode: string -> Option<Value>)
    requires forall v :: '\n' !in encode(v)
    requires forall v :: decode(encode(v) + "\n") == Some(v)
    ensures var item := DictItem(map["content" := Str(c), "metadata" := md]);
            Save([item], encode).Ok?
            && Load(Save([item], encode).value.content, decode) == [Plain(c, map[])]
  {
    var m := map["content" := Str(c), "metadata" := md];
    var item := DictItem(m);
    assert Save([item], encode).value.content == encode(Obj(m)) + "\n" + "";
    LinesCons(encode(Obj(m)), "");
    assert LoadLine(encode(Obj(m)) + "\n", decode) == Some(Plain(c, map[]));
  }
}

=== FILE: dalloway_chunks.dfy ===
/** The chunk loop of `src/data_preparation/preprocess_dalloway.py`. */
module DallowayChunks {
  import opened Wrappers
  import opened Strings
  import opened Chapters
  import TextProcessing

  // The fixed parts of the header, each behind a function of its own so that
  // the verifier only expands the literal text when a proof needs it.
  function Opening(): string { "Context: Mrs Dalloway by Virginia Woolf, " }
  function Themes(): string { "Themes may include post-war society, memory, and time.\n\n" }

  /** The context header put before a Mrs Dalloway chunk. */
  function Header(chapter: string, n: nat): string
  {
    Opening() + chapter + ". " + "Chunk " + NatToString(n) + ", " + Themes()
  }

  /** What position `i` contributes: nothing for a heading, else one headed chunk. */
  function Entry(chunks: seq<string>, i: nat): seq<string>
    requires i < |chunks|
  {
    if IsChapterHeading(chunks[i]) then []
    else [Header(LabelBefore(chunks, i), i + 1) + chunks[i]]
  }

  /** The outputs of the first `n` positions, position by position. */
  function Emitted(chunks: seq<string>, n: nat): seq<string>
    requires n <= |chunks|
  {
    if n == 0 then [] else Emitted(chunks, n - 1) + Entry(chunks, n - 1)
  }

  /** The loop: a heading replaces the current label and emits nothing; any
      other chunk is emitted under the current label, numbered by its position
      in the full list. */
  method LabelChunks(chunks: seq<string>) returns (out: seq<string>)
    ensures out == Emitted(chunks, |chunks|)
  {
    out := [];
    var current := InitialLabel;
    var i := 0;
    while i < |chunks|
      invariant i <= |chunks|
      invariant current == LabelBefore(chunks, i)
      invariant out == Emitted(chunks, i)
    {
      out, current := Visit(chunks, i, out, current);
      i := i + 1;
    }
  }

  /** One pass of the loop body over chunk `i`. */
  method Visit(chunks: seq<string>, i: nat, out: seq<string>, current: string)
    returns (out': seq<string>, current': string)
    requires i < |chunks| && out == Emitted(chunks, i) && current == LabelBefore(chunks, i)
    ensures out' == Emitted(chunks, i + 1) && current' == LabelBefore(chunks, i + 1)
  {
    var chunk := chunks[i];
    if IsChapterHeading(chunk) {
      HeadingStep(chunks, i, out);
      out', current' := out, Strip(chunk);
    } else {
      TextStep(chunks, i, out, current);
      out', current' := out + [Header(current, i + 1) + chunk], current;
    }
  }

  /** A heading sets the label and emits nothing. */
  lemma HeadingStep(chunks: seq<string>, i: nat, out: seq<string>)
    requires i < |chunks| && IsChapterHeading(chunks[i]) && out == Emitted(chunks, i)
    ensures LabelBefore(chunks, i + 1) == Strip(chunks[i])
    ensures out == Emitted(chunks, i + 1)
  {
    assert Entry(chunks, i) == [];
  }

  /** Any other chunk keeps the label and is emitted under it. */
  lemma TextStep(chunks: seq<string>, i: nat, out: seq<string>, current: string)
    requires i < |chunks| && !IsChapterHeading(chunks[i])
    requires out == Emitted(chunks, i) && current == LabelBefore(chunks, i)
    ensures current == LabelBefore(chunks, i + 1)
    ensures out + [Header(current, i + 1) + chunks[i]] == Emitted(chunks, i + 1)
  {
  }

  /** One output per non-heading chunk. */
  lemma {:induction false} EmittedCount(chunks: seq<string>, n: nat)
    requires n <= |chunks|
    ensures |Emitted(chunks, n)| == n - Headings(chunks, n)
    decreases n
  {
    if n > 0 {
      EmittedCount(chunks, n - 1);
    }
  }

  /** The non-heading chunk at position `i` comes out in place
      `i - Headings(chunks, i)`, under the label in force at `i` and numbered
      `i + 1`, so numbers skip over headings. */
  lemma {:induction false} EmittedAt(chunks: seq<string>, n: nat, i: nat)
    requires i < n <= |chunks|
    requires !IsChapterHeading(chunks[i])
    ensures i - Headings(chunks, i) < |Emitted(chunks, n)|
    ensures Emitted(chunks, n)[i - Headings(chunks, i)]
            == Header(LabelBefore(chunks, i), i + 1) + chunks[i]
    decreases n
  {
    var before := Emitted(chunks, n - 1);
    assert Emitted(chunks, n) == before + Entry(chunks, n - 1);
    if i < n - 1 {
      EmittedAt(chunks, n - 1, i);
      AppendIndex(before, Entry(chunks, n - 1), i - Headings(chunks, i));
    } else {
      EmittedCount(chunks, i);
      var e := Header(LabelBefore(chunks, i), i + 1) + chunks[i];
      assert Entry(chunks, i) == [e];
      AppendIndex(before + [e], [], |before|);
    }
  }

  lemma AppendIndex<T>(a: seq<T>, b: seq<T>, x: nat)
    requires x < |a|
    ensures x < |a + b| && (a + b)[x] == a[x]
  {
  }

  lemma {:induction false} HeadingsMono(chunks: seq<string>, a: nat, b: nat)
    requires a <= b <= |chunks|
    ensures Headings(chunks, a) <= Headings(chunks, b)
    ensures b - Headings(chunks, b) >= a - Headings(chunks, a)
    decreases b
  {
    if a < b {
      HeadingsMono(chunks, a, b - 1);
    }
  }

  /** A chunk that merely begins with a heading is taken whole as the label,
      sentences and all, and nothing of it is emitted. */
  lemma SwallowedHeading(heading: string, next: string)
    requires IsChapterHeading(heading) && !IsChapterHeading(next)
    ensures Emitted([heading, next], 2) == [Header(Strip(heading), 2) + next]
  {
    assert Emitted([heading, next], 1) == [];
  }

  /** For instance, a sentence-mode chunk of two sentences after the heading. */
  lemma SwallowedExample()
    ensures IsChapterHeading("Chapter 2 She went out. It was fine.")
  {
    assert "Chapter 2 She went out. It was fine."[..8] == "Chapter ";
  }

  /** `preprocess_dalloway` without the file I/O: clean, chunk, label, and join
      with blank lines (the content written to the output file). */
  method PreprocessDalloway(text: string, mode: TextProcessing.Mode, k: int,
                            sentTokenize: string -> seq<string>)
    returns (r: Result<string>)
    ensures r.Err? <==> mode == TextProcessing.Sentence && k == 0
    ensures r.Ok? ==>
      var chunks := TextProcessing.SplitIntoChunks(
                      TextProcessing.CleanText(text), mode, k, sentTokenize).value;
      r.value == Join("\n\n", Emitted(chunks, |chunks|))
  {
    var chunked := TextProcessing.SplitIntoChunks(
                     TextProcessing.CleanText(text), mode, k, sentTokenize);
    if chunked.Err? {
      return Err(chunked.error);
    }
    var processed := LabelChunks(chunked.value);
    return Ok(Join("\n\n", processed));
  }
}

=== FILE: dalloway_script.dfy ===
/** `scripts/01_data_preperation/preprocess_dalloway.py`: its own `clean_text`
    (the same three steps as `src/utils/text_processing.py`), a paragraph split
    of the cleaned text, chapter tracking and the per-paragraph headers. */
module DallowayScript {
  import opened Wrappers
  import opened Seqs
  import opened Strings
  import opened Chapters
  import opened ScriptHeaders
  import TP = TextProcessing
  import DC = DallowayChunks

  /** The chunks of one paragraph: the paragraph itself, or its sentence groups. */
  function ParagraphChunks(p: string, mode: TP.Mode, k: int, sentTokenize: string -> seq<string>)
    : (r: Result<seq<string>>)
    ensures r.Err? <==> mode == TP.Sentence && k == 0
    ensures mode == TP.Paragraph ==> r == Ok([p])
  {
    match mode
    case Paragraph => Ok([p])
    case Sentence => TP.GroupSentences(sentTokenize(p), k)
  }

  /** The chunks of paragraph `i` (0-based) under `chapter`, each with its header. */
  function Headed(chapter: string, mode: TP.Mode, k: int, i: nat, chunks: seq<string>): seq<string>
  {
    seq(|chunks|, j requires 0 <= j < |chunks| =>
          DC.Opening() + chapter + ". " + Position(mode, k, i + 1, j) + DC.Themes() + chunks[j])
  }

  /** The paragraph loop from paragraph `i` on, `chapter` being `current_chapter`. */
  function Emit(ps: seq<string>, i: nat, chapter: string, mode: TP.Mode, k: int,
                sentTokenize: string -> seq<string>): Result<seq<string>>
    requires i <= |ps|
    decreases |ps| - i
  {
    if i == |ps| then Ok([])
    else if IsChapterHeading(ps[i]) then Emit(ps, i + 1, Strip(ps[i]), mode, k, sentTokenize)
    else
      var chunks :- ParagraphChunks(ps[i], mode, k, sentTokenize);
      var rest :- Emit(ps, i + 1, chapter, mode, k, sentTokenize);
      Ok(Headed(chapter, mode, k, i, chunks) + rest)
  }

  /** What paragraph `q` contributes: nothing for a heading, otherwise its
      headed chunks under the chapter of the nearest earlier heading. */
  function Block(ps: seq<string>, q: nat, mode: TP.Mode, k: int,
                 sentTokenize: string -> seq<string>): seq<string>
    requires q < |ps| && (mode == TP.Paragraph || k != 0)
  {
    if IsChapterHeading(ps[q]) then []
    else Headed(LabelBefore(ps, q), mode, k, q, ParagraphChunks(ps[q], mode, k, sentTokenize).value)
  }

  function Blocks(ps: seq<string>, i: nat, mode: TP.Mode, k: int,
                  sentTokenize: string -> seq<string>): seq<seq<string>>
    requires i <= |ps| && (mode == TP.Paragraph || k != 0)
  {
    seq(|ps| - i, q requires 0 <= q < |ps| - i => Block(ps, i + q, mode, k, sentTokenize))
  }

  /** With a usable sentence count the loop yields the paragraphs' blocks in
      order, each under the chapter `LabelBefore` assigns it. */
  lemma {:induction false} EmitBlocks(ps: seq<string>, i: nat, mode: TP.Mode, k: int,
                                      sentTokenize: string -> seq<string>)
    requires i <= |ps| && (mode == TP.Paragraph || k != 0)
    ensures Emit(ps, i, LabelBefore(ps, i), mode, k, sentTokenize)
            == Ok(Flatten(Blocks(ps, i, mode, k, sentTokenize)))
    decreases |ps| - i
  {
    if i < |ps| {
      EmitBlocks(ps, i + 1, mode, k, sentTokenize);
      BlocksCons(ps, i, mode, k, sentTokenize);
      EmitStep(ps, i, mode, k, sentTokenize, Flatten(Blocks(ps, i + 1, mode, k, sentTokenize)));
    }
  }

  /** One step of the loop: paragraph `i` contributes its block. */
  lemma EmitStep(ps: seq<string>, i: nat, mode: TP.Mode, k: int,
                 sentTokenize: string -> seq<string>, tail: seq<string>)
    requires i < |ps| && (mode == TP.Paragraph || k != 0)
    requires Emit(ps, i + 1, LabelBefore(ps, i + 1), mode, k, sentTokenize) == Ok(tail)
    ensures Emit(ps, i, LabelBefore(ps, i), mode, k, sentTokenize)
            == Ok(Block(ps, i, mode, k, sentTokenize) + tail)
  {
    if IsChapterHeading(ps[i]) {
      assert LabelBefore(ps, i + 1) == Strip(ps[i]);
      assert Block(ps, i, mode, k, sentTokenize) + tail == tail;
    } else {
      assert LabelBefore(ps, i + 1) == LabelBefore(ps, i);
      EmitParagraph(ps, i, LabelBefore(ps, i), mode, k, sentTokenize, tail);
    }
  }

  /** The blocks from `i` on are block `i` followed by the blocks from `i + 1`. */
  lemma BlocksCons(ps: seq<string>, i: nat, mode: TP.Mode, k: int, sentTokenize: string -> seq<string>)
    requires i < |ps| && (mode == TP.Paragraph || k != 0)
    ensures Flatten(Blocks(ps, i, mode, k, sentTokenize))
            == Block(ps, i, mode, k, sentTokenize) + Flatten(Blocks(ps, i + 1, mode, k, sentTokenize))
  {
    var bs := Blocks(ps, i, mode, k, sentTokenize);
    assert bs[1..] == Blocks(ps, i + 1, mode, k, sentTokenize);
    assert bs[0] == Block(ps, i, mode, k, sentTokenize);
  }

  /** One step of the loop over a paragraph that is not a heading. */
  lemma EmitParagraph(ps: seq<string>, i: nat, chapter: string, mode: TP.Mode, k: int,
                      sentTokenize: string -> seq<string>, tail: seq<string>)
    requires i < |ps| && (mode == TP.Paragraph || k != 0) && !IsChapterHeading(ps[i])
    requires Emit(ps, i + 1, chapter, mode, k, sentTokenize) == Ok(tail)
    ensures Emit(ps, i, chapter, mode, k, sentTokenize)
            == Ok(Headed(chapter, mode, k, i, ParagraphChunks(ps[i], mode, k, sentTokenize).value) + tail)
  {
  }

  /** With a zero sentence count the loop fails exactly when some paragraph
      from `i` on is not a heading, whatever the chapter. */
  lemma {:induction false} EmitFails(ps: seq<string>, i: nat, chapter: string,
                                     sentTokenize: string -> seq<string>)
    requires i <= |ps|
    ensures Emit(ps, i, chapter, TP.Sentence, 0, sentTokenize).Err?
            <==> exists q :: i <= q < |ps| && !IsChapterHeading(ps[q])
    decreases |ps| - i
  {
    if i < |ps| {
      if IsChapterHeading(ps[i]) {
        EmitFails(ps, i + 1, Strip(ps[i]), sentTokenize);
        if exists q :: i <= q < |ps| && !IsChapterHeading(ps[q]) {
          var q :| i <= q < |ps| && !IsChapterHeading(ps[q]);
          assert i + 1 <= q;
        }
      } else {
        assert ParagraphChunks(ps[i], TP.Sentence, 0, sentTokenize).Err?;
      }
    }
  }

  /** Some paragraph is not a chapter heading. */
  predicate HasText(ps: seq<string>)
  {
    exists q :: 0 <= q < |ps| && !IsChapterHeading(ps[q])
  }

  /** From the first paragraph, the loop fails exactly when the sentence
      count is zero and some paragraph is not a heading. */
  lemma EmitErr(ps: seq<string>, mode: TP.Mode, k: int, sentTokenize: string -> seq<string>)
    ensures Emit(ps, 0, InitialLabel, mode, k, sentTokenize).Err?
            <==> mode == TP.Sentence && k == 0 && HasText(ps)
  {
    if mode == TP.Sentence && k == 0 {
      EmitFails(ps, 0, InitialLabel, sentTokenize);
    } else {
      EmitBlocks(ps, 0, mode, k, sentTokenize);
    }
  }

  /** The script as written: clean the whole text, then split it into
      paragraphs. The cleaned text is one paragraph, so the script fails
      only on a zero sentence count for a text that does not open with a
      chapter heading. */
  function PreprocessAsWritten(text: string, mode: TP.Mode, k: int,
                               sentTokenize: string -> seq<string>): (r: Result<string>)
    ensures r.Err? <==> mode == TP.Sentence && k == 0 && !IsChapterHeading(TP.CleanText(text))
  {
    var ps := TP.SplitParagraphs(TP.CleanText(text));
    TP.CleanTextOneParagraph(text);
    assert ps[0] == TP.CleanText(text);
    EmitErr(ps, mode, k, sentTokenize);
    var outs :- Emit(ps, 0, InitialLabel, mode, k, sentTokenize);
    Ok(Join("\n\n", outs))
  }

  /** Cleaning leaves no blank line, so the script sees one paragraph: either
      a heading, and nothing is written, or the whole text under `Chapter 1`
      and `Paragraph 1`. */
  lemma AsWrittenOneParagraph(text: string, mode: TP.Mode, k: int,
                              sentTokenize: string -> seq<string>)
    ensures var c := TP.CleanText(text);
            PreprocessAsWritten(text, mode, k, sentTokenize)
            == if IsChapterHeading(c) then Ok("")
               else if mode == TP.Sentence && k == 0 then Err(ValueError("range() arg 3 must not be zero"))
               else Ok(Join("\n\n", Headed(InitialLabel, mode, k, 0,
                                           ParagraphChunks(c, mode, k, sentTokenize).value)))
  {
    var c := TP.CleanText(text);
    TP.CleanTextOneParagraph(text);
    var ps := [c];
    assert Emit(ps, 1, Strip(c), mode, k, sentTokenize) == Ok([]);
    assert Emit(ps, 1, InitialLabel, mode, k, sentTokenize) == Ok([]);
    if !IsChapterHeading(c) && (mode == TP.Paragraph || k != 0) {
      var chunks := ParagraphChunks(c, mode, k, sentTokenize).value;
      assert Headed(InitialLabel, mode, k, 0, chunks) + [] == Headed(InitialLabel, mode, k, 0, chunks);
    }
  }

  /** Cleaning keeps a leading `Chapter N`. */
  lemma HeadingSurvivesCleaning(text: string)
    requires IsChapterHeading(text)
    ensures IsChapterHeading(TP.CleanText(text))
  {
    var a := text[..9];
    assert text == a + text[9..];
    assert !IsSpace(a[8]);
    TP.CleanTextPrefix(a, text[9..]);
    var c := TP.CleanText(text);
    assert c[..8] == a[..8];
  }

  /** As written, a text that opens with a chapter heading produces an empty
      file: the whole cleaned text is one paragraph, and that paragraph is
      taken for the heading. */
  lemma AsWrittenDropsChapterText(text: string, mode: TP.Mode, k: int,
                                  sentTokenize: string -> seq<string>)
    requires IsChapterHeading(text)
    ensures PreprocessAsWritten(text, mode, k, sentTokenize) == Ok("")
  {
    HeadingSurvivesCleaning(text);
    AsWrittenOneParagraph(text, mode, k, sentTokenize);
  }

  /** Every paragraph cleaned on its own. */
  function CleanEach(raw: seq<string>): (ps: seq<string>)
    ensures |ps| == |raw| && forall i :: 0 <= i < |raw| ==> ps[i] == TP.CleanText(raw[i])
  {
    seq(|raw|, i requires 0 <= i < |raw| => TP.CleanText(raw[i]))
  }

  lemma CleanEachPair(a: string, b: string)
    ensures CleanEach([a, b]) == [TP.CleanText(a), TP.CleanText(b)]
  {
  }

  /** The evident intent: split the raw text at blank lines, then clean each
      paragraph on its own. */
  function PreprocessCorrected(text: string, mode: TP.Mode, k: int,
                               sentTokenize: string -> seq<string>): (r: Result<string>)
    ensures r.Err? <==> mode == TP.Sentence && k == 0 && HasText(CleanEach(TP.SplitParagraphs(text)))
  {
    var raw := TP.SplitParagraphs(text);
    var ps := CleanEach(raw);
    EmitErr(ps, mode, k, sentTokenize);
    var outs :- Emit(ps, 0, InitialLabel, mode, k, sentTokenize);
    Ok(Join("\n\n", outs))
  }

  /** The corrected result is the joined output of the loop over the cleaned paragraphs. */
  lemma CorrectedOf(text: string, ps: seq<string>, mode: TP.Mode, k: int,
                    sentTokenize: string -> seq<string>, outs: seq<string>)
    requires CleanEach(TP.SplitParagraphs(text)) == ps
    requires Emit(ps, 0, InitialLabel, mode, k, sentTokenize) == Ok(outs)
    ensures PreprocessCorrected(text, mode, k, sentTokenize) == Ok(Join("\n\n", outs))
  {
  }

  /** A trimmed heading followed by a text paragraph. */
  lemma HeadingThenText(ch: string, cb: string, k: int, sentTokenize: string -> seq<string>)
    requires IsChapterHeading(ch) && Trimmed(ch) && !IsChapterHeading(cb)
    ensures Emit([ch, cb], 0, InitialLabel, TP.Paragraph, k, sentTokenize)
            == Ok([DC.Opening() + ch + ". " + "Paragraph 2, " + DC.Themes() + cb])
  {
    var ps := [ch, cb];
    StripTrimmed(ch);
    assert Emit(ps, 2, ch, TP.Paragraph, k, sentTokenize) == Ok([]);
    assert NatToString(2) == "2";
    assert Position(TP.Paragraph, k, 2, 0) == "Paragraph 2, ";
    var line := DC.Opening() + ch + ". " + "Paragraph 2, " + DC.Themes() + cb;
    assert Headed(ch, TP.Paragraph, k, 1, [cb])[0] == line;
    assert Headed(ch, TP.Paragraph, k, 1, [cb]) == [line];
    assert ps[1] == cb && !IsChapterHeading(ps[1]);
    assert ParagraphChunks(ps[1], TP.Paragraph, k, sentTokenize) == Ok([cb]);
    assert [line] + [] == [line];
    assert Emit(ps, 1, ch, TP.Paragraph, k, sentTokenize) == Ok([line]);
  }

  /** With the correction, a heading paragraph followed by a text paragraph
      writes that text under the heading's chapter, numbered as paragraph 2. */
  lemma CorrectedKeepsChapterText(h: string, body: string, k: int,
                                  sentTokenize: string -> seq<string>)
    requires IsChapterHeading(h) && TP.NoBlankLine(h) && h[|h| - 1] != '\n'
    requires TP.NoBlankLine(body) && (|body| > 0 ==> body[0] != '\n')
    requires !IsChapterHeading(TP.CleanText(body))
    ensures PreprocessCorrected(h + "\n\n" + body, TP.Paragraph, k, sentTokenize)
            == Ok(DC.Opening() + TP.CleanText(h) + ". " + "Paragraph 2, " + DC.Themes()
                  + TP.CleanText(body))
  {
    var raw := TP.SplitParagraphs(h + "\n\n" + body);
    TP.SplitParagraphsPair(h, body);
    HeadingSurvivesCleaning(h);
    var ch, cb := TP.CleanText(h), TP.CleanText(body);
    CleanEachPair(h, body);
    HeadingThenText(ch, cb, k, sentTokenize);
    var line := DC.Opening() + ch + ". " + "Paragraph 2, " + DC.Themes() + cb;
    CorrectedOf(h + "\n\n" + body, [ch, cb], TP.Paragraph, k, sentTokenize, [line]);
  }

  /** With the correction, the result is the blocks of the cleaned paragraphs. */
  lemma CorrectedBlocks(text: string, mode: TP.Mode, k: int, sentTokenize: string -> seq<string>)
    requires mode == TP.Paragraph || k != 0
    ensures var raw := TP.SplitParagraphs(text);
            var ps := CleanEach(raw);
            PreprocessCorrected(text, mode, k, sentTokenize)
            == Ok(Join("\n\n", Flatten(Blocks(ps, 0, mode, k, sentTokenize))))
  {
    var raw := TP.SplitParagraphs(text);
    var ps := CleanEach(raw);
    EmitBlocks(ps, 0, mode, k, sentTokenize);
  }
}

=== FILE: document_indexing.dfy ===
/** `DocumentIndexingStep.execute` of `src/pipeline/steps/document_indexing.py`. */
module DocumentIndexing {
  import opened Wrappers
  import opened Documents
  import opened Embedder

  /** The step's return value and the documents it hands to the vector store. */
  datatype Indexed = Indexed(result: Record, stored: seq<Document>)

  /** Embed the record's `documents`, store them, and return them under the
      single key `embedded_documents`; every other input key is dropped. */
  function Execute(r: Record, embedBatch: seq<Document> -> seq<Document>): (x: Result<Indexed>)
    ensures x.Err? <==> "documents" !in r || !r["documents"].Docs?
    ensures "documents" !in r ==> x == Err(KeyError("documents"))
    ensures x.Ok? ==>
              x.value.result.Keys == {"embedded_documents"}
              && x.value.result["embedded_documents"] == Docs(x.value.stored)
              && x.value.stored == EmbedDocuments(r["documents"].docs, embedBatch)
  {
    var f :- Get(r, "documents");
    if !f.Docs? then Err(TypeError("documents is not a list of documents"))
    else
      var embedded := EmbedDocuments(f.docs, embedBatch);
      Ok(Indexed(map["embedded_documents" := Docs(embedded)], embedded))
  }

  /** The record the step returns to the orchestrator. */
  function IndexRecord(r: Record, embedBatch: seq<Document> -> seq<Document>): Result<Record>
  {
    var x :- Execute(r, embedBatch);
    Ok(x.result)
  }
}

=== FILE: documents.dfy ===
/** Haystack's `Document` as the pipeline uses it, and the pipeline's
    `Dict[str, Any]` records. */
module Documents {
  import opened Wrappers
  import opened Json

  /** A document: text, metadata, an optional embedding and retrieval score,
      the `id` attribute (absent for `None`) and the `analysis` attribute the
      facade attaches. */
  datatype Document = Document(
    content: string,
    meta: map<string, Value>,
    embedding: Option<Value>,
    score: Option<real>,
    id: Option<string>,
    analysis: Option<Field>)

  /** A value stored under a record key. */
  datatype Field =
    | Docs(docs: seq<Document>)
    | Doc(doc: Document)
    | Text(text: string)
    | Number(n: int)
    | Data(value: Value)

  /** The `input_data` dictionaries passed between pipeline steps. */
  type Record = map<string, Field>

  /** A document with only content and metadata set. */
  function Plain(content: string, meta: map<string, Value>): (d: Document)
    ensures d.content == content && d.meta == meta
    ensures d.embedding.None? && d.score.None? && d.id.None? && d.analysis.None?
  {
    Document(content, meta, None, None, None, None)
  }

  /** `record[key]`: a missing key raises `KeyError`. */
  function Get(r: Record, key: string): (f: Result<Field>)
    ensures f.Ok? <==> key in r
    ensures f.Ok? ==> f.value == r[key]
    ensures f.Err? ==> f.error == KeyError(key)
  {
    if key in r then Ok(r[key]) else Err(KeyError(key))
  }
}

=== FILE: embedder.dfy ===
/** `embed_documents` of `src/embeddings/openai_embedder.py`. The external
    document embedder is the parameter `embedBatch`. */
module Embedder {
  import opened Wrappers
  import opened Documents

  /** The documents that already carry an embedding, in input order. */
  function Embedded(docs: seq<Document>): (r: seq<Document>)
    ensures |r| <= |docs|
    ensures forall i :: 0 <= i < |r| ==> r[i].embedding.Some?
  {
    if |docs| == 0 then []
    else (if docs[0].embedding.Some? then [docs[0]] else []) + Embedded(docs[1..])
  }

  /** The documents sent to the embedder, in input order. */
  function ToEmbed(docs: seq<Document>): (r: seq<Document>)
    ensures |r| <= |docs|
    ensures forall i :: 0 <= i < |r| ==> r[i].embedding.None?
  {
    if |docs| == 0 then []
    else (if docs[0].embedding.None? then [docs[0]] else []) + ToEmbed(docs[1..])
  }

  /** The two groups split the input: nothing lost, nothing duplicated. */
  lemma {:induction false} Partition(docs: seq<Document>)
    ensures multiset(Embedded(docs)) + multiset(ToEmbed(docs)) == multiset(docs)
    ensures |Embedded(docs)| + |ToEmbed(docs)| == |docs|
  {
    if |docs| > 0 {
      Partition(docs[1..]);
      assert docs == [docs[0]] + docs[1..];
    }
  }

  /** Documents that all carry an embedding form their own first group. */
  lemma {:induction false} EmbeddedAll(docs: seq<Document>)
    requires forall i :: 0 <= i < |docs| ==> docs[i].embedding.Some?
    ensures Embedded(docs) == docs && ToEmbed(docs) == []
  {
    if |docs| > 0 {
      EmbeddedAll(docs[1..]);
      assert docs == [docs[0]] + docs[1..];
    }
  }

  /** `embed_documents`: the documents that have an embedding, unchanged,
      followed by the embedder's output for the others; the embedder is called
      only when there is something to embed. */
  function EmbedDocuments(docs: seq<Document>, embedBatch: seq<Document> -> seq<Document>)
    : (r: seq<Document>)
    ensures |r| >= |Embedded(docs)| && r[..|Embedded(docs)|] == Embedded(docs)
    ensures |ToEmbed(docs)| > 0 ==> r[|Embedded(docs)|..] == embedBatch(ToEmbed(docs))
    ensures |ToEmbed(docs)| == 0 ==> r == Embedded(docs)
  {
    var missing := ToEmbed(docs);
    Embedded(docs) + (if |missing| > 0 then embedBatch(missing) else [])
  }

  /** When every document already has an embedding the output is the input and
      does not depend on the embedder at all. */
  lemma AllEmbeddedUnchanged(docs: seq<Document>, embedBatch: seq<Document> -> seq<Document>,
                             other: seq<Document> -> seq<Document>)
    requires forall i :: 0 <= i < |docs| ==> docs[i].embedding.Some?
    ensures EmbedDocuments(docs, embedBatch) == docs
    ensures EmbedDocuments(docs, embedBatch) == EmbedDocuments(docs, other)
  {
    EmbeddedAll(docs);
  }

  /** An embedder that returns one document per input keeps the count. */
  lemma EmbedCount(docs: seq<Document>, embedBatch: seq<Document> -> seq<Document>)
    requires |embedBatch(ToEmbed(docs))| == |ToEmbed(docs)|
    ensures |EmbedDocuments(docs, embedBatch)| == |docs|
  {
    Partition(docs);
  }

  /** The output depends on the embedder only through what it returns for the
      documents without an embedding. */
  lemma OnlyMissingSent(docs: seq<Document>, f: seq<Document> -> seq<Document>,
                        g: seq<Document> -> seq<Document>)
    requires f(ToEmbed(docs)) == g(ToEmbed(docs))
    ensures EmbedDocuments(docs, f) == EmbedDocuments(docs, g)
  {
  }

  /** Input order is not kept across the two groups: an unembedded document
      followed by an embedded one come out the other way round. */
  lemma OrderNotPreserved(a: Document, b: Document, embedBatch: seq<Document> -> seq<Document>)
    requires a.embedding.None? && b.embedding.Some?
    ensures |EmbedDocuments([a, b], embedBatch)| > 0
    ensures EmbedDocuments([a, b], embedBatch)[0] == b
  {
    assert [a, b][1..] == [b];
    assert Embedded([a, b]) == [b] by {
      assert Embedded([b]) == [b] + Embedded([]);
    }
  }
}

=== FILE: facade.dfy ===
/** `PipelineFacade` of `src/pipeline/pipeline_facade.py`: indexing and search
    pass-throughs, and `analyze_similarity` with its cache of analysed
    (query, document id) pairs. The orchestrator's services and Python's
    `id(similar_doc)` are parameters. */
module Facade {
  import opened Wrappers
  import opened Json
  import opened Documents
  import opened Strings
  import opened Embedder
  import O = Orchestrator
  import SS = SimilaritySearch

  /** The facade's `_analyzed_pairs`. */
  datatype Facade = Facade(analyzedPairs: set<(string, string)>)

  /** What a call to `analyze_similarity` leaves behind: the facade, the
      document as mutated by the call, and the answer or the exception. */
  datatype Outcome = Outcome(facade: Facade, doc: Document, answer: Result<Field>)

  /** The request key `analyze_similarity` uses for the document. */
  const AsWrittenKey: string := "similar_document"
  /** The key the orchestrator tests for the analysis branch. */
  const AnalysisKey: string := "document"

  /** An f-string rendering of a metadata value; values other than strings
      and integers are rendered by `show`. */
  function Render(v: Value, show: Value -> string): string
  {
    match v
    case Str(s) => s
    case Int(i) => IntToString(i)
    case _ => show(v)
  }

  /** A document without an `id` gets `"<chapter>_<identity>"`, with
      `unknown` for a missing chapter; one with an `id` is left alone. */
  function EnsureId(doc: Document, identity: nat, show: Value -> string): (d: Document)
    ensures d.id.Some?
    ensures doc.id.Some? ==> d == doc
    ensures doc.id.None? && "chapter" !in doc.meta ==> d.id.value == "unknown_" + NatToString(identity)
    ensures doc.id.None? && "chapter" in doc.meta ==>
              d.id.value == Render(doc.meta["chapter"], show) + "_" + NatToString(identity)
    ensures d.content == doc.content && d.meta == doc.meta && d.analysis == doc.analysis
    ensures d.embedding == doc.embedding && d.score == doc.score
  {
    if doc.id.Some? then doc
    else
      var chapter := if "chapter" in doc.meta then Render(doc.meta["chapter"], show) else "unknown";
      doc.(id := Some(chapter + "_" + NatToString(identity)))
  }

  /** `analyze_similarity`, with the key under which the document is sent as
      a parameter (`AsWrittenKey` in the source). A known pair answers from
      the document's own `analysis` attribute; a new pair runs the
      orchestrator, stores the answer on the document and records the pair. */
  function Analyze(f: Facade, s: O.Services, docKey: string, query: string, doc: Document,
                   identity: nat, show: Value -> string): (o: Outcome)
    ensures o.doc.id.Some? && o.doc.content == doc.content && o.doc.meta == doc.meta
    ensures (query, o.doc.id.value) in f.analyzedPairs ==>
              o.facade == f && o.doc.analysis == doc.analysis
              && o.answer == (if doc.analysis.Some? then Ok(doc.analysis.value) else Err(AttributeError("analysis")))
    ensures o.facade.analyzedPairs == f.analyzedPairs
            || o.facade.analyzedPairs == f.analyzedPairs + {(query, o.doc.id.value)}
    ensures o.answer.Ok? && (query, o.doc.id.value) !in f.analyzedPairs ==>
              o.doc.analysis == Some(o.answer.value)
              && o.facade.analyzedPairs == f.analyzedPairs + {(query, o.doc.id.value)}
    ensures o.answer.Err? ==> o.facade == f && o.doc.analysis == doc.analysis
    ensures var out := O.Execute(map["query_text" := Text(query), docKey := Doc(EnsureId(doc, identity, show))], s);
            (query, o.doc.id.value) !in f.analyzedPairs ==>
              o.answer == (if out.Err? then Err(out.error)
                           else if "analysis" in out.value then Ok(out.value["analysis"])
                           else Err(KeyError("analysis")))
  {
    var d := EnsureId(doc, identity, show);
    var pair := (query, d.id.value);
    if pair in f.analyzedPairs then
      Outcome(f, d, if d.analysis.Some? then Ok(d.analysis.value) else Err(AttributeError("analysis")))
    else
      var out := O.Execute(map["query_text" := Text(query), docKey := Doc(d)], s);
      if out.Err? then Outcome(f, d, Err(out.error))
      else if "analysis" !in out.value then Outcome(f, d, Err(KeyError("analysis")))
      else
        var a := out.value["analysis"];
        Outcome(Facade(f.analyzedPairs + {pair}), d.(analysis := Some(a)), Ok(a))
  }

  /** `analyze_similarity` as written. Finding: the request carries
      `similar_document`, so the orchestrator takes the search branch, whose
      result has no `analysis` key; a new pair therefore always fails and no
      pair is ever recorded. */
  function AnalyzeSimilarity(f: Facade, s: O.Services, query: string, doc: Document,
                             identity: nat, show: Value -> string): (o: Outcome)
    ensures o.facade == f
    ensures o.doc.id.Some? && o.doc.content == doc.content && o.doc.meta == doc.meta
    ensures (query, o.doc.id.value) !in f.analyzedPairs ==>
              o.answer.Err? && o.doc.analysis == doc.analysis
    ensures (query, o.doc.id.value) in f.analyzedPairs ==>
              o.answer == (if doc.analysis.Some? then Ok(doc.analysis.value) else Err(AttributeError("analysis")))
  {
    var d := EnsureId(doc, identity, show);
    SearchHasNoAnalysis(map["query_text" := Text(query), AsWrittenKey := Doc(d)], s);
    Analyze(f, s, AsWrittenKey, query, doc, identity, show)
  }

  /** The search branch adds only `similar_documents`, so a request without
      `analysis` comes back without it. */
  lemma SearchHasNoAnalysis(req: Record, s: O.Services)
    requires "documents" !in req && "document" !in req && "query_text" in req && "analysis" !in req
    ensures O.Execute(req, s).Ok? ==> "analysis" !in O.Execute(req, s).value
  {
    var out := O.Execute(req, s);
    if out.Ok? {
      assert out.value.Keys == req.Keys + {"similar_documents"};
    }
  }

  /** Services whose analysis answers with the query text itself, so that
      answers for different queries differ. */
  function EchoServices(): O.Services
  {
    O.Services(
      ds => ds, t => Null, (e, k) => [], e => [],
      r => if "query_text" in r then Ok(map["analysis" := r["query_text"]]) else Err(KeyError("query_text")))
  }

  /** Finding: once the document is sent under `document`, the cache still
      keys pairs but keeps one answer per document, so asking A, then B, then
      A again about one document answers B's question the third time. */
  lemma StaleAnswer(doc: Document, show: Value -> string)
    requires doc.id == Some("d") && doc.analysis.None?
    ensures var s := EchoServices();
            var o1 := Analyze(Facade({}), s, AnalysisKey, "A", doc, 0, show);
            var o2 := Analyze(o1.facade, s, AnalysisKey, "B", o1.doc, 0, show);
            var o3 := Analyze(o2.facade, s, AnalysisKey, "A", o2.doc, 0, show);
            o1.answer == Ok(Text("A")) && o3.answer == Ok(Text("B"))
  {
    var s := EchoServices();
    var r1 := map["query_text" := Text("A"), AnalysisKey := Doc(doc)];
    assert O.Execute(r1, s) == Ok(r1 + map["analysis" := Text("A")]);
    var o1 := Analyze(Facade({}), s, AnalysisKey, "A", doc, 0, show);
    assert o1.doc == doc.(analysis := Some(Text("A")));
    var r2 := map["query_text" := Text("B"), AnalysisKey := Doc(o1.doc)];
    assert O.Execute(r2, s) == Ok(r2 + map["analysis" := Text("B")]);
    var o2 := Analyze(o1.facade, s, AnalysisKey, "B", o1.doc, 0, show);
    assert o2.doc == doc.(analysis := Some(Text("B")));
    assert o2.facade.analyzedPairs == {("A", "d"), ("B", "d")};
  }

  /** The fields of the `Analysis` model the analysis step parses its answer
      into; the orchestrator merges them into the request as they are. */
  const AnalysisFields: set<string> :=
    {"initial_observations", "thinking_steps", "connections", "evaluation", "summary"}

  /** Finding: even with the document sent under `document`, the analysis
      step returns the parsed `Analysis`, which the orchestrator merges field
      by field; the record then has no `analysis` key, so the lookup fails
      and no pair is ever recorded. */
  lemma ProjectionFails(f: Facade, s: O.Services, query: string, doc: Document,
                        identity: nat, show: Value -> string)
    requires forall r :: s.analyze(r).Ok? ==> s.analyze(r).value.Keys == AnalysisFields
    ensures var o := Analyze(f, s, AnalysisKey, query, doc, identity, show);
            var req := map["query_text" := Text(query), AnalysisKey := Doc(o.doc)];
            o.facade == f
            && ((query, o.doc.id.value) !in f.analyzedPairs ==>
                  o.answer == (if s.analyze(req).Ok? then Err(KeyError("analysis")) else Err(s.analyze(req).error)))
  {
    var d := EnsureId(doc, identity, show);
    var req := map["query_text" := Text(query), AnalysisKey := Doc(d)];
    assert "documents" !in req && "query_text" in req && AnalysisKey in req;
    if s.analyze(req).Ok? {
      assert "analysis" !in req + s.analyze(req).value;
    }
  }

  /** The parsed analysis fields of a merged record. */
  function Project(r: Record): (a: Record)
    ensures a.Keys == r.Keys * AnalysisFields
    ensures forall k :: k in a ==> a[k] == r[k]
  {
    map k | k in r && k in AnalysisFields :: r[k]
  }

  /** The corrected facade: the parsed analysis is cached per (query, id)
      pair rather than on the document. */
  datatype Cache = Cache(answers: map<(string, string), Record>)

  datatype CachedOutcome = CachedOutcome(cache: Cache, doc: Document, answer: Result<Record>)

  /** `analyze_similarity` with the document sent under `document`, the
      answer read from the merged analysis fields, and stored under its pair. */
  function AnalyzeCached(c: Cache, s: O.Services, query: string, doc: Document,
                         identity: nat, show: Value -> string): (o: CachedOutcome)
    ensures o.doc.id.Some? && o.doc.content == doc.content && o.doc.meta == doc.meta
    ensures o.doc.analysis == doc.analysis
    ensures forall p :: p in c.answers ==> p in o.cache.answers && o.cache.answers[p] == c.answers[p]
    ensures (query, o.doc.id.value) in c.answers ==>
              o.cache == c && o.answer == Ok(c.answers[(query, o.doc.id.value)])
    ensures o.answer.Ok? ==>
              (query, o.doc.id.value) in o.cache.answers
              && o.cache.answers[(query, o.doc.id.value)] == o.answer.value
    ensures o.answer.Ok? && (query, o.doc.id.value) !in c.answers ==>
              o.answer.value.Keys <= AnalysisFields
              && o.cache.answers == c.answers[(query, o.doc.id.value) := o.answer.value]
    ensures o.answer.Err? ==> o.cache == c
  {
    var d := EnsureId(doc, identity, show);
    var pair := (query, d.id.value);
    if pair in c.answers then CachedOutcome(c, d, Ok(c.answers[pair]))
    else
      var out := O.Execute(map["query_text" := Text(query), AnalysisKey := Doc(d)], s);
      if out.Err? then CachedOutcome(c, d, Err(out.error))
      else
        var a := Project(out.value);
        CachedOutcome(Cache(c.answers[pair := a]), d, Ok(a))
  }

  /** The corrected call reaches the analysis step: a new pair is answered
      with the analysis fields the step returns, and a parsed `Analysis` is
      answered whole. */
  lemma CorrectedAnalyzes(c: Cache, s: O.Services, query: string, doc: Document,
                          identity: nat, show: Value -> string)
    requires var d := EnsureId(doc, identity, show);
             (query, d.id.value) !in c.answers
    ensures var d := EnsureId(doc, identity, show);
            var req := map["query_text" := Text(query), AnalysisKey := Doc(d)];
            var o := AnalyzeCached(c, s, query, doc, identity, show);
            (s.analyze(req).Ok? ==> o.answer == Ok(Project(s.analyze(req).value)))
            && (s.analyze(req).Ok? && s.analyze(req).value.Keys == AnalysisFields ==>
                  o.answer == Ok(s.analyze(req).value))
            && (s.analyze(req).Err? ==> o.answer == Err(s.analyze(req).error))
  {
    var d := EnsureId(doc, identity, show);
    var req := map["query_text" := Text(query), AnalysisKey := Doc(d)];
    assert "documents" !in req && "query_text" in req && AnalysisKey in req;
    assert req.Keys !! AnalysisFields;
    if s.analyze(req).Ok? {
      var a := s.analyze(req).value;
      assert Project(req + a) == Project(a);
      if a.Keys == AnalysisFields {
        assert Project(a) == a;
      }
    }
  }

  /** Services whose analysis step parses an answer whose `summary` is the
      query text, so that answers for different queries differ. */
  function SummaryServices(): O.Services
  {
    O.Services(
      ds => ds, t => Null, (e, k) => [], e => [],
      r => if "query_text" in r then Ok(map["summary" := r["query_text"]]) else Err(KeyError("query_text")))
  }

  /** The corrected facade answers the A, B, A sequence with A's answer. */
  lemma CachedAnswer(doc: Document, show: Value -> string)
    requires doc.id == Some("d")
    ensures var s := SummaryServices();
            var o1 := AnalyzeCached(Cache(map[]), s, "A", doc, 0, show);
            var o2 := AnalyzeCached(o1.cache, s, "B", o1.doc, 0, show);
            var o3 := AnalyzeCached(o2.cache, s, "A", o2.doc, 0, show);
            o1.answer == Ok(map["summary" := Text("A")]) && o3.answer == Ok(map["summary" := Text("A")])
  {
    var s := SummaryServices();
    var r1 := map["query_text" := Text("A"), AnalysisKey := Doc(doc)];
    var a1 := map["summary" := Text("A")];
    assert O.Execute(r1, s) == Ok(r1 + a1);
    assert Project(r1 + a1) == a1;
  }

  /** `index_documents`: the embedded documents of the indexing step. */
  function IndexDocuments(s: O.Services, docs: seq<Document>): (r: Result<Field>)
    ensures r == Ok(Docs(EmbedDocuments(docs, s.embedBatch)))
  {
    O.IndexingWins(map["documents" := Docs(docs)], docs, s);
    match O.Execute(map["documents" := Docs(docs)], s)
    case Ok(out) => Get(out, "embedded_documents")
    case Err(e) => Err(e)
  }

  /** `find_similar_passages`: the search step's documents. The `top_k` it
      puts in the request is never read, so every `top_k` gives the passages
      of the search step's default limit. */
  function FindSimilar(s: O.Services, query: string, topK: int): (r: Result<Field>)
    ensures var e := s.embedQuery(query);
            var sel := SS.Select(s.queryTop(e, SS.DefaultTopK), s.queryAll(e), SS.DefaultTopK);
            r == if sel.Ok? then Ok(Docs(sel.value)) else Err(sel.error)
  {
    var req := map["query_text" := Text(query), "top_k" := Number(topK)];
    assert "documents" !in req && "document" !in req && req["query_text"] == Text(query);
    var out :- O.Execute(req, s);
    Get(out, "similar_documents")
  }
}

=== FILE: footnotes.dfy ===
/** Footnote removal, `re.sub(r'\[\d+\].*?(?=\n\n|\Z)', '', text, flags=re.DOTALL)`,
    and the em-dash replacement used by the Odyssey cleaners. */
module Footnotes {
  import opened Strings
  import TextProcessing

  /** A footnote marker `[digits]` opens at `i` and its `]` is at `j`. */
  ghost predicate MarkerSpan(s: string, i: int, j: int)
  {
    0 <= i && i + 1 < j < |s| && s[i] == '[' && s[j] == ']'
    && forall k :: i < k < j ==> IsDigit(s[k])
  }

  ghost predicate MarkerAt(s: string, i: int)
  {
    exists j :: MarkerSpan(s, i, j)
  }

  /** No footnote marker anywhere in `s`. */
  ghost predicate NoMarker(s: string)
  {
    forall i :: 0 <= i < |s| ==> !MarkerAt(s, i)
  }

  /** First index at or after `i` that is not a digit (or `|s|`). */
  function DigitsEnd(s: string, i: nat): (j: nat)
    requires i <= |s|
    ensures i <= j <= |s|
    ensures forall k :: i <= k < j ==> IsDigit(s[k])
    ensures j < |s| ==> !IsDigit(s[j])
    decreases |s| - i
  {
    if i == |s| || !IsDigit(s[i]) then i else DigitsEnd(s, i + 1)
  }

  /** The executable test the regex engine makes at position `p`. */
  predicate MarkerStart(t: string, p: nat)
  {
    p < |t| && t[p] == '[' && p + 1 < DigitsEnd(t, p + 1) < |t| && t[DigitsEnd(t, p + 1)] == ']'
  }

  lemma MarkerStartIff(t: string, p: nat)
    ensures MarkerStart(t, p) <==> MarkerAt(t, p)
    ensures MarkerStart(t, p) ==> MarkerSpan(t, p, DigitsEnd(t, p + 1))
  {
    if MarkerStart(t, p) {
      assert MarkerSpan(t, p, DigitsEnd(t, p + 1));
    }
    if MarkerAt(t, p) {
      var j :| MarkerSpan(t, p, j);
      var e := DigitsEnd(t, p + 1);
    }
  }

  /** The text that survives from position `p` on. */
  function RemoveFrom(t: string, p: nat): (r: string)
    requires p <= |t|
    ensures |r| <= |t| - p
    decreases |t| - p
  {
    if p == |t| then ""
    else if MarkerStart(t, p) then RemoveFrom(t, Resume(t, p))
    else [t[p]] + RemoveFrom(t, p + 1)
  }

  /** Where a footnote starting at `m` ends: `.*?(?=\n\n|\Z)` after the
      closing bracket stops at the first blank line, or at the end of the text. */
  function Resume(t: string, m: nat): (q: nat)
    requires MarkerStart(t, m)
    ensures DigitsEnd(t, m + 1) < q <= |t|
    ensures q < |t| ==> TextProcessing.BlankAt(t, q)
    ensures forall k :: DigitsEnd(t, m + 1) < k < q ==> !TextProcessing.BlankAt(t, k)
  {
    TextProcessing.FirstBlank(t, DigitsEnd(t, m + 1) + 1)
  }

  /** Each `[digits]` marker is deleted together with everything after it up to,
      not including, the next blank line or the end of the text. */
  function RemoveFootnotes(t: string): (r: string)
    ensures |r| <= |t|
    ensures NoMarker(r)
  {
    RemoveFromClean(t, 0);
    RemoveFrom(t, 0)
  }

  /** First marker position at or after `p` (or `|t|`). */
  function FirstMarker(t: string, p: nat): (m: nat)
    requires p <= |t|
    ensures p <= m <= |t|
    ensures m < |t| ==> MarkerStart(t, m)
    ensures forall k :: p <= k < m ==> !MarkerStart(t, k)
    decreases |t| - p
  {
    if p == |t| || MarkerStart(t, p) then p else FirstMarker(t, p + 1)
  }

  /** What survives from `p` is the text up to the next marker, followed by
      nothing or by a part that starts with a newline. */
  lemma {:induction false} RemoveFromPrefix(t: string, p: nat)
    requires p <= |t|
    ensures FirstMarker(t, p) - p <= |RemoveFrom(t, p)|
    ensures var m := FirstMarker(t, p);
            var y := RemoveFrom(t, p)[m - p..];
            && RemoveFrom(t, p) == t[p..m] + y
            && (y == "" || y[0] == '\n')
            && (m < |t| ==> y == RemoveFrom(t, Resume(t, m)))
    decreases |t| - p
  {
    if p == |t| {
    } else if MarkerStart(t, p) {
      ResumeAtBlank(t, Resume(t, p));
      assert t[p..p] == "";
    } else {
      RemoveFromPrefix(t, p + 1);
      var m := FirstMarker(t, p + 1);
      var rest := RemoveFrom(t, p + 1);
      assert FirstMarker(t, p) == m;
      assert RemoveFrom(t, p) == [t[p]] + rest;
      PrefixStep(t, p, m, RemoveFrom(t, p), rest, rest[m - (p + 1)..]);
    }
  }

  /** `remove_footnotes` keeps the text before the first marker, deletes from
      the marker up to the first blank line after its closing bracket (or to
      the end), and goes on from that blank line; a text without a marker is
      returned unchanged. */
  lemma RemoveFootnotesSpan(t: string)
    ensures var m := FirstMarker(t, 0);
            && (m == |t| ==> RemoveFootnotes(t) == t)
            && (m < |t| ==> RemoveFootnotes(t) == t[..m] + RemoveFrom(t, Resume(t, m)))
  {
    RemoveFromPrefix(t, 0);
    var m := FirstMarker(t, 0);
    if m == |t| {
      assert RemoveFrom(t, 0)[m..] == "";
      assert t[0..m] == t;
    } else {
      assert t[0..m] == t[..m];
    }
  }

  /** Putting back the kept character `t[p]` in front of what survives after it. */
  lemma PrefixStep(t: string, p: nat, m: nat, r: string, rest: string, y: string)
    requires p < m <= |t|
    requires r == [t[p]] + rest
    requires m - (p + 1) <= |rest| && y == rest[m - (p + 1)..]
    requires rest == t[p + 1..m] + y
    ensures m - p <= |r| && r[m - p..] == y && r == t[p..m] + y
  {
    ConsSlice(t, p, m, y, rest);
    ConsDrop(t[p], rest, m - (p + 1));
  }

  lemma ConsDrop<T>(c: T, s: seq<T>, n: nat)
    requires n <= |s|
    ensures ([c] + s)[n + 1..] == s[n..]
  {
  }

  /** Removal resumes at a blank line or at the end, so what remains starts
      with a newline or is empty. */
  lemma ResumeAtBlank(t: string, q: nat)
    requires q <= |t| && (q < |t| ==> TextProcessing.BlankAt(t, q))
    ensures RemoveFrom(t, q) == "" || RemoveFrom(t, q)[0] == '\n'
  {
    if q < |t| {
      assert !MarkerStart(t, q);
    }
  }

  lemma MarkerShift(c: string, a: string, i: nat)
    requires MarkerAt(c + a, |c| + i)
    ensures MarkerAt(a, i)
  {
    var j :| MarkerSpan(c + a, |c| + i, j);
    forall k | i < k < j - |c| ensures IsDigit(a[k]) {
      assert a[k] == (c + a)[|c| + k];
    }
    assert MarkerSpan(a, i, j - |c|);
  }

  lemma {:induction false} RemoveFromClean(t: string, p: nat)
    requires p <= |t|
    ensures NoMarker(RemoveFrom(t, p))
    decreases |t| - p
  {
    if p == |t| {
    } else if MarkerStart(t, p) {
      RemoveFromClean(t, Resume(t, p));
    } else {
      RemoveFromClean(t, p + 1);
      NoMarkerAtHead(t, p);
      ConsNoMarker(t[p], RemoveFrom(t, p + 1));
    }
  }

  /** A character put before a marker-free text adds no marker unless one
      starts at it. */
  lemma ConsNoMarker(c: char, rest: string)
    requires NoMarker(rest) && !MarkerAt([c] + rest, 0)
    ensures NoMarker([c] + rest)
  {
    var r := [c] + rest;
    forall i | 0 < i < |r| ensures !MarkerAt(r, i) {
      if MarkerAt(r, i) {
        MarkerShift([c], rest, i - 1);
      }
    }
  }

  lemma {:induction false} NoMarkerAtHead(t: string, p: nat)
    requires p < |t| && !MarkerStart(t, p)
    ensures !MarkerAt([t[p]] + RemoveFrom(t, p + 1), 0)
  {
    var rest := RemoveFrom(t, p + 1);
    RemoveFromPrefix(t, p + 1);
    var m := FirstMarker(t, p + 1);
    var y := rest[m - (p + 1)..];
    assert rest == t[p + 1..m] + y && (y == "" || y[0] == '\n');
    ConsSlice(t, p, m, y, rest);
    MarkerStartIff(t, p);
    BoundaryNoMarker(t[p..m], y, t, p);
  }

  lemma BoundaryNoMarker(u: string, y: string, t: string, p: nat)
    requires p + |u| <= |t| && u == t[p..p + |u|]
    requires y == "" || y[0] == '\n'
    requires !MarkerAt(t, p)
    ensures !MarkerAt(u + y, 0)
  {
    if MarkerAt(u + y, 0) {
      BoundaryMarker(u, y, t, p);
    }
  }

  lemma ConsSlice(t: string, p: nat, m: nat, y: string, rest: string)
    requires p < m <= |t|
    requires rest == t[p + 1..m] + y
    ensures [t[p]] + rest == t[p..m] + y
  {
    assert t[p..m] == [t[p]] + t[p + 1..m];
  }

  /** A marker at the head of `u + y`, where `u` is a slice of `t` starting at
      `p` and `y` is empty or starts with a newline, is a marker of `t` at `p`. */
  lemma BoundaryMarker(u: string, y: string, t: string, p: nat)
    requires p + |u| <= |t| && u == t[p..p + |u|]
    requires y == "" || y[0] == '\n'
    requires MarkerAt(u + y, 0)
    ensures MarkerAt(t, p)
  {
    var r := u + y;
    var j :| MarkerSpan(r, 0, j);
    assert j >= |u| ==> r[|u|] == y[0];
    assert j > |u| ==> IsDigit(r[|u|]);
    forall k | p < k < p + j && k < p + |u| ensures IsDigit(t[k]) {
      assert t[k] == r[k - p];
    }
    assert j < |u| ==> t[p + j] == r[j];
    assert MarkerSpan(t, p, p + j);
  }

  /** A text without footnote markers is left as it is. */
  lemma {:induction false} RemoveFootnotesIdentity(t: string)
    requires NoMarker(t)
    ensures RemoveFootnotes(t) == t
  {
    RemoveFromIdentity(t, 0);
  }

  lemma {:induction false} RemoveFromIdentity(t: string, p: nat)
    requires p <= |t| && NoMarker(t)
    ensures RemoveFrom(t, p) == t[p..]
    decreases |t| - p
  {
    if p < |t| {
      MarkerStartIff(t, p);
      RemoveFromIdentity(t, p + 1);
      assert t[p..] == [t[p]] + t[p + 1..];
    }
  }

  /** Removing footnotes twice removes nothing more. */
  lemma RemoveFootnotesIdempotent(t: string)
    ensures RemoveFootnotes(RemoveFootnotes(t)) == RemoveFootnotes(t)
  {
    RemoveFootnotesIdentity(RemoveFootnotes(t));
  }

  /** A marker deletes through single line breaks but stops at the blank line. */
  lemma FootnoteExample()
    ensures RemoveFootnotes("a[1] b\nc\n\nd") == "a\n\nd"
  {
    var t := "a[1] b\nc\n\nd";
    assert !MarkerStart(t, 0);
    assert DigitsEnd(t, 2) == 3;
    assert MarkerStart(t, 1);
    assert TextProcessing.FirstBlank(t, 4) == 8;
    assert !MarkerStart(t, 8) && !MarkerStart(t, 9) && !MarkerStart(t, 10);
  }

  const EmDash: char := '\U{2014}'

  /** `s.replace('—', '-')`. */
  function ReplaceEmDash(s: string): (r: string)
    ensures |r| == |s|
    ensures EmDash !in r
    ensures forall k :: 0 <= k < |s| ==> (IsSpace(r[k]) <==> IsSpace(s[k]))
    ensures forall k :: 0 <= k < |s| && s[k] != EmDash ==> r[k] == s[k]
  {
    ReplaceChar(s, EmDash, '-')
  }

  /** Replacing the em dash keeps a text free of footnote markers. */
  lemma ReplaceEmDashNoMarker(s: string)
    requires NoMarker(s)
    ensures NoMarker(ReplaceEmDash(s))
  {
    var r := ReplaceEmDash(s);
    forall i | 0 <= i < |r| ensures !MarkerAt(r, i) {
      if MarkerAt(r, i) {
        var j :| MarkerSpan(r, i, j);
        forall k | i < k < j ensures IsDigit(s[k]) {
          assert IsDigit(r[k]);
        }
        assert s[i] == '[' && s[j] == ']';
        assert MarkerSpan(s, i, j);
        assert MarkerAt(s, i);
      }
    }
  }

  /** A slice of a text free of footnote markers is free of them too. */
  lemma SliceNoMarker(s: string, a: nat, b: nat)
    requires a <= b <= |s| && NoMarker(s)
    ensures NoMarker(s[a..b])
  {
    forall i | 0 <= i < b - a && MarkerAt(s[a..b], i) ensures MarkerAt(s, a + i) {
      SliceMarker(s, a, b, i);
    }
  }

  lemma SliceMarker(s: string, a: nat, b: nat, i: nat)
    requires a <= b <= |s| && MarkerAt(s[a..b], i)
    ensures MarkerAt(s, a + i)
  {
    var r := s[a..b];
    var j :| MarkerSpan(r, i, j);
    forall k | a + i < k < a + j ensures IsDigit(s[k]) {
      assert s[k] == r[k - a];
    }
    assert s[a + i] == r[i] && s[a + j] == r[j];
    assert MarkerSpan(s, a + i, a + j);
  }
}

=== FILE: json.dfy ===
/** JSON values as `json.dumps` / `json.loads` see them. */
module Json {
  datatype Value =
    | Null
    | Bool(b: bool)
    | Int(i: int)
    | Float(r: real)
    | Str(s: string)
    | Arr(items: seq<Value>)
    | Obj(fields: map<string, Value>)

  /** Values `len()` accepts: a list, a string or an object. */
  predicate HasLen(v: Value)
  {
    v.Arr? || v.Str? || v.Obj?
  }
}

=== FILE: odyssey_chunks.dfy ===
/** The book loop of `src/data_preparation/preprocess_odyssey.py`. */
module OdysseyChunks {
  import opened Wrappers
  import opened Seqs
  import opened Strings
  import opened Books
  import TP = TextProcessing

  function Opening(): string { "Context: The Odyssey by Homer, " }
  function Themes(): string { "Themes may include heroism, homecoming, and divine intervention.\n\n" }

  /** Chunk `n` (1-based) of a book under its context header. */
  function Labelled(title: string, n: nat, chunk: string): string
  {
    Opening() + title + ". " + "Chunk " + NatToString(n) + ", " + Themes() + chunk
  }

  /** The chunks of one book's cleaned body. */
  function BookChunks(body: string, mode: TP.Mode, k: int, sentTokenize: string -> seq<string>)
    : Result<seq<string>>
  {
    TP.SplitIntoChunks(TP.CleanText(body), mode, k, sentTokenize)
  }

  /** One book: clean its body, chunk it, and head chunk `j` with `Chunk j+1`. */
  function ProcessBook(mode: TP.Mode, k: int, sentTokenize: string -> seq<string>,
                       i: nat, book: Book): Result<seq<string>>
  {
    var chunks :- BookChunks(book.body, mode, k, sentTokenize);
    Ok(Headed(book.title, chunks))
  }

  /** Every chunk of a book under its own header, numbered from 1. */
  function Headed(title: string, chunks: seq<string>): (r: seq<string>)
    ensures |r| == |chunks|
    ensures forall j :: 0 <= j < |r| ==> r[j] == Labelled(title, j + 1, chunks[j])
  {
    seq(|chunks|, j requires 0 <= j < |chunks| => Labelled(title, j + 1, chunks[j]))
  }

  /** `ProcessBook` with the run's settings fixed, as the book loop calls it. */
  function Processor(mode: TP.Mode, k: int, sentTokenize: string -> seq<string>)
    : (nat, Book) -> Result<seq<string>>
  {
    (i: nat, book: Book) => ProcessBook(mode, k, sentTokenize, i, book)
  }

  /** A book fails only on a zero sentence count; otherwise chunk `j` of its
      cleaned body comes out under `Chunk j+1`. */
  lemma ProcessorAt(mode: TP.Mode, k: int, sentTokenize: string -> seq<string>, i: nat, book: Book)
    ensures Processor(mode, k, sentTokenize)(i, book).Err? <==> mode == TP.Sentence && k == 0
    ensures Processor(mode, k, sentTokenize)(i, book).Ok? ==>
            var chunks := BookChunks(book.body, mode, k, sentTokenize).value;
            var out := Processor(mode, k, sentTokenize)(i, book).value;
            |out| == |chunks|
            && forall j :: 0 <= j < |out| ==> out[j] == Labelled(book.title, j + 1, chunks[j])
  {
    ProcessorFails(mode, k, sentTokenize, i, book);
    assert Processor(mode, k, sentTokenize)(i, book) == ProcessBook(mode, k, sentTokenize, i, book);
  }

  lemma ProcessorFails(mode: TP.Mode, k: int, sentTokenize: string -> seq<string>, i: nat, book: Book)
    ensures Processor(mode, k, sentTokenize)(i, book).Err? <==> mode == TP.Sentence && k == 0
  {
    assert Processor(mode, k, sentTokenize)(i, book) == ProcessBook(mode, k, sentTokenize, i, book);
  }

  /** The headed chunks of all books, in book order. */
  function OdysseyChunks(pieces: seq<string>, mode: TP.Mode, k: int,
                         sentTokenize: string -> seq<string>): Result<seq<string>>
    requires |pieces| % 2 == 1
  {
    ForEachBook(BookPairs(pieces), Processor(mode, k, sentTokenize), 0)
  }

  /** `preprocess_odyssey` without the file I/O: the content written out.
      It fails only on a zero sentence count once a book exists; in
      paragraph mode it is every book's cleaned body under `Chunk 1`. */
  function PreprocessOdyssey(pieces: seq<string>, mode: TP.Mode, k: int,
                             sentTokenize: string -> seq<string>): (r: Result<string>)
    requires |pieces| % 2 == 1
    ensures r.Err? <==> |pieces| > 1 && mode == TP.Sentence && k == 0
    ensures mode == TP.Paragraph ==>
              r == Ok(Join("\n\n", seq((|pieces| - 1) / 2, b requires 0 <= b < (|pieces| - 1) / 2 =>
                                         Labelled(BookPairs(pieces)[b].title, 1, TP.CleanText(BookPairs(pieces)[b].body)))))
  {
    OdysseyFails(pieces, mode, k, sentTokenize);
    if mode == TP.Paragraph then
      OdysseyParagraphMode(pieces, k, sentTokenize);
      Ok(Join("\n\n", OdysseyChunks(pieces, mode, k, sentTokenize).value))
    else
      var chunks :- OdysseyChunks(pieces, mode, k, sentTokenize);
      Ok(Join("\n\n", chunks))
  }

  /** The only failure is a zero sentence count, and only once a book exists. */
  lemma {:induction false} OdysseyFails(pieces: seq<string>, mode: TP.Mode, k: int, sentTokenize: string -> seq<string>)
    requires |pieces| % 2 == 1
    ensures OdysseyChunks(pieces, mode, k, sentTokenize).Err?
            <==> |pieces| > 1 && mode == TP.Sentence && k == 0
  {
    var books := BookPairs(pieces);
    var f := Processor(mode, k, sentTokenize);
    forall b | 0 <= b < |books|
      ensures f(b, books[b]).Err? <==> mode == TP.Sentence && k == 0
    {
      ProcessorFails(mode, k, sentTokenize, b, books[b]);
    }
    ForEachBookErr(books, f, mode == TP.Sentence && k == 0);
  }

  /** Chunk `j` of book `b` is headed with that book's trimmed title and the
      number `j + 1`: numbering restarts with every book. */
  lemma OdysseyChunkAt(pieces: seq<string>, mode: TP.Mode, k: int,
                       sentTokenize: string -> seq<string>, b: nat, j: nat)
    requires |pieces| % 2 == 1
    requires mode == TP.Paragraph || k != 0
    requires b < (|pieces| - 1) / 2
    requires j < |BookChunks(pieces[2 * b + 2], mode, k, sentTokenize).value|
    ensures AllOk(BookPairs(pieces), Processor(mode, k, sentTokenize))
    ensures OdysseyChunks(pieces, mode, k, sentTokenize).Ok?
    ensures var books := BookPairs(pieces);
            var f := Processor(mode, k, sentTokenize);
            var out := OdysseyChunks(pieces, mode, k, sentTokenize).value;
            Offset(Outputs(books, f, 0), b) + j < |out|
            && out[Offset(Outputs(books, f, 0), b) + j]
               == Labelled(Strip(pieces[2 * b + 1]), j + 1,
                          BookChunks(pieces[2 * b + 2], mode, k, sentTokenize).value[j])
  {
    AllBooksOk(BookPairs(pieces), mode, k, sentTokenize);
    ProcessorChunk(mode, k, sentTokenize, b, Strip(pieces[2 * b + 1]), pieces[2 * b + 2], j);
    PieceValueAt(pieces, Processor(mode, k, sentTokenize), b, j,
                 Labelled(Strip(pieces[2 * b + 1]), j + 1,
                          BookChunks(pieces[2 * b + 2], mode, k, sentTokenize).value[j]));
  }

  lemma ProcessorChunk(mode: TP.Mode, k: int, sentTokenize: string -> seq<string>, i: nat,
                       title: string, body: string, j: nat)
    requires mode == TP.Paragraph || k != 0
    requires j < |BookChunks(body, mode, k, sentTokenize).value|
    ensures Processor(mode, k, sentTokenize)(i, Book(title, body)).Ok?
    ensures j < |Processor(mode, k, sentTokenize)(i, Book(title, body)).value|
    ensures Processor(mode, k, sentTokenize)(i, Book(title, body)).value[j]
            == Labelled(title, j + 1, BookChunks(body, mode, k, sentTokenize).value[j])
  {
    ProcessorAt(mode, k, sentTokenize, i, Book(title, body));
  }

  lemma AllBooksOk(books: seq<Book>, mode: TP.Mode, k: int, sentTokenize: string -> seq<string>)
    requires mode == TP.Paragraph || k != 0
    ensures AllOk(books, Processor(mode, k, sentTokenize))
  {
    forall c | 0 <= c < |books| ensures Processor(mode, k, sentTokenize)(c, books[c]).Ok? {
      ProcessorFails(mode, k, sentTokenize, c, books[c]);
    }
  }

  /** In paragraph mode every book yields exactly one chunk: its whole cleaned
      body under `Chunk 1`. */
  lemma {:induction false} OdysseyParagraphMode(pieces: seq<string>, k: int, sentTokenize: string -> seq<string>)
    requires |pieces| % 2 == 1
    ensures OdysseyChunks(pieces, TP.Paragraph, k, sentTokenize)
            == Ok(seq((|pieces| - 1) / 2, b requires 0 <= b < (|pieces| - 1) / 2 =>
                        Labelled(BookPairs(pieces)[b].title, 1, TP.CleanText(BookPairs(pieces)[b].body))))
  {
    var books := BookPairs(pieces);
    var f := Processor(TP.Paragraph, k, sentTokenize);
    var expected := seq(|books|, b requires 0 <= b < |books| =>
                          Labelled(books[b].title, 1, TP.CleanText(books[b].body)));
    forall b | 0 <= b < |books|
      ensures f(b, books[b]) == Ok([expected[b]])
    {
      ParagraphBook(k, sentTokenize, b, books[b]);
    }
    ForEachSingletons(books, f, expected);
  }

  lemma ParagraphBook(k: int, sentTokenize: string -> seq<string>, i: nat, book: Book)
    ensures Processor(TP.Paragraph, k, sentTokenize)(i, book)
            == Ok([Labelled(book.title, 1, TP.CleanText(book.body))])
  {
    TP.CleanTextOneParagraph(book.body);
    assert BookChunks(book.body, TP.Paragraph, k, sentTokenize) == Ok([TP.CleanText(book.body)]);
    ProcessorAt(TP.Paragraph, k, sentTokenize, i, book);
    var out := Processor(TP.Paragraph, k, sentTokenize)(i, book).value;
    assert |out| == 1;
    assert out == [Labelled(book.title, 1, TP.CleanText(book.body))];
  }
}

=== FILE: odyssey_script.dfy ===
/** `scripts/01_data_preperation/preprocess_odyssey.py`: footnote removal,
    whitespace cleaning and dash replacement per book, then paragraph or
    sentence chunks under position headers. */
module OdysseyScript {
  import opened Wrappers
  import opened Seqs
  import opened Strings
  import opened Books
  import opened ScriptHeaders
  import TP = TextProcessing
  import FN = Footnotes
  import OC = OdysseyChunks

  /** The cleaning pipeline of one book body: footnotes first, while the blank
      lines that end them are still there, then whitespace, then the em dash.
      The two quote replacements replace a character by itself and are omitted. */
  function CleanBody(body: string): (r: string)
    ensures '\n' !in r
    ensures Trimmed(r) && NoAdjacentSpace(r)
    ensures FN.EmDash !in r
  {
    var c := TP.CleanText(FN.RemoveFootnotes(body));
    var r := FN.ReplaceEmDash(c);
    forall k | 0 <= k < |r| ensures r[k] != '\n' {
      if IsSpace(c[k]) {
        assert c[k] in c;
      }
    }
    r
  }

  /** One book's chunks, each under `title. Paragraph j+1, ` or its sentence range. */
  function ProcessBook(mode: TP.Mode, k: int, sentTokenize: string -> seq<string>,
                       i: nat, book: Book): Result<seq<string>>
  {
    var chunks :- TP.SplitIntoChunks(CleanBody(book.body), mode, k, sentTokenize);
    Ok(Headed(book.title, mode, k, chunks))
  }

  /** Every chunk of a book under its own header, numbered from 1. */
  function Headed(title: string, mode: TP.Mode, k: int, chunks: seq<string>): (r: seq<string>)
    ensures |r| == |chunks|
    ensures forall j :: 0 <= j < |r| ==> r[j] == Labelled(title, Position(mode, k, j + 1, j), chunks[j])
  {
    seq(|chunks|, j requires 0 <= j < |chunks| => Labelled(title, Position(mode, k, j + 1, j), chunks[j]))
  }

  /** A chunk under its header: the opening, the title, the position, the themes. */
  function Labelled(title: string, position: string, chunk: string): string
  {
    OC.Opening() + title + ". " + position + OC.Themes() + chunk
  }

  function Processor(mode: TP.Mode, k: int, sentTokenize: string -> seq<string>)
    : (nat, Book) -> Result<seq<string>>
  {
    (i: nat, book: Book) => ProcessBook(mode, k, sentTokenize, i, book)
  }

  lemma ProcessorAt(mode: TP.Mode, k: int, sentTokenize: string -> seq<string>, i: nat, book: Book)
    ensures Processor(mode, k, sentTokenize)(i, book).Err? <==> mode == TP.Sentence && k == 0
    ensures Processor(mode, k, sentTokenize)(i, book).Ok? ==>
            var chunks := TP.SplitIntoChunks(CleanBody(book.body), mode, k, sentTokenize).value;
            var out := Processor(mode, k, sentTokenize)(i, book).value;
            |out| == |chunks|
            && forall j :: 0 <= j < |out| ==>
                 out[j] == Labelled(book.title, Position(mode, k, j + 1, j), chunks[j])
  {
    ProcessorFails(mode, k, sentTokenize, i, book);
    assert Processor(mode, k, sentTokenize)(i, book) == ProcessBook(mode, k, sentTokenize, i, book);
  }

  lemma ProcessorFails(mode: TP.Mode, k: int, sentTokenize: string -> seq<string>, i: nat, book: Book)
    ensures Processor(mode, k, sentTokenize)(i, book).Err? <==> mode == TP.Sentence && k == 0
  {
    assert Processor(mode, k, sentTokenize)(i, book) == ProcessBook(mode, k, sentTokenize, i, book);
  }

  lemma AllBooksOk(books: seq<Book>, mode: TP.Mode, k: int, sentTokenize: string -> seq<string>)
    requires mode == TP.Paragraph || k != 0
    ensures AllOk(books, Processor(mode, k, sentTokenize))
  {
    forall c | 0 <= c < |books| ensures Processor(mode, k, sentTokenize)(c, books[c]).Ok? {
      ProcessorFails(mode, k, sentTokenize, c, books[c]);
    }
  }

  function ScriptChunks(pieces: seq<string>, mode: TP.Mode, k: int,
                        sentTokenize: string -> seq<string>): Result<seq<string>>
    requires |pieces| % 2 == 1
  {
    ForEachBook(BookPairs(pieces), Processor(mode, k, sentTokenize), 0)
  }

  /** The content the script writes. */
  function PreprocessScript(pieces: seq<string>, mode: TP.Mode, k: int,
                            sentTokenize: string -> seq<string>): (r: Result<string>)
    requires |pieces| % 2 == 1
    ensures r.Err? <==> |pieces| > 1 && mode == TP.Sentence && k == 0
    ensures mode == TP.Paragraph ==>
              r == Ok(Join("\n\n", seq((|pieces| - 1) / 2, b requires 0 <= b < (|pieces| - 1) / 2 =>
                                         Labelled(BookPairs(pieces)[b].title, "Paragraph 1, ",
                                                  CleanBody(BookPairs(pieces)[b].body)))))
  {
    ScriptFails(pieces, mode, k, sentTokenize);
    if mode == TP.Paragraph then
      ScriptParagraphMode(pieces, k, sentTokenize);
      Ok(Join("\n\n", ScriptChunks(pieces, mode, k, sentTokenize).value))
    else
      var chunks :- ScriptChunks(pieces, mode, k, sentTokenize);
      Ok(Join("\n\n", chunks))
  }

  /** The script fails only on a zero sentence count, once a book exists. */
  lemma {:induction false} ScriptFails(pieces: seq<string>, mode: TP.Mode, k: int, sentTokenize: string -> seq<string>)
    requires |pieces| % 2 == 1
    ensures ScriptChunks(pieces, mode, k, sentTokenize).Err?
            <==> |pieces| > 1 && mode == TP.Sentence && k == 0
  {
    var books := BookPairs(pieces);
    var f := Processor(mode, k, sentTokenize);
    forall b | 0 <= b < |books|
      ensures f(b, books[b]).Err? <==> mode == TP.Sentence && k == 0
    {
      ProcessorFails(mode, k, sentTokenize, b, books[b]);
    }
    ForEachBookErr(books, f, mode == TP.Sentence && k == 0);
  }

  /** A cleaned body has no newline, so paragraph mode gives one chunk per book. */
  lemma CleanBodyOneParagraph(body: string)
    ensures TP.SplitParagraphs(CleanBody(body)) == [CleanBody(body)]
  {
    var c := CleanBody(body);
    forall i | 0 <= i < |c| ensures c[i] != '\n' {
      assert c[i] in c;
    }
    TP.SplitParagraphsSingle(c);
  }

  lemma ParagraphBook(k: int, sentTokenize: string -> seq<string>, i: nat, book: Book)
    ensures Processor(TP.Paragraph, k, sentTokenize)(i, book)
            == Ok([Labelled(book.title, "Paragraph 1, ", CleanBody(book.body))])
  {
    CleanBodyOneParagraph(book.body);
    FirstParagraph(k, 0);
    ProcessorAt(TP.Paragraph, k, sentTokenize, i, book);
    var out := Processor(TP.Paragraph, k, sentTokenize)(i, book).value;
    Singleton(out, Labelled(book.title, "Paragraph 1, ", CleanBody(book.body)));
  }

  /** Paragraph mode: book `b` contributes exactly its cleaned body, as `Paragraph 1`. */
  lemma {:induction false} ScriptParagraphMode(pieces: seq<string>, k: int, sentTokenize: string -> seq<string>)
    requires |pieces| % 2 == 1
    ensures ScriptChunks(pieces, TP.Paragraph, k, sentTokenize)
            == Ok(seq((|pieces| - 1) / 2, b requires 0 <= b < (|pieces| - 1) / 2 =>
                        Labelled(BookPairs(pieces)[b].title, "Paragraph 1, ",
                                 CleanBody(BookPairs(pieces)[b].body))))
  {
    var books := BookPairs(pieces);
    var f := Processor(TP.Paragraph, k, sentTokenize);
    var expected := seq(|books|, b requires 0 <= b < |books| =>
                          Labelled(books[b].title, "Paragraph 1, ", CleanBody(books[b].body)));
    forall b | 0 <= b < |books|
      ensures f(b, books[b]) == Ok([expected[b]])
    {
      ParagraphBook(k, sentTokenize, b, books[b]);
    }
    ForEachSingletons(books, f, expected);
  }

  /** Sentence mode: chunk `j` of book `b` is that book's sentence group `j`
      (see `TextProcessing.SentenceChunks` for its closed form), headed with the
      book's trimmed title and the range `j*k+1`-`(j+1)*k`; numbering restarts
      with every book. */
  lemma ScriptSentenceAt(pieces: seq<string>, k: int, sentTokenize: string -> seq<string>,
                         b: nat, j: nat)
    requires |pieces| % 2 == 1 && k > 0
    requires b < (|pieces| - 1) / 2
    requires j < |TP.GroupSentences(sentTokenize(CleanBody(pieces[2 * b + 2])), k).value|
    ensures AllOk(BookPairs(pieces), Processor(TP.Sentence, k, sentTokenize))
    ensures ScriptChunks(pieces, TP.Sentence, k, sentTokenize).Ok?
    ensures var at := Offset(Outputs(BookPairs(pieces), Processor(TP.Sentence, k, sentTokenize), 0), b) + j;
            at < |ScriptChunks(pieces, TP.Sentence, k, sentTokenize).value|
            && ScriptChunks(pieces, TP.Sentence, k, sentTokenize).value[at]
               == Labelled(Strip(pieces[2 * b + 1]), Position(TP.Sentence, k, j + 1, j),
                           TP.GroupSentences(sentTokenize(CleanBody(pieces[2 * b + 2])), k).value[j])
  {
    AllBooksOk(BookPairs(pieces), TP.Sentence, k, sentTokenize);
    SentenceChunk(k, sentTokenize, b, Strip(pieces[2 * b + 1]), pieces[2 * b + 2], j);
    PieceOutputAt(pieces, Processor(TP.Sentence, k, sentTokenize), b, j);
  }

  lemma SentenceChunk(k: int, sentTokenize: string -> seq<string>, i: nat,
                      title: string, body: string, j: nat)
    requires k > 0 && j < |TP.GroupSentences(sentTokenize(CleanBody(body)), k).value|
    ensures Processor(TP.Sentence, k, sentTokenize)(i, Book(title, body)).Ok?
    ensures j < |Processor(TP.Sentence, k, sentTokenize)(i, Book(title, body)).value|
    ensures Processor(TP.Sentence, k, sentTokenize)(i, Book(title, body)).value[j]
            == Labelled(title, Position(TP.Sentence, k, j + 1, j),
                        TP.GroupSentences(sentTokenize(CleanBody(body)), k).value[j])
  {
    ProcessorAt(TP.Sentence, k, sentTokenize, i, Book(title, body));
  }
}

=== FILE: orchestrator.dfy ===
/** `PipelineOrchestrator.execute` of `src/pipeline/orchestrator.py`: route a
    record to one of the three steps by the keys it holds. */
module Orchestrator {
  import opened Wrappers
  import opened Json
  import opened Documents
  import opened Embedder
  import DI = DocumentIndexing
  import SS = SimilaritySearch

  /** The external services behind the steps: the document and query
      embedders, the store's two similarity queries, and the analysis step
      (a language-model call whose parsed answer is merged into the record). */
  datatype Services = Services(
    embedBatch: seq<Document> -> seq<Document>,
    embedQuery: string -> Value,
    queryTop: (Value, int) -> seq<Document>,
    queryAll: Value -> seq<Document>,
    analyze: Record -> Result<Record>)

  const InvalidInput: string := "Invalid input data for pipeline execution"

  /** Indexing takes precedence over analysis, analysis over search; a record
      with neither `documents` nor `query_text` is rejected. The search step
      always uses its default `top_k`. */
  function Execute(r: Record, s: Services): (x: Result<Record>)
    ensures "documents" !in r && "query_text" !in r ==> x == Err(ValueError(InvalidInput))
    ensures "documents" in r ==> (x.Ok? <==> r["documents"].Docs?)
    ensures "documents" !in r && "query_text" in r && "document" !in r && x.Ok? ==>
              x.value.Keys == r.Keys + {"similar_documents"}
              && forall k :: k in r && k != "similar_documents" ==> x.value[k] == r[k]
  {
    if "documents" in r then DI.IndexRecord(r, s.embedBatch)
    else if "query_text" in r && "document" in r then
      var result :- s.analyze(r);
      Ok(r + result)
    else if "query_text" in r then
      SS.Execute(r, SS.DefaultTopK, s.embedQuery, s.queryTop, s.queryAll)
    else Err(ValueError(InvalidInput))
  }

  /** A record with `documents` comes back as the embedded documents alone,
      whatever else it held (a `query_text` included). */
  lemma IndexingWins(r: Record, ds: seq<Document>, s: Services)
    requires "documents" in r && r["documents"] == Docs(ds)
    ensures Execute(r, s) == Ok(map["embedded_documents" := Docs(EmbedDocuments(ds, s.embedBatch))])
  {
    var x := DI.Execute(r, s.embedBatch);
    assert x.Ok?;
    assert x.value.result == map["embedded_documents" := Docs(EmbedDocuments(ds, s.embedBatch))];
  }

  /** The analysis branch is chosen only when both keys are present; its
      answer overrides existing keys and every other key is kept. */
  lemma AnalysisMerges(r: Record, s: Services)
    requires "documents" !in r && "query_text" in r && "document" in r
    requires s.analyze(r).Ok?
    ensures var a := s.analyze(r).value;
            Execute(r, s).Ok?
            && Execute(r, s).value.Keys == r.Keys + a.Keys
            && (forall k :: k in a ==> Execute(r, s).value[k] == a[k])
            && (forall k :: k in r && k !in a ==> Execute(r, s).value[k] == r[k])
  {
  }

  /** A failing analysis fails the whole execution with the same error. */
  lemma AnalysisErrorPropagates(r: Record, s: Services)
    requires "documents" !in r && "query_text" in r && "document" in r
    requires s.analyze(r).Err?
    ensures Execute(r, s) == Err(s.analyze(r).error)
  {
  }

  /** With a `query_text` and no `document` the search step runs, whatever
      other keys the record carries, and finds at most `2 * top_k` documents
      when the store's top query honours its limit. */
  lemma SearchBranch(r: Record, s: Services)
    requires "documents" !in r && "query_text" in r && "document" !in r
    requires forall e :: |s.queryTop(e, SS.DefaultTopK)| <= SS.DefaultTopK
    requires Execute(r, s).Ok?
    ensures "similar_documents" in Execute(r, s).value
    ensures var out := Execute(r, s).value["similar_documents"];
            out.Docs? && |out.docs| <= 2 * SS.DefaultTopK
  {
    SS.Bounded(r, SS.DefaultTopK, s.embedQuery, s.queryTop, s.queryAll);
  }
}

=== FILE: preprocessing.dfy ===
/** `TextPreprocessor` of `src/data_preparation/preprocessing.py`, the
    Haystack-component variant. Its cleaning and splitting chain (`TextCleaner`,
    `DocumentCleaner`, `DocumentSplitter`) is the parameter `split`; the model
    covers what the class itself does with the documents that chain returns. */
module Preprocessing {
  import opened Wrappers
  import opened Seqs
  import opened Strings
  import opened Json
  import opened Documents
  import opened Books
  import TPP = TextPreprocessor

  /** The metadata of the `i`-th (0-based) Mrs Dalloway chunk. */
  function QueryMeta(i: nat): map<string, Value>
  {
    map["source" := Str("Mrs Dalloway"), "chunk_number" := Int(i + 1)]
  }

  /** `get_dalloway_queries`: the split documents with their metadata
      replaced, numbered from one. */
  function DallowayQueries(text: string, split: string -> seq<Document>): (r: seq<Document>)
    ensures |r| == |split(text)|
    ensures forall i :: 0 <= i < |r| ==>
              r[i].meta.Keys == {"source", "chunk_number"}
              && r[i].meta["source"] == Str("Mrs Dalloway") && r[i].meta["chunk_number"] == Int(i + 1)
    ensures forall i :: 0 <= i < |r| ==> r[i] == split(text)[i].(meta := r[i].meta)
  {
    var docs := split(text);
    seq(|docs|, i requires 0 <= i < |docs| => docs[i].(meta := QueryMeta(i)))
  }

  /** Whatever metadata the splitter attached is gone: two splitters that
      agree on everything but metadata give the same queries. */
  lemma QueriesForgetMeta(text: string, f: string -> seq<Document>, g: string -> seq<Document>)
    requires |f(text)| == |g(text)|
    requires forall i :: 0 <= i < |f(text)| ==> f(text)[i] == g(text)[i].(meta := f(text)[i].meta)
    ensures DallowayQueries(text, f) == DallowayQueries(text, g)
  {
    var a, b := DallowayQueries(text, f), DallowayQueries(text, g);
    forall i | 0 <= i < |a| ensures a[i] == b[i] {
      assert a[i] == f(text)[i].(meta := QueryMeta(i));
      assert b[i] == g(text)[i].(meta := QueryMeta(i));
    }
  }

  /** The metadata of chunk `j` of book `b`. */
  function ChunkMeta(title: string, b: nat, j: nat): map<string, Value>
  {
    map["chapter" := Str(title), "book_number" := Int(b + 1), "chunk_number" := Int(j + 1)]
  }

  /** One book's chunks; with `headed` the context header of
      `src/utils/text_preprocessor.py` is put in front of each content. */
  function ProcessBook(headed: bool, split: string -> seq<Document>, b: nat, book: Book)
    : Result<seq<Document>>
  {
    var docs := split(book.body);
    Ok(seq(|docs|, j requires 0 <= j < |docs| =>
             docs[j].(content := TPP.Content(headed, book.title, j, docs[j].content),
                      meta := ChunkMeta(book.title, b, j))))
  }

  function Processor(headed: bool, split: string -> seq<Document>): (nat, Book) -> Result<seq<Document>>
  {
    (b: nat, book: Book) => ProcessBook(headed, split, b, book)
  }

  lemma ProcessorAt(headed: bool, split: string -> seq<Document>, b: nat, book: Book)
    ensures Processor(headed, split)(b, book).Ok?
    ensures var docs := split(book.body);
            var out := Processor(headed, split)(b, book).value;
            |out| == |docs|
            && forall j :: 0 <= j < |out| ==>
                 out[j] == docs[j].(content := TPP.Content(headed, book.title, j, docs[j].content),
                                    meta := ChunkMeta(book.title, b, j))
  {
  }

  lemma AllBooksOk(books: seq<Book>, headed: bool, split: string -> seq<Document>)
    ensures AllOk(books, Processor(headed, split))
  {
    forall b | 0 <= b < |books| ensures Processor(headed, split)(b, books[b]).Ok? {
      ProcessorAt(headed, split, b, books[b]);
    }
  }

  /** The documents the splitter makes of each book's body, in book order. */
  function BookDocs(pieces: seq<string>, split: string -> seq<Document>): seq<seq<Document>>
    requires |pieces| % 2 == 1
  {
    seq((|pieces| - 1) / 2, b requires 0 <= b < (|pieces| - 1) / 2 => split(pieces[2 * b + 2]))
  }

  /** One document per split piece of every book, in book order. */
  function Chunks(pieces: seq<string>, headed: bool, split: string -> seq<Document>): (r: seq<Document>)
    requires |pieces| % 2 == 1
    ensures |r| == TotalLength(BookDocs(pieces, split))
  {
    DocCount(pieces, headed, split);
    ForEachBook(BookPairs(pieces), Processor(headed, split), 0).value
  }

  lemma DocCount(pieces: seq<string>, headed: bool, split: string -> seq<Document>)
    requires |pieces| % 2 == 1
    ensures ForEachBook(BookPairs(pieces), Processor(headed, split), 0).Ok?
    ensures |ForEachBook(BookPairs(pieces), Processor(headed, split), 0).value|
            == TotalLength(BookDocs(pieces, split))
  {
    var inputs := BookDocs(pieces, split);
    var f := Processor(headed, split);
    forall b | 0 <= b < |inputs|
      ensures f(b, Book(Strip(pieces[2 * b + 1]), pieces[2 * b + 2])).Ok?
              && |f(b, Book(Strip(pieces[2 * b + 1]), pieces[2 * b + 2])).value| == |inputs[b]|
    {
      ProcessorAt(headed, split, b, Book(Strip(pieces[2 * b + 1]), pieces[2 * b + 2]));
    }
    PieceCount(pieces, f, inputs);
  }

  /** `process_odyssey` as written: the header branch assigns the content to
      itself, so the flag has no effect. */
  function ProcessOdyssey(pieces: seq<string>, header: bool, split: string -> seq<Document>)
    : (r: seq<Document>)
    requires |pieces| % 2 == 1
    ensures |r| == TotalLength(BookDocs(pieces, split))
  {
    Chunks(pieces, false, split)
  }

  /** `process_odyssey` with the header applied when the flag is set. */
  function ProcessOdysseyHeaded(pieces: seq<string>, header: bool, split: string -> seq<Document>)
    : (r: seq<Document>)
    requires |pieces| % 2 == 1
    ensures |r| == TotalLength(BookDocs(pieces, split))
  {
    Chunks(pieces, header, split)
  }

  /** Chunk `j` of book `b` sits at its book's offset plus `j`; it keeps the
      splitter's document except for its content and its metadata. */
  lemma {:induction false} ChunkAt(pieces: seq<string>, headed: bool, split: string -> seq<Document>, b: nat, j: nat)
    requires |pieces| % 2 == 1 && b < (|pieces| - 1) / 2
    requires j < |split(pieces[2 * b + 2])|
    ensures var n := Offset(Outputs(BookPairs(pieces), Processor(headed, split), 0), b) + j;
            var title := Strip(pieces[2 * b + 1]);
            var d := split(pieces[2 * b + 2])[j];
            n < |Chunks(pieces, headed, split)|
            && Chunks(pieces, headed, split)[n]
               == d.(content := TPP.Content(headed, title, j, d.content), meta := ChunkMeta(title, b, j))
  {
    var books := BookPairs(pieces);
    BookAt(pieces, b);
    AllBooksOk(books, headed, split);
    ProcessorAt(headed, split, b, books[b]);
    OutputAt(books, Processor(headed, split), b, j);
  }

  /** Finding: as written, asking for the context header changes nothing. */
  lemma HeaderIgnored(pieces: seq<string>, split: string -> seq<Document>)
    requires |pieces| % 2 == 1
    ensures ProcessOdyssey(pieces, true, split) == ProcessOdyssey(pieces, false, split)
  {
  }

  /** As written, every chunk's content is the splitter's content unchanged. */
  lemma AsWrittenContent(pieces: seq<string>, header: bool, split: string -> seq<Document>, b: nat, j: nat)
    requires |pieces| % 2 == 1 && b < (|pieces| - 1) / 2
    requires j < |split(pieces[2 * b + 2])|
    ensures var n := Offset(Outputs(BookPairs(pieces), Processor(false, split), 0), b) + j;
            n < |ProcessOdyssey(pieces, header, split)|
            && ProcessOdyssey(pieces, header, split)[n].content == split(pieces[2 * b + 2])[j].content
  {
    ChunkAt(pieces, false, split, b, j);
  }

  /** Corrected: with the flag set, each content starts with its book title and
      chunk number. */
  lemma HeadedContent(pieces: seq<string>, split: string -> seq<Document>, b: nat, j: nat)
    requires |pieces| % 2 == 1 && b < (|pieces| - 1) / 2
    requires j < |split(pieces[2 * b + 2])|
    ensures var n := Offset(Outputs(BookPairs(pieces), Processor(true, split), 0), b) + j;
            var title := Strip(pieces[2 * b + 1]);
            n < |ProcessOdysseyHeaded(pieces, true, split)|
            && ProcessOdysseyHeaded(pieces, true, split)[n].content
               == "Context: The Odyssey, " + title + ". Chunk " + NatToString(j + 1) + "\n\n"
                  + split(pieces[2 * b + 2])[j].content
  {
    ChunkAt(pieces, true, split, b, j);
  }

  /** Corrected, without the flag, is the code as written. */
  lemma UnheadedAsWritten(pieces: seq<string>, header: bool, split: string -> seq<Document>)
    requires |pieces| % 2 == 1
    ensures ProcessOdysseyHeaded(pieces, false, split) == ProcessOdyssey(pieces, header, split)
  {
  }
}

=== FILE: script_headers.dfy ===
/** The position part of the headers the two stand-alone preprocessing scripts
    (`scripts/01_data_preperation/`) put before every chunk. */
module ScriptHeaders {
  import opened Strings
  import TP = TextProcessing

  /** `Paragraph {n}, ` in paragraph mode; `Sentences {j*k+1}-{(j+1)*k}, ` for
      sentence group `j` otherwise. */
  function Position(mode: TP.Mode, k: int, n: nat, j: nat): string
  {
    match mode
    case Paragraph => "Paragraph " + NatToString(n) + ", "
    case Sentence => "Sentences " + IntToString(j * k + 1) + "-" + IntToString((j + 1) * k) + ", "
  }

  lemma FirstParagraph(k: int, j: nat)
    ensures Position(TP.Paragraph, k, 1, j) == "Paragraph 1, "
  {
    assert NatToString(1) == "1";
  }

  /** A multiple of `k` leaves no remainder. */
  lemma MultipleMod(g: nat, k: int)
    requires k > 0
    ensures (g * k) % k == 0
  {
    var n := g * k;
    var q, r := n / k, n % k;
    assert n == q * k + r;
    var d := g - q;
    assert d * k == r by {
      assert g * k - q * k == (g - q) * k;
    }
    SmallMultiple(d, k);
  }

  lemma SmallMultiple(d: int, k: int)
    requires k > 0 && 0 <= d * k < k
    ensures d == 0
  {
  }

  /** The sentence range a header announces is always `k` wide, so for a last
      group shorter than `k` it names sentences past the end of the text. */
  lemma ShortLastGroup(sentences: seq<string>, k: int)
    requires k > 0 && |sentences| % k != 0
    ensures TP.GroupSentences(sentences, k).Ok?
    ensures var g := |TP.GroupSentences(sentences, k).value|;
            g > 0
            && Position(TP.Sentence, k, 0, g - 1)
               == "Sentences " + IntToString((g - 1) * k + 1) + "-" + IntToString(g * k) + ", "
            && g * k > |sentences|
  {
    TP.SentenceChunks(sentences, k);
    var g := |TP.GroupSentences(sentences, k).value|;
    MultipleMod(g, k);
    assert g * k != |sentences|;
    var j: nat := g - 1;
    assert j + 1 == g;
  }
}

=== FILE: seqs.dfy ===
/** Sequence helpers shared by the chunkers: flattening nested lists and sums. */
module Seqs {

  /** Concatenation of a list of lists, as Python's `''.join` or a nested comprehension. */
  function Flatten<T>(xss: seq<seq<T>>): seq<T>
  {
    if |xss| == 0 then [] else xss[0] + Flatten(xss[1..])
  }

  /** Total length of the lists in `xss`. */
  function TotalLength<T>(xss: seq<seq<T>>): nat
  {
    if |xss| == 0 then 0 else |xss[0]| + TotalLength(xss[1..])
  }

  /** Position in `Flatten(xss)` at which the list `xss[b]` starts. */
  function Offset<T>(xss: seq<seq<T>>, b: nat): nat
    requires b <= |xss|
  {
    if b == 0 then 0 else |xss[0]| + Offset(xss[1..], b - 1)
  }

  lemma {:induction false} FlattenLength<T>(xss: seq<seq<T>>)
    ensures |Flatten(xss)| == TotalLength(xss)
  {
    if |xss| > 0 {
      FlattenLength(xss[1..]);
    }
  }

  lemma {:induction false} FlattenAppend<T>(xss: seq<seq<T>>, yss: seq<seq<T>>)
    ensures Flatten(xss + yss) == Flatten(xss) + Flatten(yss)
  {
    if |xss| == 0 {
      assert xss + yss == yss;
    } else {
      assert (xss + yss)[1..] == xss[1..] + yss;
      FlattenAppend(xss[1..], yss);
    }
  }

  /** Concatenation regroups: `h + (x + y)` is `(h + x) + y`. */
  lemma Regroup<T>(l: seq<T>, h: seq<T>, x: seq<T>, y: seq<T>, c: seq<T>)
    requires l == h + (x + y) && c == h + x
    ensures l == c + y
  {
  }

  /** The head and tail of a sequence built by a cons. */
  lemma ConsParts<T>(s: seq<T>, x: T, rest: seq<T>)
    requires s == [x] + rest
    ensures |s| == |rest| + 1 && s[0] == x && s[1..] == rest
  {
  }

  /** Dropping a prefix of the first part of a concatenation. */
  lemma DropAppend<T>(a: seq<T>, b: seq<T>, n: nat)
    requires n <= |a|
    ensures (a + b)[n..] == a[n..] + b
    ensures n < |a| ==> (a + b)[n] == a[n]
  {
  }

  /** A sequence is its three slices at `i` and `j`, put back together. */
  lemma Slices<T>(s: seq<T>, i: nat, j: nat)
    requires i <= j <= |s|
    ensures s == s[..i] + s[i..j] + s[j..]
  {
  }

  /** Lists of pairwise equal lengths have the same total length. */
  lemma {:induction false} TotalLengthSame<T, U>(xss: seq<seq<T>>, yss: seq<seq<U>>)
    requires |xss| == |yss| && forall b :: 0 <= b < |xss| ==> |xss[b]| == |yss[b]|
    ensures TotalLength(xss) == TotalLength(yss)
  {
    if |xss| > 0 {
      TotalLengthSame(xss[1..], yss[1..]);
    }
  }

  lemma FlattenCons<T>(x: seq<T>, xss: seq<seq<T>>)
    ensures Flatten([x] + xss) == x + Flatten(xss)
  {
    assert ([x] + xss)[1..] == xss;
  }

  lemma Singleton<T>(xs: seq<T>, x: T)
    requires |xs| == 1 && xs[0] == x
    ensures xs == [x]
  {
  }

  /** Element `j` of the `b`-th list sits at `Offset(xss, b) + j` of the flattening. */
  lemma {:induction false} FlattenIndex<T>(xss: seq<seq<T>>, b: nat, j: nat)
    requires b < |xss| && j < |xss[b]|
    ensures Offset(xss, b) + j < |Flatten(xss)|
    ensures Flatten(xss)[Offset(xss, b) + j] == xss[b][j]
  {
    if b > 0 {
      FlattenIndex(xss[1..], b - 1, j);
    }
  }

  /** Flattening single-element lists gives back the elements. */
  lemma {:induction false} FlattenSingletons<T>(xs: seq<T>)
    ensures Flatten(seq(|xs|, i requires 0 <= i < |xs| => [xs[i]])) == xs
  {
    var xss := seq(|xs|, i requires 0 <= i < |xs| => [xs[i]]);
    if |xs| > 0 {
      assert xss[1..] == seq(|xs[1..]|, i requires 0 <= i < |xs[1..]| => [xs[1..][i]]);
      FlattenSingletons(xs[1..]);
      assert xs == [xs[0]] + xs[1..];
    }
  }
}

=== FILE: similarity_search.dfy ===
/** `SimilaritySearchStep.execute` of `src/pipeline/steps/similarity_search.py`.
    The query embedder and the store's two queries are parameters. */
module SimilaritySearch {
  import opened Wrappers
  import opened Json
  import opened Documents

  /** The constructor's default `top_k`, which the orchestrator never overrides. */
  const DefaultTopK: int := 2

  predicate Scored(docs: seq<Document>)
  {
    forall i :: 0 <= i < |docs| ==> docs[i].score.Some?
  }

  predicate SortedByScore(docs: seq<Document>)
    requires Scored(docs)
  {
    forall i, j :: 0 <= i < j < |docs| ==> docs[i].score.value <= docs[j].score.value
  }

  /** Every score in `s` is at least `lo`. */
  predicate Above(s: seq<Document>, lo: real)
    requires Scored(s)
  {
    forall i :: 0 <= i < |s| ==> lo <= s[i].score.value
  }

  /** Insert `x` into a sorted list after every element whose score is not
      greater than its own. */
  function Insert(x: Document, s: seq<Document>): (r: seq<Document>)
    requires x.score.Some? && Scored(s)
    ensures Scored(r) && |r| == |s| + 1
    ensures multiset(r) == multiset(s) + multiset{x}
  {
    if |s| == 0 then [x]
    else if x.score.value < s[0].score.value then [x] + s
    else
      assert s == [s[0]] + s[1..];
      [s[0]] + Insert(x, s[1..])
  }

  lemma {:induction false} InsertAbove(x: Document, s: seq<Document>, lo: real)
    requires x.score.Some? && Scored(s) && Above(s, lo) && lo <= x.score.value
    ensures Above(Insert(x, s), lo)
  {
    if |s| > 0 && x.score.value >= s[0].score.value {
      InsertAbove(x, s[1..], lo);
    }
  }

  /** Inserting into a sorted list keeps it sorted. */
  lemma {:induction false} InsertSorted(x: Document, s: seq<Document>)
    requires x.score.Some? && Scored(s) && SortedByScore(s)
    ensures SortedByScore(Insert(x, s))
  {
    if |s| > 0 && x.score.value >= s[0].score.value {
      var rest := Insert(x, s[1..]);
      InsertSorted(x, s[1..]);
      InsertAbove(x, s[1..], s[0].score.value);
      assert Insert(x, s) == [s[0]] + rest;
    }
  }

  /** Python's `sorted(docs, key=lambda x: x.score)`: insertion sort taking the
      elements front to back, which keeps equal scores in input order. */
  function SortByScore(s: seq<Document>): (r: seq<Document>)
    requires Scored(s)
    ensures Scored(r) && SortedByScore(r)
    ensures multiset(r) == multiset(s) && |r| == |s|
  {
    if |s| == 0 then []
    else
      var init := SortByScore(s[..|s| - 1]);
      assert s == s[..|s| - 1] + [s[|s| - 1]];
      InsertSorted(s[|s| - 1], init);
      Insert(s[|s| - 1], init)
  }

  /** `[d]` when `d` scores `v`, otherwise nothing. */
  function Own(d: Document, v: real): seq<Document>
  {
    if d.score == Some(v) then [d] else []
  }

  /** The documents of `s` whose score is `v`, in order. */
  function WithScore(s: seq<Document>, v: real): seq<Document>
  {
    if |s| == 0 then []
    else Own(s[0], v) + WithScore(s[1..], v)
  }

  lemma {:induction false} WithScoreAppend(a: seq<Document>, b: seq<Document>, v: real)
    ensures WithScore(a + b, v) == WithScore(a, v) + WithScore(b, v)
  {
    if |a| == 0 {
      assert a + b == b;
    } else {
      var ab := a + b;
      assert ab[0] == a[0];
      assert ab[1..] == a[1..] + b;
      WithScoreAppend(a[1..], b, v);
      assert WithScore(ab, v) == Own(a[0], v) + WithScore(a[1..] + b, v);
    }
  }

  lemma {:induction false} WithScoreAbove(s: seq<Document>, v: real)
    requires Scored(s)
    requires forall i :: 0 <= i < |s| ==> s[i].score.value > v
    ensures WithScore(s, v) == []
  {
    if |s| > 0 {
      WithScoreAbove(s[1..], v);
    }
  }

  lemma Assoc<T>(a: seq<T>, b: seq<T>, c: seq<T>)
    ensures a + (b + c) == (a + b) + c
  {
  }

  lemma PrefixMultiset<T>(s: seq<T>, n: nat)
    requires n <= |s|
    ensures multiset(s[..n]) <= multiset(s)
  {
    assert s == s[..n] + s[n..];
  }

  lemma WithScoreCons(d: Document, s: seq<Document>, v: real)
    ensures WithScore([d] + s, v) == Own(d, v) + WithScore(s, v)
  {
    assert ([d] + s)[1..] == s;
  }

  lemma {:induction false} InsertStable(x: Document, s: seq<Document>, v: real)
    requires x.score.Some? && Scored(s) && SortedByScore(s)
    ensures WithScore(Insert(x, s), v)
            == WithScore(s, v) + Own(x, v)
  {
    if |s| == 0 {
      WithScoreCons(x, [], v);
    } else if x.score.value < s[0].score.value {
      InsertStableFront(x, s, v);
    } else {
      InsertStable(x, s[1..], v);
      InsertStableStep(x, s, v);
    }
  }

  lemma InsertStableFront(x: Document, s: seq<Document>, v: real)
    requires x.score.Some? && Scored(s) && SortedByScore(s)
    requires |s| > 0 && x.score.value < s[0].score.value
    ensures WithScore(Insert(x, s), v)
            == WithScore(s, v) + Own(x, v)
  {
    WithScoreCons(x, s, v);
    if x.score == Some(v) {
      WithScoreAbove(s, v);
    }
  }

  lemma InsertStableStep(x: Document, s: seq<Document>, v: real)
    requires x.score.Some? && Scored(s) && SortedByScore(s)
    requires |s| > 0 && x.score.value >= s[0].score.value
    requires WithScore(Insert(x, s[1..]), v)
             == WithScore(s[1..], v) + Own(x, v)
    ensures WithScore(Insert(x, s), v)
            == WithScore(s, v) + Own(x, v)
  {
    var rest := s[1..];
    var h := Own(s[0], v);
    var t := Own(x, v);
    assert Insert(x, s) == [s[0]] + Insert(x, rest);
    WithScoreCons(s[0], Insert(x, rest), v);
    assert WithScore(s, v) == h + WithScore(rest, v);
    Assoc(h, WithScore(rest, v), t);
  }

  /** The sort is stable: the documents sharing any one score keep their
      relative order. */
  lemma {:induction false} SortStable(s: seq<Document>, v: real)
    requires Scored(s)
    ensures WithScore(SortByScore(s), v) == WithScore(s, v)
  {
    if |s| > 0 {
      var init, last := s[..|s| - 1], s[|s| - 1];
      assert s == init + [last];
      SortStable(init, v);
      InsertStable(last, SortByScore(init), v);
      WithScoreAppend(init, [last], v);
      WithScoreCons(last, [], v);
      assert [last] + [] == [last];
      assert SortByScore(s) == Insert(last, SortByScore(init));
    }
  }

  /** Python's `s[:k]`: a negative `k` counts from the end. */
  function SliceTo(s: seq<Document>, k: int): (r: seq<Document>)
    ensures |r| == if k >= 0 then (if k < |s| then k else |s|) else (if |s| + k > 0 then |s| + k else 0)
    ensures r == s[..|r|]
  {
    if k >= 0 then (if k < |s| then s[..k] else s)
    else if |s| + k > 0 then s[..|s| + k] else []
  }

  /** `sorted(...)` itself: comparing a missing score raises `TypeError`, and a
      list of fewer than two documents is returned without a comparison. */
  function Sorted(all: seq<Document>): (r: Result<seq<Document>>)
    ensures r.Err? <==> |all| >= 2 && !Scored(all)
  {
    if Scored(all) then Ok(SortByScore(all))
    else if |all| < 2 then Ok(all)
    else Err(TypeError("'<' not supported between instances of 'NoneType' and 'float'"))
  }

  /** Set `meta["similarity_type"]`, nothing else. */
  function Tag(docs: seq<Document>, kind: string): (r: seq<Document>)
    ensures |r| == |docs|
    ensures forall i :: 0 <= i < |r| ==>
              "similarity_type" in r[i].meta && r[i].meta["similarity_type"] == Str(kind)
    ensures forall i :: 0 <= i < |r| ==> r[i].meta.Keys == docs[i].meta.Keys + {"similarity_type"}
    ensures forall i, k :: 0 <= i < |r| && k in docs[i].meta && k != "similarity_type" ==>
              r[i].meta[k] == docs[i].meta[k]
    ensures forall i :: 0 <= i < |r| ==>
              r[i].content == docs[i].content && r[i].embedding == docs[i].embedding &&
              r[i].score == docs[i].score && r[i].id == docs[i].id && r[i].analysis == docs[i].analysis
  {
    seq(|docs|, i requires 0 <= i < |docs| => docs[i].(meta := docs[i].meta["similarity_type" := Str(kind)]))
  }

  /** The similar results tagged `similar`, then the `topK` lowest-scoring of
      all results tagged `dissimilar`. Logging a score with `:.3f` raises
      `TypeError` for a tagged document without one. */
  function Select(similar: seq<Document>, all: seq<Document>, topK: int): (r: Result<seq<Document>>)
    ensures Scored(similar) && Scored(all) ==> r.Ok?
    ensures !Scored(similar) || (|all| >= 2 && !Scored(all)) ==> r.Err?
    ensures r.Ok? ==> |r.value| >= |similar| && r.value[..|similar|] == Tag(similar, "similar")
    ensures r.Ok? && topK >= 0 ==> |r.value| == |similar| + (if topK < |all| then topK else |all|)
  {
    var sorted :- Sorted(all);
    var dissimilar := SliceTo(sorted, topK);
    if !Scored(similar) || !Scored(dissimilar) then
      Err(TypeError("unsupported format string passed to NoneType.__format__"))
    else Ok(Tag(similar, "similar") + Tag(dissimilar, "dissimilar"))
  }

  /** `execute`: the record with `similar_documents` added or overwritten. The
      record's own `top_k`, if any, is not read. */
  function Execute(r: Record, topK: int, embedQuery: string -> Value,
                   queryTop: (Value, int) -> seq<Document>,
                   queryAll: Value -> seq<Document>): (x: Result<Record>)
    ensures "query_text" !in r ==> x == Err(KeyError("query_text"))
    ensures x.Ok? ==> x.value.Keys == r.Keys + {"similar_documents"}
    ensures x.Ok? ==> forall k :: k in r && k != "similar_documents" ==> x.value[k] == r[k]
    ensures "query_text" in r && !r["query_text"].Text? ==> x.Err?
    ensures "query_text" in r && r["query_text"].Text? ==>
              var e := embedQuery(r["query_text"].text);
              var sel := Select(queryTop(e, topK), queryAll(e), topK);
              x == (if sel.Ok? then Ok(r["similar_documents" := Docs(sel.value)]) else Err(sel.error))
  {
    var q :- Get(r, "query_text");
    if !q.Text? then Err(TypeError("query_text is not a string"))
    else
      var embedding := embedQuery(q.text);
      var found :- Select(queryTop(embedding, topK), queryAll(embedding), topK);
      Ok(r["similar_documents" := Docs(found)])
  }

  /** With every score present and `topK >= 0`, the dissimilar part is the
      first `topK` documents of the ascending order of all results. */
  lemma Dissimilar(similar: seq<Document>, all: seq<Document>, topK: int)
    requires Scored(similar) && Scored(all) && topK >= 0
    ensures var n := if topK < |all| then topK else |all|;
            Select(similar, all, topK) == Ok(Tag(similar, "similar") + Tag(SortByScore(all)[..n], "dissimilar"))
  {
    var sorted := SortByScore(all);
    assert Sorted(all) == Ok(sorted);
    var n := if topK < |all| then topK else |all|;
    assert SliceTo(sorted, topK) == sorted[..n];
  }

  /** No document left out of the dissimilar part scores lower than one
      taken, and nothing is taken that the store did not return. */
  lemma Lowest(all: seq<Document>, n: nat)
    requires Scored(all) && n <= |all|
    ensures multiset(SortByScore(all)[..n]) <= multiset(all)
    ensures forall i, j :: 0 <= i < n <= j < |all| ==>
              SortByScore(all)[i].score.value <= SortByScore(all)[j].score.value
  {
    PrefixMultiset(SortByScore(all), n);
  }

  /** When the store returns at most `topK` similar documents the step adds at
      most `2 * topK` documents. */
  lemma Bounded(r: Record, topK: int, embedQuery: string -> Value,
                queryTop: (Value, int) -> seq<Document>, queryAll: Value -> seq<Document>)
    requires topK >= 0
    requires forall e :: |queryTop(e, topK)| <= topK
    requires Execute(r, topK, embedQuery, queryTop, queryAll).Ok?
    ensures var out := Execute(r, topK, embedQuery, queryTop, queryAll).value["similar_documents"];
            out.Docs? && |out.docs| <= 2 * topK
  {
  }

  /** An empty store yields an empty list, not an error. */
  lemma EmptyStore(r: Record, text: string, topK: int, embedQuery: string -> Value,
                   queryTop: (Value, int) -> seq<Document>, queryAll: Value -> seq<Document>)
    requires "query_text" in r && r["query_text"] == Text(text)
    requires queryTop(embedQuery(text), topK) == [] && queryAll(embedQuery(text)) == []
    ensures Execute(r, topK, embedQuery, queryTop, queryAll) == Ok(r["similar_documents" := Docs([])])
  {
    assert Tag([], "similar") + Tag([], "dissimilar") == [];
  }

  /** A `top_k` entry in the record changes nothing: only the constructor's
      value is used. */
  lemma TopKFieldIgnored(r: Record, f: Field, topK: int, embedQuery: string -> Value,
                         queryTop: (Value, int) -> seq<Document>, queryAll: Value -> seq<Document>)
    ensures var a := Execute(r, topK, embedQuery, queryTop, queryAll);
            var b := Execute(r["top_k" := f], topK, embedQuery, queryTop, queryAll);
            a.Ok? == b.Ok? && (a.Ok? ==> b.value == a.value["top_k" := f])
  {
    var r' := r["top_k" := f];
    assert ("query_text" in r') == ("query_text" in r);
    if "query_text" in r {
      assert r'["query_text"] == r["query_text"];
      var a := Execute(r, topK, embedQuery, queryTop, queryAll);
      var b := Execute(r', topK, embedQuery, queryTop, queryAll);
      if a.Ok? {
        assert b.value == a.value["top_k" := f];
      }
    }
  }
}

=== FILE: strings.dfy ===
/** Character classes and string functions of Python's `str` that the chunkers rely on. */
module Strings {

  /** Python's `str.isspace()`, which is also what `\s` and `str.strip()` use. */
  predicate IsSpace(c: char)
  {
    || c == ' ' || c == '\t' || c == '\n' || c == '\r'
    || c == '\U{000B}' || c == '\U{000C}'
    || ('\U{001C}' <= c <= '\U{001F}')
    || c == '\U{0085}' || c == '\U{00A0}' || c == '\U{1680}'
    || ('\U{2000}' <= c <= '\U{200A}')
    || c == '\U{2028}' || c == '\U{2029}' || c == '\U{202F}' || c == '\U{205F}'
    || c == '\U{3000}'
  }

  /** The regular-expression class `\d`, restricted to ASCII digits. */
  predicate IsDigit(c: char)
  {
    '0' <= c <= '9'
  }

  /** No two consecutive characters are both whitespace. */
  predicate NoAdjacentSpace(s: string)
  {
    forall k :: 0 <= k < |s| - 1 ==> !(IsSpace(s[k]) && IsSpace(s[k + 1]))
  }

  /** Neither the first nor the last character is whitespace. */
  predicate Trimmed(s: string)
  {
    |s| > 0 ==> !IsSpace(s[0]) && !IsSpace(s[|s| - 1])
  }

  /** Index of the first non-whitespace character (or `|s|`). */
  function StripStart(s: string): (i: nat)
    ensures i <= |s|
    ensures forall k :: 0 <= k < i ==> IsSpace(s[k])
    ensures i < |s| ==> !IsSpace(s[i])
  {
    if |s| == 0 || !IsSpace(s[0]) then 0 else 1 + StripStart(s[1..])
  }

  /** One past the index of the last non-whitespace character (or 0). */
  function StripEnd(s: string): (j: nat)
    ensures j <= |s|
    ensures forall k :: j <= k < |s| ==> IsSpace(s[k])
    ensures j > 0 ==> !IsSpace(s[j - 1])
  {
    if |s| == 0 || !IsSpace(s[|s| - 1]) then |s| else StripEnd(s[..|s| - 1])
  }

  /** Python's `s.strip()`: drops leading and trailing whitespace, keeps the rest. */
  function Strip(s: string): (r: string)
    ensures Trimmed(r)
    ensures exists a, b :: 0 <= a <= b <= |s| && r == s[a..b]
                           && (forall k :: 0 <= k < a ==> IsSpace(s[k]))
                           && (forall k :: b <= k < |s| ==> IsSpace(s[k]))
  {
    var a := StripStart(s);
    if a == |s| then
      assert s[|s|..|s|] == [];
      ""
    else
      s[a..StripEnd(s)]
  }

  lemma StripTrimmed(s: string)
    requires Trimmed(s)
    ensures Strip(s) == s
  {
    if |s| > 0 {
      assert StripStart(s) == 0;
      assert StripEnd(s) == |s|;
    }
  }

  /** A trimmed, non-empty start survives stripping whatever follows it. */
  lemma StripKeepsStart(a: string, x: string)
    requires |a| > 0 && Trimmed(a)
    ensures |a| <= |Strip(a + x)| && Strip(a + x)[..|a|] == a
  {
    var s := a + x;
    assert s[0] == a[0] && s[|a| - 1] == a[|a| - 1];
    assert StripStart(s) == 0;
    assert StripEnd(s) >= |a|;
    assert Strip(s) == s[..StripEnd(s)];
    assert s[..StripEnd(s)][..|a|] == a;
  }

  /** Whatever `Strip` keeps is a slice, so slice-closed facts carry over. */
  lemma StripKeeps(s: string)
    ensures forall c :: c in Strip(s) ==> c in s
    ensures NoAdjacentSpace(s) ==> NoAdjacentSpace(Strip(s))
  {
    var a, b :| 0 <= a <= b <= |s| && Strip(s) == s[a..b];
    forall c | c in Strip(s) ensures c in s {
      var k :| 0 <= k < |s[a..b]| && s[a..b][k] == c;
      assert s[a + k] == c;
    }
  }

  /** Python's `sep.join(xs)`. */
  function Join(sep: string, xs: seq<string>): string
  {
    if |xs| == 0 then ""
    else if |xs| == 1 then xs[0]
    else xs[0] + sep + Join(sep, xs[1..])
  }

  lemma JoinCons(sep: string, x: string, xs: seq<string>)
    requires |xs| > 0
    ensures Join(sep, [x] + xs) == x + sep + Join(sep, xs)
  {
    assert ([x] + xs)[1..] == xs;
  }

  function DigitChar(d: nat): (c: char)
    requires d < 10
    ensures IsDigit(c)
  {
    "0123456789"[d]
  }

  /** Decimal rendering of a natural number, as `str(n)` or an f-string does. */
  function NatToString(n: nat): (r: string)
    ensures |r| > 0
    ensures forall k :: 0 <= k < |r| ==> IsDigit(r[k])
    decreases n
  {
    if n < 10 then [DigitChar(n)] else NatToString(n / 10) + [DigitChar(n % 10)]
  }

  /** Decimal rendering of an integer, with a leading `-` when negative. */
  function IntToString(i: int): string
  {
    if i < 0 then "-" + NatToString(-i) else NatToString(i)
  }

  /** Python's `s.replace(from, to)` for single characters. */
  function ReplaceChar(s: string, from: char, to: char): (r: string)
    ensures |r| == |s|
    ensures forall k :: 0 <= k < |s| ==> r[k] == (if s[k] == from then to else s[k])
  {
    if |s| == 0 then "" else [if s[0] == from then to else s[0]] + ReplaceChar(s[1..], from, to)
  }

  /** The characters of `s` that are not whitespace, in order. */
  function NonSpace(s: string): string
  {
    if |s| == 0 then ""
    else (if IsSpace(s[0]) then "" else [s[0]]) + NonSpace(s[1..])
  }

  lemma {:induction false} NonSpaceAppend(s: string, t: string)
    ensures NonSpace(s + t) == NonSpace(s) + NonSpace(t)
  {
    if |s| == 0 {
      assert s + t == t;
    } else {
      assert (s + t)[1..] == s[1..] + t;
      NonSpaceAppend(s[1..], t);
    }
  }

  lemma {:induction false} NonSpaceAllSpace(s: string)
    requires forall k :: 0 <= k < |s| ==> IsSpace(s[k])
    ensures NonSpace(s) == ""
  {
    if |s| > 0 {
      NonSpaceAllSpace(s[1..]);
    }
  }

  /** Stripping removes whitespace only. */
  lemma StripNonSpace(s: string)
    ensures NonSpace(Strip(s)) == NonSpace(s)
  {
    var a, b :| 0 <= a <= b <= |s| && Strip(s) == s[a..b]
                && (forall k :: 0 <= k < a ==> IsSpace(s[k]))
                && (forall k :: b <= k < |s| ==> IsSpace(s[k]));
    NonSpaceInner(s, a, b);
  }

  /** Cutting whitespace off both ends keeps the non-whitespace characters. */
  lemma NonSpaceInner(s: string, a: nat, b: nat)
    requires a <= b <= |s|
    requires forall k :: 0 <= k < a ==> IsSpace(s[k])
    requires forall k :: b <= k < |s| ==> IsSpace(s[k])
    ensures NonSpace(s[a..b]) == NonSpace(s)
  {
    NonSpaceDropBack(s, b);
    var t := s[..b];
    assert forall k :: 0 <= k < a ==> t[k] == s[k];
    NonSpaceDropFront(t, a);
    assert t[a..] == s[a..b];
  }

  lemma NonSpaceDropBack(s: string, b: nat)
    requires b <= |s|
    requires forall k :: b <= k < |s| ==> IsSpace(s[k])
    ensures NonSpace(s[..b]) == NonSpace(s)
  {
    var post := s[b..];
    assert s == s[..b] + post;
    NonSpaceAppend(s[..b], post);
    assert forall k :: 0 <= k < |post| ==> post[k] == s[b + k];
    NonSpaceAllSpace(post);
    assert NonSpace(s[..b]) + "" == NonSpace(s[..b]);
  }

  lemma {:induction false} NonSpaceDropFront(s: string, a: nat)
    requires a <= |s|
    requires forall k :: 0 <= k < a ==> IsSpace(s[k])
    ensures NonSpace(s[a..]) == NonSpace(s)
  {
    if a > 0 {
      var t := s[1..];
      assert forall k :: 0 <= k < a - 1 ==> t[k] == s[k + 1];
      NonSpaceDropFront(t, a - 1);
      assert t[a - 1..] == s[a..];
    }
  }
}

=== FILE: text_preprocessor.dfy ===
/** `TextPreprocessor` of `src/utils/text_preprocessor.py`: raw-text cleaning,
    the Mrs Dalloway query records and the Odyssey chunk records. Haystack's
    `PreProcessor.process` is the parameter `process`, reduced to the contents
    of the documents it returns. */
module TextPreprocessor {
  import opened Wrappers
  import opened Seqs
  import opened Strings
  import opened Json
  import opened Books
  import FN = Footnotes

  /** `_clean_text`: footnotes removed, em dashes replaced, outer whitespace
      stripped (the two quote replacements leave the text as it is). */
  function CleanRaw(t: string): (r: string)
    ensures Trimmed(r) && FN.EmDash !in r && FN.NoMarker(r)
    ensures |r| <= |t|
  {
    var s := FN.ReplaceEmDash(FN.RemoveFootnotes(t));
    FN.ReplaceEmDashNoMarker(FN.RemoveFootnotes(t));
    StripKeepsClean(s);
    Strip(s)
  }

  /** Stripping keeps a text free of em dashes and footnote markers. */
  lemma StripKeepsClean(s: string)
    requires FN.EmDash !in s && FN.NoMarker(s)
    ensures FN.EmDash !in Strip(s) && FN.NoMarker(Strip(s)) && |Strip(s)| <= |s|
  {
    var r := Strip(s);
    var a, b :| 0 <= a <= b <= |s| && r == s[a..b];
    FN.SliceNoMarker(s, a, b);
    assert forall k :: 0 <= k < |r| ==> r[k] == s[a + k];
  }

  /** A record's `content`, or `""` when it has none. */
  function ContentOf(v: Value): string
  {
    if v.Obj? && "content" in v.fields && v.fields["content"].Str? then v.fields["content"].s else ""
  }

  /** A record's `metadata` entry `key`, when present. */
  function MetaOf(v: Value, key: string): Option<Value>
  {
    if v.Obj? && "metadata" in v.fields && v.fields["metadata"].Obj? && key in v.fields["metadata"].fields
    then Some(v.fields["metadata"].fields[key]) else None
  }

  /** The query record for the `i`-th (0-based) chunk of Mrs Dalloway. */
  function Query(i: nat, content: string): Value
  {
    Obj(map["content" := Str(content),
            "metadata" := Obj(map["source" := Str("Mrs Dalloway"), "chunk_number" := Int(i + 1)])])
  }

  /** `get_dalloway_queries`: one record per chunk of the cleaned text. */
  function DallowayQueries(text: string, process: string -> seq<string>): (r: seq<Value>)
    ensures |r| == |process(CleanRaw(text))|
    ensures forall i :: 0 <= i < |r| ==>
              MetaOf(r[i], "source") == Some(Str("Mrs Dalloway"))
              && MetaOf(r[i], "chunk_number") == Some(Int(i + 1))
  {
    var chunks := process(CleanRaw(text));
    seq(|chunks|, i requires 0 <= i < |chunks| => Query(i, chunks[i]))
  }

  /** Reading the contents back gives the chunks, in order. */
  lemma QueriesContents(text: string, process: string -> seq<string>)
    ensures var r := DallowayQueries(text, process);
            seq(|r|, i requires 0 <= i < |r| => ContentOf(r[i])) == process(CleanRaw(text))
  {
  }

  /** The content of chunk `j` of a book: the chunk itself, or with the
      context header in front. */
  function Content(header: bool, title: string, j: nat, chunk: string): string
  {
    if header then "Context: The Odyssey, " + title + ". Chunk " + NatToString(j + 1) + "\n\n" + chunk
    else chunk
  }

  /** The record for chunk `j` of book `b`. */
  function Record(header: bool, title: string, b: nat, j: nat, chunk: string): Value
  {
    Obj(map["content" := Str(Content(header, title, j, chunk)),
            "metadata" := Obj(map["chapter" := Str(title), "book_number" := Int(b + 1),
                                  "chunk_number" := Int(j + 1)])])
  }

  /** The records of one book; this step cannot raise. */
  function ProcessBook(header: bool, process: string -> seq<string>, b: nat, book: Book)
    : Result<seq<Value>>
  {
    var chunks := process(CleanRaw(book.body));
    Ok(seq(|chunks|, j requires 0 <= j < |chunks| => Record(header, book.title, b, j, chunks[j])))
  }

  function Processor(header: bool, process: string -> seq<string>): (nat, Book) -> Result<seq<Value>>
  {
    (b: nat, book: Book) => ProcessBook(header, process, b, book)
  }

  lemma ProcessorAt(header: bool, process: string -> seq<string>, b: nat, book: Book)
    ensures Processor(header, process)(b, book).Ok?
    ensures var chunks := process(CleanRaw(book.body));
            var out := Processor(header, process)(b, book).value;
            |out| == |chunks|
            && forall j :: 0 <= j < |out| ==> out[j] == Record(header, book.title, b, j, chunks[j])
  {
  }

  lemma AllBooksOk(books: seq<Book>, header: bool, process: string -> seq<string>)
    ensures AllOk(books, Processor(header, process))
  {
    forall b | 0 <= b < |books| ensures Processor(header, process)(b, books[b]).Ok? {
      ProcessorAt(header, process, b, books[b]);
    }
  }

  /** The chunks of each book's cleaned body, in book order. */
  function BookChunks(pieces: seq<string>, process: string -> seq<string>): (r: seq<seq<string>>)
    requires |pieces| % 2 == 1
  {
    seq((|pieces| - 1) / 2, b requires 0 <= b < (|pieces| - 1) / 2 => process(CleanRaw(pieces[2 * b + 2])))
  }

  /** `process_odyssey` on the pieces of `re.split(r'(BOOK [IVXLCDM]+\.)', text)`:
      one record per chunk of every book, whatever the header flag, and none
      for a text without a `BOOK` heading. */
  function ProcessOdyssey(pieces: seq<string>, header: bool, process: string -> seq<string>)
    : (r: seq<Value>)
    requires |pieces| % 2 == 1
    ensures |r| == TotalLength(BookChunks(pieces, process))
    ensures |pieces| == 1 ==> r == []
  {
    RecordCount(pieces, header, process);
    ForEachBook(BookPairs(pieces), Processor(header, process), 0).value
  }

  /** The loop succeeds and yields as many records as the books have chunks. */
  lemma RecordCount(pieces: seq<string>, header: bool, process: string -> seq<string>)
    requires |pieces| % 2 == 1
    ensures ForEachBook(BookPairs(pieces), Processor(header, process), 0).Ok?
    ensures |ForEachBook(BookPairs(pieces), Processor(header, process), 0).value|
            == TotalLength(BookChunks(pieces, process))
  {
    var inputs := BookChunks(pieces, process);
    var f := Processor(header, process);
    forall b | 0 <= b < |inputs|
      ensures f(b, Book(Strip(pieces[2 * b + 1]), pieces[2 * b + 2])).Ok?
              && |f(b, Book(Strip(pieces[2 * b + 1]), pieces[2 * b + 2])).value| == |inputs[b]|
    {
      ProcessorAt(header, process, b, Book(Strip(pieces[2 * b + 1]), pieces[2 * b + 2]));
    }
    PieceCount(pieces, f, inputs);
  }

  /** Chunk `j` of book `b` is found at its book's offset plus `j`, titled
      with the stripped heading and numbered from one within its book. */
  lemma OdysseyRecordAt(pieces: seq<string>, header: bool, process: string -> seq<string>,
                        b: nat, j: nat)
    requires |pieces| % 2 == 1 && b < (|pieces| - 1) / 2
    requires j < |process(CleanRaw(pieces[2 * b + 2]))|
    ensures var n := Offset(Outputs(BookPairs(pieces), Processor(header, process), 0), b) + j;
            n < |ProcessOdyssey(pieces, header, process)|
            && var v := ProcessOdyssey(pieces, header, process)[n];
               var title := Strip(pieces[2 * b + 1]);
               && ContentOf(v) == Content(header, title, j, process(CleanRaw(pieces[2 * b + 2]))[j])
               && MetaOf(v, "chapter") == Some(Str(title))
               && MetaOf(v, "book_number") == Some(Int(b + 1))
               && MetaOf(v, "chunk_number") == Some(Int(j + 1))
  {
    var title := Strip(pieces[2 * b + 1]);
    var chunk := process(CleanRaw(pieces[2 * b + 2]))[j];
    RecordAt(pieces, header, process, b, j);
    RecordFields(header, title, b, j, chunk);
  }

  lemma RecordAt(pieces: seq<string>, header: bool, process: string -> seq<string>, b: nat, j: nat)
    requires |pieces| % 2 == 1 && b < (|pieces| - 1) / 2
    requires j < |process(CleanRaw(pieces[2 * b + 2]))|
    ensures var n := Offset(Outputs(BookPairs(pieces), Processor(header, process), 0), b) + j;
            n < |ProcessOdyssey(pieces, header, process)|
            && ProcessOdyssey(pieces, header, process)[n]
               == Record(header, Strip(pieces[2 * b + 1]), b, j, process(CleanRaw(pieces[2 * b + 2]))[j])
  {
    var books := BookPairs(pieces);
    var f := Processor(header, process);
    BookAt(pieces, b);
    AllBooksOk(books, header, process);
    ProcessorAt(header, process, b, books[b]);
    OutputAt(books, f, b, j);
  }

  lemma RecordFields(header: bool, title: string, b: nat, j: nat, chunk: string)
    ensures var v := Record(header, title, b, j, chunk);
            ContentOf(v) == Content(header, title, j, chunk)
            && MetaOf(v, "chapter") == Some(Str(title))
            && MetaOf(v, "book_number") == Some(Int(b + 1))
            && MetaOf(v, "chunk_number") == Some(Int(j + 1))
  {
  }
}

=== FILE: text_processing.dfy ===
/** Whitespace normalisation and chunking of `src/utils/text_processing.py`. */
module TextProcessing {
  import opened Wrappers
  import opened Seqs
  import opened Strings

  predicate IsNewline(c: char) { c == '\n' }

  /** Length of the longest prefix of `t` whose characters all satisfy `p`. */
  function RunLength(t: string, p: char -> bool): (n: nat)
    ensures n <= |t|
    ensures forall k :: 0 <= k < n ==> p(t[k])
    ensures n < |t| ==> !p(t[n])
  {
    if |t| == 0 || !p(t[0]) then 0 else 1 + RunLength(t[1..], p)
  }

  /** `re.sub(P + '+', ' ', t)` for a character class `P`: every maximal run of
      characters in the class becomes one space. */
  function CollapseRuns(t: string, p: char -> bool): (r: string)
    ensures |r| <= |t|
    ensures |r| == 0 <==> |t| == 0
    ensures |t| > 0 && p(t[0]) ==> r[0] == ' '
    ensures |t| > 0 && !p(t[0]) ==> r[0] == t[0]
    ensures forall k :: 0 <= k < |r| ==> r[k] == ' ' || !p(r[k])
    decreases |t|
  {
    if |t| == 0 then ""
    else if p(t[0]) then " " + CollapseRuns(t[RunLength(t, p)..], p)
    else [t[0]] + CollapseRuns(t[1..], p)
  }

  /** When the space character itself is in the class, no two class members stay adjacent. */
  lemma {:induction false} CollapseRunsSeparated(t: string, p: char -> bool)
    requires p(' ')
    ensures forall k :: 0 <= k < |CollapseRuns(t, p)| - 1 ==>
              !(p(CollapseRuns(t, p)[k]) && p(CollapseRuns(t, p)[k + 1]))
    decreases |t|
  {
    if |t| == 0 {
    } else if p(t[0]) {
      var rest := t[RunLength(t, p)..];
      CollapseRunsSeparated(rest, p);
      var r := CollapseRuns(t, p);
      assert r == " " + CollapseRuns(rest, p);
      assert |rest| > 0 ==> !p(rest[0]);
    } else {
      CollapseRunsSeparated(t[1..], p);
    }
  }

  /** A text whose class members are already lone spaces is left unchanged. */
  lemma {:induction false} CollapseRunsFixed(t: string, p: char -> bool)
    requires forall k :: 0 <= k < |t| && p(t[k]) ==> t[k] == ' '
    requires forall k :: 0 <= k < |t| - 1 ==> !(p(t[k]) && p(t[k + 1]))
    ensures CollapseRuns(t, p) == t
    decreases |t|
  {
    if |t| > 0 {
      if p(t[0]) {
        assert |t| > 1 ==> !p(t[1]);
        assert RunLength(t, p) == 1;
      }
      CollapseRunsFixed(t[1..], p);
      assert t == [t[0]] + t[1..];
    }
  }

  /** Collapsing whitespace-only runs touches whitespace only. */
  lemma {:induction false} CollapseRunsNonSpace(t: string, p: char -> bool)
    requires forall c :: p(c) ==> IsSpace(c)
    ensures NonSpace(CollapseRuns(t, p)) == NonSpace(t)
    decreases |t|
  {
    if |t| > 0 {
      if p(t[0]) {
        var n := RunLength(t, p);
        CollapseRunsNonSpace(t[n..], p);
        NonSpaceAppend(" ", CollapseRuns(t[n..], p));
        assert t == t[..n] + t[n..];
        NonSpaceAppend(t[..n], t[n..]);
        NonSpaceAllSpace(t[..n]);
      } else {
        CollapseRunsNonSpace(t[1..], p);
        NonSpaceAppend([t[0]], CollapseRuns(t[1..], p));
        assert t == [t[0]] + t[1..];
        NonSpaceAppend([t[0]], t[1..]);
      }
    }
  }

  /** A prefix that collapsing would leave alone, and that does not end inside
      a run, survives collapsing whatever follows it. */
  lemma {:induction false} CollapseRunsPrefix(a: string, b: string, p: char -> bool)
    requires forall k :: 0 <= k < |a| && p(a[k]) ==> a[k] == ' '
    requires forall k :: 0 <= k < |a| - 1 ==> !(p(a[k]) && p(a[k + 1]))
    requires |a| > 0 ==> !p(a[|a| - 1])
    ensures CollapseRuns(a + b, p) == a + CollapseRuns(b, p)
    decreases |a|
  {
    if |a| == 0 {
      assert a + b == b;
    } else {
      var t := a + b;
      assert t[1..] == a[1..] + b;
      CollapseRunsPrefix(a[1..], b, p);
      if p(a[0]) {
        assert |a| > 1 && !p(a[1]);
        assert RunLength(t, p) == 1 by {
          assert t[1..][0] == a[1];
        }
        assert CollapseRuns(t, p) == " " + (a[1..] + CollapseRuns(b, p));
        assert a == " " + a[1..];
      } else {
        assert CollapseRuns(t, p) == [a[0]] + (a[1..] + CollapseRuns(b, p));
        assert a == [a[0]] + a[1..];
      }
    }
  }

  /** A run that stops inside `a`, or that `b` does not continue, is the run of `a + b`. */
  lemma {:induction false} RunLengthAppend(a: string, b: string, p: char -> bool)
    requires RunLength(a, p) < |a| || |b| == 0 || !p(b[0])
    ensures RunLength(a + b, p) == RunLength(a, p)
    decreases |a|
  {
    if |a| > 0 && p(a[0]) {
      assert (a + b)[1..] == a[1..] + b;
      RunLengthAppend(a[1..], b, p);
    } else if |a| == 0 {
      assert a + b == b;
    }
  }

  /** `CollapseRuns` works run by run: it distributes over a cut that no run
      straddles. */
  lemma {:induction false} CollapseRunsSplit(a: string, b: string, p: char -> bool)
    requires |a| == 0 || |b| == 0 || !p(a[|a| - 1]) || !p(b[0])
    ensures CollapseRuns(a + b, p) == CollapseRuns(a, p) + CollapseRuns(b, p)
    decreases |a|
  {
    if |a| == 0 {
      assert a + b == b;
    } else {
      var n := if p(a[0]) then RunLength(a, p) else 1;
      var h := if p(a[0]) then " " else [a[0]];
      var u := a[n..];
      assert CollapseRuns(u + b, p) == CollapseRuns(u, p) + CollapseRuns(b, p) by {
        assert n < |a| ==> u[|u| - 1] == a[|a| - 1];
        CollapseRunsSplit(u, b, p);
      }
      assert CollapseRuns(a + b, p) == h + CollapseRuns(u + b, p) by {
        if p(a[0]) { CollapseRunsSplitRun(a, b, p); } else { CollapseRunsSplitChar(a, b, p); }
      }
      assert CollapseRuns(a, p) == h + CollapseRuns(u, p);
      Regroup(CollapseRuns(a + b, p), h, CollapseRuns(u, p), CollapseRuns(b, p), CollapseRuns(a, p));
    }
  }

  /** A leading run of `a` is collapsed the same way in `a + b`. */
  lemma CollapseRunsSplitRun(a: string, b: string, p: char -> bool)
    requires |a| > 0 && p(a[0])
    requires RunLength(a, p) < |a| || |b| == 0 || !p(b[0])
    ensures CollapseRuns(a + b, p) == " " + CollapseRuns(a[RunLength(a, p)..] + b, p)
  {
    var n := RunLength(a, p);
    RunLengthAppend(a, b, p);
    DropAppend(a, b, 0);
    CollapseRunsHeadRun(a + b, p);
    DropAppend(a, b, n);
  }

  /** A text opening with a class character starts with one space for its
      leading run. */
  lemma CollapseRunsHeadRun(t: string, p: char -> bool)
    requires |t| > 0 && p(t[0])
    ensures CollapseRuns(t, p) == " " + CollapseRuns(t[RunLength(t, p)..], p)
  {
  }

  /** A leading non-class character of `a` is kept the same way in `a + b`. */
  lemma CollapseRunsSplitChar(a: string, b: string, p: char -> bool)
    requires |a| > 0 && !p(a[0])
    ensures CollapseRuns(a + b, p) == [a[0]] + CollapseRuns(a[1..] + b, p)
  {
    assert (a + b)[1..] == a[1..] + b;
  }

  /** A non-empty text made only of class characters collapses to one space. */
  lemma CollapseRunsAll(w: string, p: char -> bool)
    requires |w| > 0 && forall k :: 0 <= k < |w| ==> p(w[k])
    ensures CollapseRuns(w, p) == " "
  {
    assert RunLength(w, p) == |w|;
    assert w[|w|..] == "";
  }

  /** Every maximal run of class characters becomes exactly one space, and
      what lies on either side is collapsed on its own. */
  lemma CollapseRunsRun(a: string, w: string, b: string, p: char -> bool)
    requires |w| > 0 && forall k :: 0 <= k < |w| ==> p(w[k])
    requires |a| == 0 || !p(a[|a| - 1])
    requires |b| == 0 || !p(b[0])
    ensures CollapseRuns(a + w + b, p) == CollapseRuns(a, p) + " " + CollapseRuns(b, p)
  {
    CollapseRunsSplit(a + w, b, p);
    CollapseRunsSplit(a, w, p);
    CollapseRunsAll(w, p);
  }

  /** Collapsing only characters of class `q` leaves a text of class `q`. */
  lemma {:induction false} CollapseRunsWithin(t: string, p: char -> bool, q: char -> bool)
    requires q(' ') && forall k :: 0 <= k < |t| ==> q(t[k])
    ensures forall k :: 0 <= k < |CollapseRuns(t, p)| ==> q(CollapseRuns(t, p)[k])
    decreases |t|
  {
    if |t| > 0 {
      if p(t[0]) {
        var n := RunLength(t, p);
        CollapseRunsWithin(t[n..], p, q);
      } else {
        CollapseRunsWithin(t[1..], p, q);
      }
    }
  }

  /** Collapsing a subclass first changes nothing once the wider class is
      collapsed: `\n+` before `\s+` only shortens runs `\s+` replaces anyway. */
  lemma {:induction false} CollapseNested(t: string, p: char -> bool, q: char -> bool)
    requires forall c :: p(c) ==> q(c)
    requires q(' ')
    ensures CollapseRuns(CollapseRuns(t, p), q) == CollapseRuns(t, q)
    decreases |t|
  {
    if |t| > 0 {
      if q(t[0]) {
        var n := RunLength(t, q);
        var w, r := t[..n], t[n..];
        assert t == w + r;
        CollapseRunsSplit(w, r, p);
        var cw, cr := CollapseRuns(w, p), CollapseRuns(r, p);
        CollapseRunsWithin(w, p, q);
        CollapseRunsSplit(cw, cr, q);
        CollapseRunsAll(cw, q);
        CollapseNested(r, p, q);
      } else {
        var x := CollapseRuns(t[1..], p);
        assert CollapseRuns(t, p) == [t[0]] + x;
        assert ([t[0]] + x)[1..] == x;
        CollapseNested(t[1..], p, q);
      }
    }
  }

  predicate NotSpace(c: char) { !IsSpace(c) }

  /** Python's `t.split()`: the maximal runs of non-whitespace characters, in order. */
  function Words(t: string): (ws: seq<string>)
    ensures forall j :: 0 <= j < |ws| ==> |ws[j]| > 0
    ensures forall j, k :: 0 <= j < |ws| && 0 <= k < |ws[j]| ==> !IsSpace(ws[j][k])
    decreases |t|
  {
    if |t| == 0 then []
    else if IsSpace(t[0]) then Words(t[1..])
    else
      var n := RunLength(t, NotSpace);
      [t[..n]] + Words(t[n..])
  }

  /** Leading whitespace contributes no word. */
  lemma {:induction false} WordsSkip(t: string, n: nat)
    requires n <= |t| && forall k :: 0 <= k < n ==> IsSpace(t[k])
    ensures Words(t) == Words(t[n..])
    decreases n
  {
    if n > 0 {
      assert t[1..][n - 1..] == t[n..];
      WordsSkip(t[1..], n - 1);
    }
  }

  /** `strip()` of a text made of whitespace, a trimmed middle and whitespace is the middle. */
  lemma StripFrame(u: string, m: string, v: string)
    requires forall k :: 0 <= k < |u| ==> IsSpace(u[k])
    requires forall k :: 0 <= k < |v| ==> IsSpace(v[k])
    requires Trimmed(m)
    ensures Strip(u + m + v) == m
  {
    var s := u + m + v;
    var a := StripStart(s);
    if |m| == 0 {
      assert forall k :: 0 <= k < |s| ==> IsSpace(s[k]) by {
        forall k | 0 <= k < |s| ensures IsSpace(s[k]) {
          if k < |u| { assert s[k] == u[k]; } else { assert s[k] == v[k - |u|]; }
        }
      }
      assert a == |s|;
    } else {
      assert s[|u|] == m[0];
      assert forall k :: 0 <= k < |u| ==> s[k] == u[k];
      assert a == |u|;
      var e := StripEnd(s);
      assert s[|u| + |m| - 1] == m[|m| - 1];
      assert forall k :: |u| + |m| <= k < |s| ==> s[k] == v[k - |u| - |m|];
      assert e == |u| + |m|;
      assert s[a..e] == m;
    }
  }

  /** A text that starts with a non-space character is its `strip()` followed
      by whitespace only. */
  lemma StripFront(x: string)
    requires |x| > 0 && !IsSpace(x[0])
    ensures |Strip(x)| > 0 && x == Strip(x) + x[|Strip(x)|..]
    ensures forall k :: |Strip(x)| <= k < |x| ==> IsSpace(x[k])
  {
    assert StripStart(x) == 0;
    var e := StripEnd(x);
    assert e > 0;
    assert Strip(x) == x[..e];
  }

  /** `strip()` of a whitespace-collapsed text joins its words with single spaces. */
  lemma {:induction false} StripCollapseWords(t: string)
    ensures Strip(CollapseRuns(t, IsSpace)) == Join(" ", Words(t))
    decreases |t|
  {
    if |t| == 0 {
      assert Strip("") == "";
    } else if IsSpace(t[0]) {
      var r := t[RunLength(t, IsSpace)..];
      if |r| > 0 {
        StripCollapseWords(r);
      }
      LeadingSpaceWords(t);
    } else {
      var rest := t[RunLength(t, NotSpace)..];
      if |rest| > 0 {
        var r := rest[RunLength(rest, IsSpace)..];
        if |r| > 0 {
          StripCollapseWords(r);
        }
        LeadingWord(t);
      } else {
        LastWordWords(t);
      }
    }
  }

  /** Leading whitespace: it collapses to one space that `strip()` removes,
      and it contributes no word. */
  lemma LeadingSpaceWords(t: string)
    requires |t| > 0 && IsSpace(t[0])
    requires var r := t[RunLength(t, IsSpace)..];
             |r| > 0 ==> Strip(CollapseRuns(r, IsSpace)) == Join(" ", Words(r))
    ensures Strip(CollapseRuns(t, IsSpace)) == Join(" ", Words(t))
  {
    var n := RunLength(t, IsSpace);
    var r := t[n..];
    WordsSkip(t, n);
    assert CollapseRuns(t, IsSpace) == " " + CollapseRuns(r, IsSpace);
    StripSpaceHead(CollapseRuns(r, IsSpace));
    assert |r| == 0 ==> Words(r) == [] && CollapseRuns(r, IsSpace) == "";
  }

  /** One leading space before a text that does not start with whitespace is
      dropped by `strip()`. */
  lemma StripSpaceHead(x: string)
    requires |x| == 0 || !IsSpace(x[0])
    ensures Strip(" " + x) == Strip(x)
  {
    if |x| == 0 {
      StripFrame(" ", "", "");
      assert " " + "" + "" == " " + x;
    } else {
      StripFront(x);
      var y := Strip(x);
      Regroup(" " + x, " ", y, x[|y|..], " " + y);
      StripFrame(" ", y, x[|y|..]);
    }
  }

  /** A word, one space and a collapsed text: `strip()` keeps the word and
      the stripped text after one space. */
  lemma StripWordSpace(word: string, x: string)
    requires |word| > 0 && forall k :: 0 <= k < |word| ==> !IsSpace(word[k])
    requires |x| == 0 || !IsSpace(x[0])
    ensures |x| == 0 ==> Strip(word + (" " + x)) == word
    ensures |x| > 0 ==> Strip(word + (" " + x)) == word + " " + Strip(x)
  {
    if |x| == 0 {
      StripFrame("", word, " ");
      assert "" + word + " " == word + (" " + x);
    } else {
      StripFront(x);
      var y := Strip(x);
      var tail := x[|y|..];
      var mid := word + " " + y;
      Regroup(" " + x, " ", y, tail, " " + y);
      Regroup(word + (" " + x), word, " " + y, tail, word + (" " + y));
      Regroup(word + (" " + y), word, " ", y, word + " ");
      assert mid[0] == word[0] && mid[|mid| - 1] == y[|y| - 1];
      assert "" + mid == mid;
      StripFrame("", mid, tail);
    }
  }

  /** A text that is one word. */
  lemma LastWordWords(t: string)
    requires |t| > 0 && !IsSpace(t[0]) && RunLength(t, NotSpace) == |t|
    ensures Strip(CollapseRuns(t, IsSpace)) == Join(" ", Words(t))
  {
    assert t[..|t|] == t;
    assert Words(t) == [t] + Words(t[|t|..]);
    CollapseRunsFixed(t, IsSpace);
    StripFrame("", t, "");
    assert "" + t + "" == t;
  }

  /** A text that starts with a word and goes on past it. */
  lemma LeadingWord(t: string)
    requires |t| > 0 && !IsSpace(t[0])
    requires RunLength(t, NotSpace) < |t|
    requires var rest := t[RunLength(t, NotSpace)..];
             var r := rest[RunLength(rest, IsSpace)..];
             |r| > 0 ==> Strip(CollapseRuns(r, IsSpace)) == Join(" ", Words(r))
    ensures Strip(CollapseRuns(t, IsSpace)) == Join(" ", Words(t))
  {
    var m := RunLength(t, NotSpace);
    assert t == t[..m] + t[m..];
    LeadingWordWords(t[..m], t[m..]);
  }

  /** A word followed by at least one whitespace character: the word, then one
      space, then the words of what follows the whitespace run. */
  lemma LeadingWordWords(word: string, rest: string)
    requires |word| > 0 && forall k :: 0 <= k < |word| ==> !IsSpace(word[k])
    requires |rest| > 0 && IsSpace(rest[0])
    requires var r := rest[RunLength(rest, IsSpace)..];
             |r| > 0 ==> Strip(CollapseRuns(r, IsSpace)) == Join(" ", Words(r))
    ensures Strip(CollapseRuns(word + rest, IsSpace)) == Join(" ", Words(word + rest))
  {
    var t := word + rest;
    var n := RunLength(rest, IsSpace);
    var r := rest[n..];
    var x := CollapseRuns(r, IsSpace);
    var ws := Words(r);
    assert Words(t) == [word] + ws by {
      WordsHead(word, rest);
      WordsSkip(rest, n);
    }
    assert CollapseRuns(t, IsSpace) == word + (" " + x) by {
      CollapseRunsPrefix(word, rest, IsSpace);
      assert CollapseRuns(rest, IsSpace) == " " + x;
    }
    StripWordSpace(word, x);
    if |r| == 0 {
      assert ws == [];
      assert Join(" ", [word]) == word;
    } else {
      assert |ws| > 0 by {
        assert Strip(x) == Join(" ", ws);
      }
      JoinCons(" ", word, ws);
    }
  }

  /** The first word of a text that starts with one. */
  lemma WordsHead(word: string, rest: string)
    requires |word| > 0 && forall k :: 0 <= k < |word| ==> !IsSpace(word[k])
    requires |rest| > 0 && IsSpace(rest[0])
    ensures Words(word + rest) == [word] + Words(rest)
  {
    var t := word + rest;
    assert RunLength(t, NotSpace) == |word| by {
      RunLengthAppend(word, rest, NotSpace);
      assert RunLength(word, NotSpace) == |word|;
    }
    assert t[..|word|] == word && t[|word|..] == rest;
  }

  /** `clean_text(t)` is `' '.join(t.split())`: the words of the text, in
      order, separated by exactly one space. */
  lemma CleanTextWords(t: string)
    ensures CleanText(t) == Join(" ", Words(t))
  {
    CollapseNested(t, IsNewline, IsSpace);
    StripCollapseWords(t);
  }

  /** `clean_text`: newline runs to a space, whitespace runs to a space, then strip. */
  function CleanText(text: string): (r: string)
    ensures Trimmed(r)
    ensures NoAdjacentSpace(r)
    ensures forall k :: 0 <= k < |r| && IsSpace(r[k]) ==> r[k] == ' '
    ensures '\n' !in r
    ensures NonSpace(r) == NonSpace(text)
  {
    var noNewlines := CollapseRuns(text, IsNewline);
    var collapsed := CollapseRuns(noNewlines, IsSpace);
    CollapseRunsSeparated(noNewlines, IsSpace);
    CollapseRunsNonSpace(text, IsNewline);
    CollapseRunsNonSpace(noNewlines, IsSpace);
    StripCollapsed(collapsed);
    Strip(collapsed)
  }

  /** Stripping a text whose whitespace is lone spaces keeps it so. */
  lemma StripCollapsed(c: string)
    requires NoAdjacentSpace(c)
    requires forall k :: 0 <= k < |c| ==> c[k] == ' ' || !IsSpace(c[k])
    ensures var r := Strip(c);
            NoAdjacentSpace(r)
            && (forall k :: 0 <= k < |r| && IsSpace(r[k]) ==> r[k] == ' ')
            && '\n' !in r
            && NonSpace(r) == NonSpace(c)
  {
    StripKeeps(c);
    StripNonSpace(c);
    var r := Strip(c);
    assert forall k :: 0 <= k < |r| ==> r[k] in c;
  }

  /** Cleaning a cleaned text changes nothing. */
  lemma CleanTextIdempotent(text: string)
    ensures CleanText(CleanText(text)) == CleanText(text)
  {
    var c := CleanText(text);
    CollapseRunsFixed(c, IsNewline);
    CollapseRunsFixed(c, IsSpace);
    StripTrimmed(c);
  }

  /** A text that starts with an already clean piece keeps that piece as the
      start of its cleaned form. */
  lemma CleanTextPrefix(a: string, b: string)
    requires |a| > 0 && Trimmed(a) && NoAdjacentSpace(a)
    requires forall k :: 0 <= k < |a| && IsSpace(a[k]) ==> a[k] == ' '
    ensures |a| <= |CleanText(a + b)|
    ensures CleanText(a + b)[..|a|] == a
  {
    CollapseRunsPrefix(a, b, IsNewline);
    var b1 := CollapseRuns(b, IsNewline);
    CollapseRunsPrefix(a, b1, IsSpace);
    StripKeepsStart(a, CollapseRuns(b1, IsSpace));
  }

  // ---------------------------------------------------------------------------
  // Paragraph mode: re.split(r'\n\n+', text)

  /** A blank line (two newlines) starts at index `i`. */
  predicate BlankAt(t: string, i: int)
  {
    0 <= i && i + 1 < |t| && t[i] == '\n' && t[i + 1] == '\n'
  }

  predicate NoBlankLine(t: string)
  {
    forall i :: 0 <= i < |t| ==> !BlankAt(t, i)
  }

  /** Leftmost blank line at or after `from`, or `|t|` when there is none. */
  function FirstBlank(t: string, from: nat): (i: nat)
    requires from <= |t|
    ensures from <= i <= |t|
    ensures i < |t| ==> BlankAt(t, i)
    ensures forall k :: from <= k < i ==> !BlankAt(t, k)
    decreases |t| - from
  {
    if from == |t| then from
    else if BlankAt(t, from) then from
    else FirstBlank(t, from + 1)
  }

  /** `re.split(r'\n\n+', t)`: the pieces between maximal runs of two or more newlines. */
  function SplitParagraphs(t: string): (ps: seq<string>)
    ensures |ps| >= 1
    ensures forall j :: 0 <= j < |ps| ==> NoBlankLine(ps[j])
    decreases |t|
  {
    var i := FirstBlank(t, 0);
    if i == |t| then
      assert NoBlankLine(t) by {
        forall k | 0 <= k < |t| ensures !BlankAt(t, k) { }
      }
      [t]
    else
      var head := t[..i];
      assert NoBlankLine(head) by {
        forall k | 0 <= k < |head| ensures !BlankAt(head, k) {
          assert !BlankAt(t, k);
        }
      }
      [head] + SplitParagraphs(t[i + RunLength(t[i..], IsNewline)..])
  }

  /** A maximal run that `\n\n+` matches: two or more newlines. */
  predicate NewlineRun(s: string)
  {
    |s| >= 2 && forall k :: 0 <= k < |s| ==> s[k] == '\n'
  }

  /** The runs `re.split(r'\n\n+', t)` consumes, left to right: one fewer
      than the paragraphs. */
  function Separators(t: string): (seps: seq<string>)
    ensures |seps| == |SplitParagraphs(t)| - 1
    ensures forall j :: 0 <= j < |seps| ==> NewlineRun(seps[j])
    decreases |t|
  {
    var i := FirstBlank(t, 0);
    if i == |t| then []
    else
      var n := RunLength(t[i..], IsNewline);
      assert t[i..][0] == '\n' && t[i..][1] == '\n';
      [t[i..i + n]] + Separators(t[i + n..])
  }

  /** The paragraphs with the separators put back between them. */
  function Interleave(ps: seq<string>, seps: seq<string>): string
    requires |ps| >= 1 && |seps| == |ps| - 1
    decreases |seps|
  {
    if |seps| == 0 then ps[0] else ps[0] + seps[0] + Interleave(ps[1..], seps[1..])
  }

  /** The cut after paragraph `j` falls on a maximal newline run: paragraph
      `j` does not end with a newline and paragraph `j + 1` does not start
      with one. */
  predicate CleanCut(ps: seq<string>, j: int)
    requires 0 <= j < |ps| - 1
  {
    (|ps[j]| == 0 || ps[j][|ps[j]| - 1] != '\n') && (|ps[j + 1]| == 0 || ps[j + 1][0] != '\n')
  }

  /** The first paragraph is the text up to the first blank line. */
  lemma SplitParagraphsHead(t: string)
    ensures SplitParagraphs(t)[0] == t[..FirstBlank(t, 0)]
  {
    if FirstBlank(t, 0) == |t| {
      assert t[..|t|] == t;
    }
  }

  /** `re.split(r'\n\n+', t)` loses nothing: the paragraphs interleaved with
      the separators are the text. Each separator is a maximal newline run: the
      paragraph before it does not end with a newline and the one after it does
      not start with one. */
  lemma {:induction false} SplitParagraphsRejoin(t: string)
    ensures Interleave(SplitParagraphs(t), Separators(t)) == t
    ensures forall j :: 0 <= j < |SplitParagraphs(t)| - 1 ==> CleanCut(SplitParagraphs(t), j)
    decreases |t|
  {
    var i := FirstBlank(t, 0);
    if i < |t| {
      var n := RunLength(t[i..], IsNewline);
      SplitParagraphsRejoin(t[i + n..]);
      InterleaveStep(t, i, n);
      CutsStep(t, i, n, t[i + n..]);
    } else {
      assert t[..|t|] == t;
    }
  }

  /** Past the first blank line, paragraphs and separators continue with those
      of the text after the newline run. */
  lemma {:induction false} SplitParagraphsCons(t: string, i: nat, n: nat, ps: seq<string>)
    requires i == FirstBlank(t, 0) < |t| && n == RunLength(t[i..], IsNewline)
    requires ps == SplitParagraphs(t)
    ensures i + n <= |t| && |ps| > 1 && ps[0] == t[..i] && ps[1..] == SplitParagraphs(t[i + n..])
  {
  }

  /** Past the first blank line, the separators are its newline run and then
      those of the text after it. */
  lemma {:induction false} SeparatorsCons(t: string, i: nat, n: nat, seps: seq<string>)
    requires i == FirstBlank(t, 0) < |t| && n == RunLength(t[i..], IsNewline)
    requires seps == Separators(t)
    ensures i + n <= |t| && |seps| > 0 && seps[0] == t[i..i + n] && seps[1..] == Separators(t[i + n..])
  {
  }

  /** The first step of `SplitParagraphsRejoin`, for the text: the first
      paragraph and separator in front of what the rest rejoins to. */
  lemma {:induction false} InterleaveStep(t: string, i: nat, n: nat)
    requires i == FirstBlank(t, 0) < |t| && n == RunLength(t[i..], IsNewline)
    requires Interleave(SplitParagraphs(t[i + n..]), Separators(t[i + n..])) == t[i + n..]
    ensures Interleave(SplitParagraphs(t), Separators(t)) == t
  {
    var rest := t[i + n..];
    var ps, seps := SplitParagraphs(t), Separators(t);
    var ps', seps' := SplitParagraphs(rest), Separators(rest);
    assert |ps| > 1 && ps[0] == t[..i] && ps[1..] == ps' by {
      SplitParagraphsCons(t, i, n, ps);
    }
    assert seps[0] == t[i..i + n] && seps[1..] == seps' by {
      SeparatorsCons(t, i, n, seps);
    }
    assert Interleave(ps, seps) == t[..i] + t[i..i + n] + rest;
    Slices(t, i, i + n);
  }

  /** The first step of `SplitParagraphsRejoin`, for the cuts: the first cut
      is clean, and the others are the cuts of the rest. */
  lemma {:induction false} CutsStep(t: string, i: nat, n: nat, rest: string)
    requires i == FirstBlank(t, 0) < |t| && n == RunLength(t[i..], IsNewline) && rest == t[i + n..]
    requires forall j :: 0 <= j < |SplitParagraphs(rest)| - 1 ==> CleanCut(SplitParagraphs(rest), j)
    ensures forall j :: 0 <= j < |SplitParagraphs(t)| - 1 ==> CleanCut(SplitParagraphs(t), j)
  {
    SplitParagraphsCons(t, i, n, SplitParagraphs(t));
    FirstCutClean(t, i, n);
    CutsCons(SplitParagraphs(t), SplitParagraphs(rest));
  }

  lemma CutsCons(ps: seq<string>, ps': seq<string>)
    requires |ps| >= 2 && ps[1..] == ps' && CleanCut(ps, 0)
    requires forall j :: 0 <= j < |ps'| - 1 ==> CleanCut(ps', j)
    ensures forall j :: 0 <= j < |ps| - 1 ==> CleanCut(ps, j)
  {
    forall j | 1 <= j < |ps| - 1 ensures CleanCut(ps, j) {
      assert CleanCut(ps', j - 1);
      assert ps[j] == ps'[j - 1] && ps[j + 1] == ps'[j];
    }
  }

  /** The first paragraph stops short of the blank line and the second
      starts after the whole newline run. */
  lemma FirstCutClean(t: string, i: nat, n: nat)
    requires i == FirstBlank(t, 0) < |t| && n == RunLength(t[i..], IsNewline)
    ensures CleanCut(SplitParagraphs(t), 0)
  {
    var rest := t[i + n..];
    var a, b := t[..i], rest[..FirstBlank(rest, 0)];
    assert |a| == 0 || a[|a| - 1] != '\n' by {
      if i > 0 {
        assert !BlankAt(t, i - 1) && BlankAt(t, i);
      }
    }
    assert |b| == 0 || b[0] != '\n' by {
      assert |rest| > 0 ==> rest[0] == t[i..][n];
    }
    SplitParagraphsSecond(t, i, n, rest);
    SplitParagraphsHead(t);
    SplitParagraphsHead(rest);
    CleanCutOf(SplitParagraphs(t), a, b);
  }

  /** The second paragraph is the first paragraph of the text after the
      newline run. */
  lemma SplitParagraphsSecond(t: string, i: nat, n: nat, rest: string)
    requires i == FirstBlank(t, 0) < |t| && n == RunLength(t[i..], IsNewline) && rest == t[i + n..]
    ensures |SplitParagraphs(t)| > 1 && SplitParagraphs(t)[1] == SplitParagraphs(rest)[0]
  {
    assert SplitParagraphs(t)[1..] == SplitParagraphs(rest);
    assert SplitParagraphs(t)[1..][0] == SplitParagraphs(t)[1];
  }

  lemma CleanCutOf(ps: seq<string>, a: string, b: string)
    requires |ps| >= 2 && ps[0] == a && ps[1] == b
    requires |a| == 0 || a[|a| - 1] != '\n'
    requires |b| == 0 || b[0] != '\n'
    ensures CleanCut(ps, 0)
  {
  }

  /** A text without a blank line is one paragraph. */
  lemma SplitParagraphsSingle(t: string)
    requires NoBlankLine(t)
    ensures SplitParagraphs(t) == [t]
  {
    assert FirstBlank(t, 0) == |t|;
  }

  /** When every blank line is exactly two newlines, joining the paragraphs
      with a blank line gives the text back. */
  lemma {:induction false} SplitParagraphsJoin(t: string)
    requires forall k :: 0 <= k < |t| - 2 ==> !(BlankAt(t, k) && t[k + 2] == '\n')
    ensures Join("\n\n", SplitParagraphs(t)) == t
    decreases |t|
  {
    var i := FirstBlank(t, 0);
    if i < |t| {
      var rest := t[i + 2..];
      BlankIsTwo(t, i);
      forall k | 0 <= k < |rest| - 2 ensures !(BlankAt(rest, k) && rest[k + 2] == '\n') {
        assert !(BlankAt(t, i + 2 + k) && t[i + 2 + k + 2] == '\n');
      }
      SplitParagraphsJoin(rest);
      var tail := SplitParagraphs(rest);
      assert SplitParagraphs(t) == [t[..i]] + tail;
      JoinCons("\n\n", t[..i], tail);
    }
  }

  /** A blank line followed by no third newline is a run of exactly two, and
      the text is what precedes it, the run, and what follows. */
  lemma BlankIsTwo(t: string, i: nat)
    requires i < |t| && BlankAt(t, i)
    requires i + 2 < |t| ==> t[i + 2] != '\n'
    ensures RunLength(t[i..], IsNewline) == 2
    ensures t == t[..i] + "\n\n" + t[i + 2..]
  {
    assert t[i..][0] == '\n' && t[i..][1] == '\n';
    assert |t[i..]| > 2 ==> t[i..][2] != '\n';
    assert t[i..i + 2] == "\n\n";
    assert t == t[..i] + t[i..i + 2] + t[i + 2..];
  }

  /** Two paragraphs separated by exactly one blank line split into those two. */
  lemma SplitParagraphsPair(h: string, body: string)
    requires |h| > 0 && NoBlankLine(h) && h[|h| - 1] != '\n'
    requires NoBlankLine(body) && (|body| > 0 ==> body[0] != '\n')
    ensures SplitParagraphs(h + "\n\n" + body) == [h, body]
  {
    var t := h + "\n\n" + body;
    forall k | 0 <= k < |h| ensures !BlankAt(t, k) {
      if k < |h| - 1 {
        assert !BlankAt(h, k);
      }
    }
    assert BlankAt(t, |h|);
    assert FirstBlank(t, 0) == |h|;
    assert RunLength(t[|h|..], IsNewline) == 2 by {
      assert t[|h|..][0] == '\n' && t[|h|..][1] == '\n';
      assert |t[|h|..]| > 2 ==> t[|h|..][2] == body[0];
    }
    assert t[|h| + 2..] == body;
    assert t[..|h|] == h;
    SplitParagraphsSingle(body);
  }

  /** Cleaned text has no newline, so paragraph mode gives exactly one chunk. */
  lemma CleanTextOneParagraph(text: string)
    ensures SplitParagraphs(CleanText(text)) == [CleanText(text)]
  {
    var c := CleanText(text);
    forall i | 0 <= i < |c| ensures c[i] != '\n' {
      assert c[i] in c;
    }
    SplitParagraphsSingle(c);
  }

  // ---------------------------------------------------------------------------
  // Sentence mode: [' '.join(s[i:i+k]) for i in range(0, len(s), k)]

  function Min(a: int, b: int): int { if a <= b then a else b }

  /** The groups `s[i:i+k]` for `i` in `range(0, len(s), k)`, with `k > 0`. */
  function Groups(s: seq<string>, k: nat): (gs: seq<seq<string>>)
    requires k > 0
    ensures forall j :: 0 <= j < |gs| ==> 0 < |gs[j]| <= k
    decreases |s|
  {
    if |s| == 0 then [] else [s[..Min(k, |s|)]] + Groups(s[Min(k, |s|)..], k)
  }

  /** The groups, in order, are exactly the sentences. */
  lemma {:induction false} GroupsPartition(s: seq<string>, k: nat)
    requires k > 0
    ensures Flatten(Groups(s, k)) == s
    decreases |s|
  {
    if |s| > 0 {
      GroupsPartition(s[Min(k, |s|)..], k);
      assert s == s[..Min(k, |s|)] + s[Min(k, |s|)..];
    }
  }

  lemma MulSucc(j: nat, k: nat)
    ensures (j + 1) * k == j * k + k
  {
  }

  /** There are ceil(n/k) groups: the least `m` with `m * k >= n`. */
  lemma {:induction false} GroupsCount(s: seq<string>, k: nat)
    requires k > 0
    ensures |Groups(s, k)| * k >= |s|
    ensures |Groups(s, k)| > 0 ==> (|Groups(s, k)| - 1) * k < |s|
    ensures |Groups(s, k)| == 0 <==> |s| == 0
    decreases |s|
  {
    if |s| > 0 {
      var rest := s[Min(k, |s|)..];
      GroupsCount(rest, k);
      var m := |Groups(rest, k)|;
      MulSucc(m, k);
      if m > 0 {
        MulSucc(m - 1, k);
      }
    }
  }

  /** `j * k`, by repeated addition, so that the induction below stays linear. */
  function Stride(j: nat, k: nat): (r: nat)
    ensures r == j * k
  {
    if j == 0 then 0 else MulSucc(j - 1, k); Stride(j - 1, k) + k
  }

  lemma {:induction false} GroupAtStride(s: seq<string>, k: nat, j: nat)
    requires k > 0 && j < |Groups(s, k)|
    ensures Stride(j, k) < |s|
    ensures Groups(s, k)[j] == s[Stride(j, k) .. Min(Stride(j, k) + k, |s|)]
    decreases j
  {
    var m := Min(k, |s|);
    var rest := s[m..];
    assert Groups(s, k) == [s[..m]] + Groups(rest, k);
    if j > 0 {
      assert Groups(s, k)[j] == Groups(rest, k)[j - 1];
      GroupAtStride(rest, k, j - 1);
      var a := Stride(j - 1, k);
      assert m == k;
      assert Stride(j, k) == a + k;
      assert Min(a + k, |rest|) + k == Min(a + k + k, |s|);
      SliceShift(s, k, a, Min(a + k, |rest|));
    }
  }

  lemma SliceShift(s: seq<string>, m: nat, lo: nat, hi: nat)
    requires m <= |s| && lo <= hi <= |s| - m
    ensures s[m..][lo..hi] == s[m + lo .. m + hi]
  {
  }

  /** Group `j` is `s[j*k .. min((j+1)*k, n)]`. */
  lemma GroupAt(s: seq<string>, k: nat, j: nat)
    requires k > 0 && j < |Groups(s, k)|
    ensures j * k < |s|
    ensures Groups(s, k)[j] == s[j * k .. Min(j * k + k, |s|)]
  {
    GroupAtStride(s, k, j);
  }

  /** The sentence-mode comprehension; `range` rejects a zero step. */
  function GroupSentences(sentences: seq<string>, k: int): (r: Result<seq<string>>)
    ensures r.Err? <==> k == 0
    ensures k < 0 ==> r == Ok([])
  {
    if k == 0 then Err(ValueError("range() arg 3 must not be zero"))
    else if k < 0 then Ok([])
    else
      var gs := Groups(sentences, k);
      Ok(seq(|gs|, j requires 0 <= j < |gs| => Join(" ", gs[j])))
  }

  /** The sentence-mode result in closed form: ceil(n/k) chunks (none for no
      sentences), chunk `j` the
      space-join of sentences `j*k` up to `(j+1)*k`. */
  lemma SentenceChunks(sentences: seq<string>, k: int)
    requires k > 0
    ensures GroupSentences(sentences, k).Ok?
    ensures |GroupSentences(sentences, k).value| * k >= |sentences|
    ensures |GroupSentences(sentences, k).value| > 0 ==>
              (|GroupSentences(sentences, k).value| - 1) * k < |sentences|
    ensures |GroupSentences(sentences, k).value| == 0 <==> |sentences| == 0
    ensures forall j :: 0 <= j < |GroupSentences(sentences, k).value| ==>
              GroupSentences(sentences, k).value[j]
              == Join(" ", sentences[j * k .. Min(j * k + k, |sentences|)])
  {
    GroupsCount(sentences, k);
    forall j | 0 <= j < |Groups(sentences, k)|
      ensures j * k < |sentences|
      ensures Groups(sentences, k)[j] == sentences[j * k .. Min(j * k + k, |sentences|)]
    {
      GroupAt(sentences, k, j);
    }
  }

  datatype Mode = Paragraph | Sentence

  /** `split_into_chunks`; `mode` is `Paragraph` exactly when the `method` argument is
      the string 'paragraph', every other string selects sentence mode. */
  function SplitIntoChunks(text: string, mode: Mode, k: int,
                           sentTokenize: string -> seq<string>): (r: Result<seq<string>>)
    ensures r.Err? <==> mode == Sentence && k == 0
    ensures mode == Paragraph ==> r == Ok(SplitParagraphs(text))
  {
    match mode
    case Paragraph => Ok(SplitParagraphs(text))
    case Sentence => GroupSentences(sentTokenize(text), k)
  }
}

=== FILE: token_counter.dfy ===
/** `TokenCounter` of `src/utils/token_counter.py`. The tokenizer's
    `len(encoding.encode(text))` is the parameter `count`; prices and costs are
    exact reals. */
module TokenCounter {
  import opened Wrappers

  /** Dollars per thousand tokens. */
  const EmbeddingPrice: real := 0.00002
  const InputPrice: real := 0.0025
  const CachedInputPrice: real := 0.00125
  const OutputPrice: real := 0.01

  /** The counter's `usage` dictionary. */
  datatype Ledger = Ledger(
    embeddingTokens: int,
    embeddingCost: real,
    inputTokens: int,
    cachedInputTokens: int,
    outputTokens: int,
    completionCost: real)

  /** A message of a chat request: role and content. */
  type Message = map<string, string>

  /** A new counter: every count and cost zero. */
  function Fresh(): (l: Ledger)
    ensures l.embeddingTokens == l.inputTokens == l.cachedInputTokens == l.outputTokens == 0
    ensures l.embeddingCost == l.completionCost == 0.0
  {
    Ledger(0, 0.0, 0, 0, 0, 0.0)
  }

  /** The cost of `tokens` at `price` per thousand. */
  function Cost(tokens: int, price: real): real
  {
    (tokens as real / 1000.0) * price
  }

  lemma CostAdd(a: int, b: int, price: real)
    ensures Cost(a + b, price) == Cost(a, price) + Cost(b, price)
  {
  }

  /** The summed token count of `texts`. */
  function Tokens(texts: seq<string>, count: string -> nat): nat
  {
    if |texts| == 0 then 0 else count(texts[0]) + Tokens(texts[1..], count)
  }

  lemma {:induction false} TokensAppend(a: seq<string>, b: seq<string>, count: string -> nat)
    ensures Tokens(a + b, count) == Tokens(a, count) + Tokens(b, count)
  {
    if |a| == 0 {
      assert a + b == b;
    } else {
      assert (a + b)[1..] == a[1..] + b;
      TokensAppend(a[1..], b, count);
    }
  }

  /** Every cost is what the counted tokens are worth: the invariant the
      counter keeps. */
  predicate Consistent(l: Ledger)
  {
    && l.embeddingCost == Cost(l.embeddingTokens, EmbeddingPrice)
    && l.completionCost == Cost(l.inputTokens, InputPrice) + Cost(l.cachedInputTokens, CachedInputPrice)
                           + Cost(l.outputTokens, OutputPrice)
  }

  /** `track_embedding`: the texts' tokens and their cost are added to the
      embedding entry. */
  function TrackEmbedding(l: Ledger, texts: seq<string>, count: string -> nat): (r: Ledger)
    ensures r.embeddingTokens == l.embeddingTokens + Tokens(texts, count)
    ensures r.embeddingCost == l.embeddingCost + Cost(Tokens(texts, count), EmbeddingPrice)
    ensures r.embeddingTokens >= l.embeddingTokens && r.embeddingCost >= l.embeddingCost
    ensures r.inputTokens == l.inputTokens && r.cachedInputTokens == l.cachedInputTokens
    ensures r.outputTokens == l.outputTokens && r.completionCost == l.completionCost
    ensures Consistent(l) ==> Consistent(r)
  {
    var total := Tokens(texts, count);
    l.(embeddingTokens := l.embeddingTokens + total,
       embeddingCost := l.embeddingCost + Cost(total, EmbeddingPrice))
  }

  /** The tokens of every message's `content`; a message without one raises
      `KeyError`. */
  function InputTokens(messages: seq<Message>, count: string -> nat): (r: Result<nat>)
    ensures r.Err? <==> exists i :: 0 <= i < |messages| && "content" !in messages[i]
    ensures r.Err? ==> r.error == KeyError("content")
    ensures r.Ok? ==> r.value == Tokens(Contents(messages), count)
  {
    if |messages| == 0 then Ok(0)
    else if "content" !in messages[0] then Err(KeyError("content"))
    else
      var rest :- InputTokens(messages[1..], count);
      assert forall i :: 1 <= i < |messages| ==> messages[i] == messages[1..][i - 1];
      assert Contents(messages)[1..] == Contents(messages[1..]);
      Ok(count(messages[0]["content"]) + rest)
  }

  /** The `content` of every message, in order. */
  function Contents(messages: seq<Message>): (texts: seq<string>)
    requires forall i :: 0 <= i < |messages| ==> "content" in messages[i]
    ensures |texts| == |messages|
    ensures forall i :: 0 <= i < |messages| ==> texts[i] == messages[i]["content"]
  {
    seq(|messages|, i requires 0 <= i < |messages| => messages[i]["content"])
  }

  /** `track_completion`. The input tokens go to the cached or the standard
      counter; `None` completion tokens (a completion without `usage`) raise
      `TypeError` when the output cost is computed, before anything is
      updated. */
  function TrackCompletion(l: Ledger, messages: seq<Message>, completionTokens: Option<int>,
                           cached: bool, count: string -> nat): (r: Result<Ledger>)
    ensures r.Ok? <==> completionTokens.Some? && forall i :: 0 <= i < |messages| ==> "content" in messages[i]
    ensures r.Ok? ==> r.value.embeddingTokens == l.embeddingTokens && r.value.embeddingCost == l.embeddingCost
    ensures r.Ok? ==> r.value.outputTokens == l.outputTokens + completionTokens.value
    ensures r.Ok? ==>
              r.value.completionCost
              == l.completionCost + Cost(InputTokens(messages, count).value, if cached then CachedInputPrice else InputPrice)
                 + Cost(completionTokens.value, OutputPrice)
    ensures r.Ok? && completionTokens.value >= 0 ==>
              r.value.outputTokens >= l.outputTokens && r.value.completionCost >= l.completionCost
    ensures r.Ok? && cached ==>
              && r.value.cachedInputTokens == l.cachedInputTokens + InputTokens(messages, count).value
              && r.value.inputTokens == l.inputTokens
    ensures r.Ok? && !cached ==>
              && r.value.inputTokens == l.inputTokens + InputTokens(messages, count).value
              && r.value.cachedInputTokens == l.cachedInputTokens
    ensures r.Ok? && Consistent(l) ==> Consistent(r.value)
  {
    var input :- InputTokens(messages, count);
    var price := if cached then CachedInputPrice else InputPrice;
    if completionTokens.None? then
      Err(TypeError("unsupported operand type(s) for /: 'NoneType' and 'int'"))
    else
      var output := completionTokens.value;
      var cost := Cost(input, price) + Cost(output, OutputPrice);
      var l' := if cached then l.(cachedInputTokens := l.cachedInputTokens + input)
                else l.(inputTokens := l.inputTokens + input);
      Ok(l'.(outputTokens := l.outputTokens + output, completionCost := l.completionCost + cost))
  }

  /** The report's total: embedding plus completion cost, which for a
      consistent counter is the worth of the counted tokens. */
  function TotalCost(l: Ledger): (r: real)
    ensures Consistent(l) ==>
              r == Cost(l.embeddingTokens, EmbeddingPrice) + Cost(l.inputTokens, InputPrice)
                   + Cost(l.cachedInputTokens, CachedInputPrice) + Cost(l.outputTokens, OutputPrice)
  {
    l.embeddingCost + l.completionCost
  }

  /** A fresh counter is consistent, so every counter built by the two
      tracking calls is. */
  lemma FreshConsistent()
    ensures Consistent(Fresh())
  {
  }

  /** Tracking two batches of embeddings is tracking their concatenation. */
  lemma EmbeddingBatches(l: Ledger, a: seq<string>, b: seq<string>, count: string -> nat)
    ensures TrackEmbedding(TrackEmbedding(l, a, count), b, count) == TrackEmbedding(l, a + b, count)
  {
    TokensAppend(a, b, count);
    CostAdd(Tokens(a, count), Tokens(b, count), EmbeddingPrice);
  }

  /** `n` completions of `t` output tokens each, from a fresh counter. */
  function Completions(n: nat, messages: seq<Message>, t: int, count: string -> nat): Result<Ledger>
  {
    if n == 0 then Ok(Fresh())
    else
      var l :- Completions(n - 1, messages, t, count);
      TrackCompletion(l, messages, Some(t), false, count)
  }

  /** After `n` successful completions the output counter is `n * t` and the
      embedding entry is still zero. */
  lemma {:induction false} CompletionsCount(n: nat, messages: seq<Message>, t: int, count: string -> nat)
    requires forall i :: 0 <= i < |messages| ==> "content" in messages[i]
    ensures Completions(n, messages, t, count).Ok?
    ensures Completions(n, messages, t, count).value.outputTokens == n * t
    ensures Completions(n, messages, t, count).value.embeddingTokens == 0
    ensures Consistent(Completions(n, messages, t, count).value)
  {
    if n > 0 {
      CompletionsCount(n - 1, messages, t, count);
      assert (n - 1) * t + t == n * t;
    }
  }
}

=== FILE: wrappers.dfy ===
/** Failure-compatible results for the Python exceptions the modelled code raises. */
module Wrappers {

  /** The exceptions the modelled code can raise, by Python class. */
  datatype Error =
    | ValueError(message: string)
    | KeyError(key: string)
    | TypeError(message: string)
    | AttributeError(name: string)

  datatype Option<+T> = None | Some(value: T)

  /** A value, or the exception that replaced it. Usable with `:-`. */
  datatype Result<+T> = Ok(value: T) | Err(error: Error) {

    predicate IsFailure() {
      Err?
    }

    function PropagateFailure<U>(): Result<U>
      requires Err?
    {
      Err(error)
    }

    function Extract(): T
      requires Ok?
    {
      value
    }
  }
}
